=== FILE: README.md ===
# Dallas Mavericks draft dashboard — scout-ranking engine in Dafny

This project models the computational core of a draft-prospect dashboard. The
dashboard joins player bios with the rankings of five scouts (ESPN, Sam
Vecenie, Kevin O'Connor, Kyle Boone, Gary Parrish). It derives a one-decimal
average and an integer consensus rank and builds several views from them:

- the Big Board, which merges saved manual ranks with consensus, sorts,
  renumbers and persists the order, and is reordered by drag and drop;
- the Scout Rankings page, with one consensus tab and five per-scout tabs;
- the Home page, which selects the top three by consensus;
- the Player Profile, which shows a consensus position, a season list and a
  per-player scouting-notes store;
- the Prospects page, with the latest-season choice, a search and a league
  filter.

Around these sit the pure helpers of the type modules: bios, game logs,
season logs, highlights and scouting reports.

The model is functional:

- Records are immutable datatypes. JavaScript `NaN` is `None` of an
  `Option<int>` (`JsMath.Num`).
- Averages are counted in integer tenths and percentages in tenths of a
  percent. `Math.round` is half-up rounding (`JsMath.RoundDiv`), as
  ECMA-262, 2023 edition, section 21.3.2.28 defines it.
- Every `Array.prototype.sort` is a stable insertion sort over the same
  comparator (`Sorting.Sort`). ECMA-262, 2023 edition, section 23.1.3.30
  requires a stable sort.
- Local storage is an explicit value passed in and returned:
  `Missing | Corrupt | Present(entries)` for the saved ranks, and
  `NoNotes | CorruptNotes | Notes(map)` for the notes.

Modules follow the source layout:

- base modules: `Wrappers`, `Seqs`, `Sorting`, `Text` (JavaScript string
  built-ins) and `JsMath` (JavaScript numbers);
- one module per type file: `ScoutRankings`, `Bio`, `GameLogs`,
  `SeasonLogs`, `Highlights`, `ScoutingReports`, plus `Draft` for the shared
  draft data;
- one module per page: `BigBoard`, `RankingsPage`, `HomePage`,
  `PlayerProfile`, `Prospects`;
- `BoardReload`, about what survives a reload of the Big Board after a
  drag, with the counterexample and the corrected load of the finding below.

A note on the consensus rank. The source comments call it the rounded
average, but the code rounds twice: first to one decimal, then to an
integer. The model follows the code (`ScoutRankings.Consensus`).
`ScoutRankings.RoundedMean` proves that with at most five scouts the double
rounding always equals the single half-up rounding of the raw mean.

## Model

| member | source | states |
|---|---|---|
| ScoutRankings.ScoutNames | frontend/src/types/scoutRankings.ts:71-79 | exactly the five scout rank fields, in declaration order, pairwise distinct |
| ScoutRankings.RankByScout | frontend/src/types/scoutRankings.ts:82-87 | the value is the rank field that belongs to the chosen scout |
| ScoutRankings.ValidRanks | frontend/src/types/scoutRankings.ts:27-35 | at most five entries, all greater than zero, an order-preserving subsequence of the five ranks, and exactly as long as the number of positive ranks among them |
| ScoutRankings.ValidRanksKeepsPositive | frontend/src/types/scoutRankings.ts:27-35 | every positive rank is kept with all its copies and every other value is dropped |
| ScoutRankings.AverageTenths | frontend/src/types/scoutRankings.ts:26-39 | undefined (NaN) iff no rank is positive; otherwise the tenths are 10·sum/count rounded half-up |
| ScoutRankings.Consensus | frontend/src/types/scoutRankings.ts:42-44 | undefined iff the average is; otherwise the one-decimal average rounded half-up to an integer |
| ScoutRankings.RoundedMean | frontend/src/types/scoutRankings.ts:36-44 | with a valid rank, the double-rounded consensus equals sum/count rounded half-up once |
| ScoutRankings.ConsensusIsRoundedMean | frontend/src/types/scoutRankings.ts:36-44 | the same agreement stated for every ranking, vacuous when no rank is valid |
| ScoutRankings.AverageWithinRange | frontend/src/types/scoutRankings.ts:26-67 | with a valid rank, min ≤ average ≤ max (in tenths) and min ≤ consensus ≤ max |
| ScoutRankings.RankingSpread | frontend/src/types/scoutRankings.ts:47-67 | no spread iff no valid rank; otherwise min and max are valid ranks bounding all of them, and spread = max − min ≥ 0 |
| ScoutRankings.IsTopTen | frontend/src/types/scoutRankings.ts:90-92 | true iff some rank is valid and 2·sum < 21·count, i.e. the consensus exists and is at most 10 |
| ScoutRankings.IsFirstRound | frontend/src/types/scoutRankings.ts:95-97 | true iff some rank is valid and 2·sum < 61·count, i.e. the consensus exists and is at most 30 |
| ScoutRankings.ConsensusAtMost | frontend/src/types/scoutRankings.ts:90-97 | consensus defined and ≤ k iff 2·sum < (2k+1)·count, for any threshold k |
| ScoutRankings.TopTenIsFirstRound | frontend/src/types/scoutRankings.ts:90-97 | a top-ten player is a first-round player |
| Draft.FindRanking | frontend/src/pages/BigBoard.tsx:102-104 | the first ranking of the player; nothing when the list is absent or holds none; a result always belongs to the player |
| Bio.Age | frontend/src/types/bio.ts:48-62 | the year difference, minus one iff the birthday is not yet reached this year; the last birthday is on or before today and the next one after it |
| Bio.Feet | frontend/src/types/bio.ts:66 | floor of height/12 |
| Bio.Inches | frontend/src/types/bio.ts:67 | JavaScript remainder: below 12 in magnitude, the sign of the height, and 12·feet + inches = height for non-negative heights |
| Bio.FormatHeight | frontend/src/types/bio.ts:65-69 | the text ends in a double quote |
| Bio.HeightRoundTrip | frontend/src/types/bio.ts:65-69 | parsing the formatted height gives back the height; inches lie in 0..11 |
| Bio.IsInternational | frontend/src/types/bio.ts:82-84 | true iff the nationality is not "USA" |
| Bio.FirstChar | frontend/src/types/bio.ts:88 | the first character as a one-character string, or "" for an empty name |
| Bio.Initials | frontend/src/types/bio.ts:87-89 | first-name initial then last-name initial; an empty name adds nothing, so the length is at most 2 |
| GameLogs.DidTeamWin | frontend/src/types/gameLogs.ts:77-83 | won iff the player's side scored more; a tie is never a win; any isHome other than 1 counts as away |
| GameLogs.GetGameResult | frontend/src/types/gameLogs.ts:86-97 | "W" iff the team won, else "L"; the score parses back to team points then opponent points |
| GameLogs.FlipSide | frontend/src/types/gameLogs.ts:88-95 | flipping isHome swaps the score halves; the two sides never both win, and one wins iff the score is not tied |
| GameLogs.EffectiveFgTenths | frontend/src/types/gameLogs.ts:62-67 | 0 without attempts; otherwise (fgm + tpm/2)/fga in tenths of a percent, rounded half-up |
| SeasonLogs.TeamRecord | frontend/src/types/seasonLogs.ts:75-77 | the record parses back to wins and losses |
| SeasonLogs.WinningPctTenths | frontend/src/types/seasonLogs.ts:80-84 | 0 without games; otherwise 1000·w/(w+l) rounded half-up; within 0..1000, 0 without wins, 1000 without losses |
| SeasonLogs.StarterPctTenths | frontend/src/types/seasonLogs.ts:134-137 | 0 without games; otherwise 1000·GS/GP rounded half-up; never negative, at most 1000 when GS ≤ GP |
| SeasonLogs.TrueShootingTenths | frontend/src/types/seasonLogs.ts:53-57 | 0 without attempts; otherwise PTS/(2·(FGA + 0.44·FTA)) in tenths of a percent, rounded half-up |
| SeasonLogs.ShootingGrade | frontend/src/types/seasonLogs.ts:118-131 | the grade's place in the ladder equals the number of thresholds 45/48/51/54/57/60/65 the value reaches |
| SeasonLogs.ShootingGradeMonotone | frontend/src/types/seasonLogs.ts:123-130 | a higher true-shooting value never gives a lower grade |
| SeasonLogs.SeasonShootingGrade | frontend/src/types/seasonLogs.ts:118-122 | the grade of a season is the ladder applied to its true-shooting value |
| SeasonLogs.IsDoubleDouble | frontend/src/types/seasonLogs.ts:105-115 | true iff at least two of points, rebounds, assists, steals and blocks average ten or more |
| SeasonLogs.LastTwo | frontend/src/types/seasonLogs.ts:156 | the last two characters, or the whole string when it is shorter |
| SeasonLogs.FormatSeason | frontend/src/types/seasonLogs.ts:155-157 | for a season of two digits or more, the label parses back to the previous year and the season's last two digits |
| SeasonLogs.SeasonLabelDigits | frontend/src/types/seasonLogs.ts:156 | the two-character tail is the tens and units digit of the season |
| Highlights.PlayerHighlights | frontend/src/types/highlights.ts:15-22 | an order-preserving subsequence holding exactly the player's highlights, each with all of its copies |
| Highlights.HasHighlights | frontend/src/types/highlights.ts:27-34 | true iff the player's highlight list is non-empty |
| Highlights.FirstHighlight | frontend/src/types/highlights.ts:39-45 | null iff the player has no highlight; otherwise the first of the player's highlights in data order |
| Highlights.IdRunLength | frontend/src/types/highlights.ts:52 | the longest prefix free of `&`, `?`, `#` and newline |
| Highlights.MarkerAt | frontend/src/types/highlights.ts:52 | which alternative of the pattern matches at a position, tried in order; none iff neither does |
| Highlights.IdAt | frontend/src/types/highlights.ts:52-54 | the captured id is non-empty, made of id characters, and extends as far as id characters go |
| Highlights.FirstMatchSkip | frontend/src/types/highlights.ts:51-53 | a position with no match does not change the leftmost match |
| Highlights.VideoIdFrom | frontend/src/types/highlights.ts:51-54 | none iff no position from i on matches; otherwise the id captured at the leftmost match |
| Highlights.VideoId | frontend/src/types/highlights.ts:50-55 | null iff the pattern matches nowhere; otherwise the id at the leftmost match, non-empty and free of `&`, `?`, `#` and newline |
| Highlights.EmbedUrl | frontend/src/types/highlights.ts:60-63 | null iff the video id is null; otherwise the embed prefix followed by exactly the id |
| Highlights.ThumbnailUrl | frontend/src/types/highlights.ts:68-73 | null iff the video id is null; otherwise the thumbnail prefix, the id and the fixed suffix |
| ScoutingReports.WordCount | frontend/src/types/scoutingReports.ts:33-35 | one more than the number of whitespace runs in the trimmed report, so at least 1, and exactly 1 for a blank report |
| ScoutingReports.ReadingTime | frontend/src/types/scoutingReports.ts:38-42 | at least 1 minute, and the smallest t with words ≤ 200·t |
| ScoutingReports.CutLength | frontend/src/types/scoutingReports.ts:50 | the length `substring(0, maxLength)` keeps, clamped to 0..length |
| ScoutingReports.PreviewLength | frontend/src/types/scoutingReports.ts:50-55 | the cut point is the last space past 0.8·maxLength when there is one, and the whole truncated text otherwise |
| ScoutingReports.Preview | frontend/src/types/scoutingReports.ts:45-56 | the report unchanged when it fits; otherwise that prefix followed by "...", at most three characters longer than the cut |
| ScoutingReports.ReportsForPlayer | frontend/src/types/scoutingReports.ts:77-82 | an order-preserving subsequence holding exactly the player's reports, each with all of its copies |
| ScoutingReports.ReportsByScout | frontend/src/types/scoutingReports.ts:67-74 | an order-preserving subsequence holding exactly the reports whose scout matches the name ignoring case, each with all of its copies |
| ScoutingReports.LowerIdempotent | frontend/src/types/scoutingReports.ts:72 | lower-casing twice is lower-casing once |
| ScoutingReports.ReportsByScoutIgnoresCase | frontend/src/types/scoutingReports.ts:67-74 | asking with the lower-cased name gives the same reports |
| ScoutingReports.Scouts | frontend/src/types/scoutingReports.ts:99 | the scout of each report, in order |
| ScoutingReports.UniqueScouts | frontend/src/types/scoutingReports.ts:98-101 | strictly increasing in code-unit order, with the same names as the reports |
| ScoutingReports.SortedNames | frontend/src/types/scoutingReports.ts:100 | sorting distinct names gives a strictly increasing list with the same members |
| ScoutingReports.AnalyzeSentiment | frontend/src/types/scoutingReports.ts:104-158 | each list is a subsequence of its fixed keyword list and holds a keyword iff the lower-cased report contains it; neutral is empty |
| ScoutingReports.KeywordsFound | frontend/src/types/scoutingReports.ts:146-152 | an order-preserving subsequence of the keywords holding exactly those the text contains |
| ScoutingReports.LengthPoints | frontend/src/types/scoutingReports.ts:196-199 | 10 points plus 10 for each of 150, 300 and 500 words the report reaches, so 10 to 40 |
| ScoutingReports.SentimentPoints | frontend/src/types/scoutingReports.ts:202-206 | 10 points plus 10 for each of 5 and 10 sentiment words found, so 10 to 30 |
| ScoutingReports.ComprehensivenessScore | frontend/src/types/scoutingReports.ts:188-211 | the score lies in 20..100 |
| ScoutingReports.ProjectionBonus | frontend/src/types/scoutingReports.ts:209 | a found projection adds exactly 30 points |
| ScoutingReports.LengthPointsMonotone | frontend/src/types/scoutingReports.ts:196-199 | a longer report never earns fewer length points |
| BigBoard.Renumber | frontend/src/pages/BigBoard.tsx:161-164 | same players in the same order, with ranks exactly 1..N |
| BigBoard.SaveRankings | frontend/src/pages/BigBoard.tsx:43-54 | the store holds one (id, rank) entry per board row, in board order |
| BigBoard.LoadEntriesKeys | frontend/src/pages/BigBoard.tsx:64-66 | an id is loaded iff some saved entry carries it |
| BigBoard.LoadEntriesValues | frontend/src/pages/BigBoard.tsx:64-66 | the loaded rank of an id is that of its last saved entry |
| BigBoard.LoadRankings | frontend/src/pages/BigBoard.tsx:57-75 | a missing or corrupt store loads as the empty map; otherwise the keys are the saved ids and each value comes from the id's last entry |
| BigBoard.SaveLoadRoundTrip | frontend/src/pages/BigBoard.tsx:43-66 | with distinct ids, loading what was saved maps exactly the board's ids to their ranks |
| BigBoard.ResetRankings | frontend/src/pages/BigBoard.tsx:261-270 | after reset nothing loads |
| BigBoard.Candidates | frontend/src/pages/BigBoard.tsx:99-126 | one row per bio; consensus from the player's ranking, or bio index + 1 without one; the rank is the saved rank when present and truthy, else the consensus |
| BigBoard.BuildBoard | frontend/src/pages/BigBoard.tsx:78-179 | no bios gives an empty board with the store kept; otherwise the ordered candidates renumbered 1..N, re-saved iff saved ranks were loaded |
| BigBoard.OrderedMembers | frontend/src/pages/BigBoard.tsx:127-159 | with saved ranks the order is a permutation of all candidates; without them, of the kept ones; membership matches either way |
| BigBoard.UnrankedKept | frontend/src/pages/BigBoard.tsx:130 | a player without any ranking is never dropped |
| BigBoard.KeptHaveConsensus | frontend/src/pages/BigBoard.tsx:127-133 | every kept candidate has a positive consensus |
| BigBoard.OrderedByConsensus | frontend/src/pages/BigBoard.tsx:141-144 | without saved ranks the board ascends by consensus |
| BigBoard.OrderedByConsensusThenAverage | frontend/src/pages/BigBoard.tsx:141-155 | without saved ranks, and with every player ranked, the board ascends by consensus, then by average |
| BigBoard.CompareConsensusAgrees | frontend/src/pages/BigBoard.tsx:142-155 | for fully ranked players the comparator's sign agrees with the consensus-then-average order |
| BigBoard.SortRanked | frontend/src/pages/BigBoard.tsx:135-159 | sorting fully ranked players yields the consensus-then-average order |
| BigBoard.TiesKeepBioOrder | frontend/src/pages/BigBoard.tsx:142-158 | without saved ranks, players sharing consensus and average keep bio order |
| BigBoard.OrderedBySavedRank | frontend/src/pages/BigBoard.tsx:136-139 | with saved ranks (all defined) the board ascends by rank, and equal ranks keep bio order |
| BigBoard.TakeFrom | frontend/src/pages/BigBoard.tsx:220-225 | the index splice removes from: the dragged index, or the last row when the id is not found |
| BigBoard.HandleDrop | frontend/src/pages/BigBoard.tsx:212-245 | no-op without a dragged player or when it is dropped on its own row; whenever it is dropped on another row (an id not on the board counts as the last row) the entries are moved from that row to the drop row, the ranks renumbered 1..N and the result saved |
| BigBoard.MoveEntries | frontend/src/pages/BigBoard.tsx:224-226 | moving rows moves their entries the same way |
| BigBoard.DropMovesPlayer | frontend/src/pages/BigBoard.tsx:220-232 | the dragged player lands at the drop index; the other players keep their relative order; the board is a permutation |
| BigBoard.CandidatesResolve | frontend/src/pages/BigBoard.tsx:99-126 | each candidate is its bio-and-ranking entry resolved against the saved ranks, so the entries do not depend on what was saved |
| BoardReload.ResolveSaved | frontend/src/pages/BigBoard.tsx:43-66 | resolving a board ranked 1..N with distinct ids against its own saved ranks gives the board back |
| BoardReload.ResolvedSortIsBoard | frontend/src/pages/BigBoard.tsx:114-139 | resolving any permutation of a saved board's entries and sorting by saved rank gives the saved board |
| BoardReload.RenumberRanked | frontend/src/pages/BigBoard.tsx:161-164 | renumbering a board already ranked 1..N changes nothing |
| BoardReload.ReloadsAs | frontend/src/pages/BigBoard.tsx:95-139 | a saved board with distinct ids is found again as a non-empty rank map, and sorting its resolved entries rebuilds it |
| BoardReload.FullFirstBoard | frontend/src/pages/BigBoard.tsx:127-133 | when the first load keeps every bio, its board holds exactly the candidate entries |
| BoardReload.DropSurvivesReload | frontend/src/pages/BigBoard.tsx:95-175 | when the first load kept every bio and ids are distinct, reloading after a drop rebuilds the dropped board, so a dragged player found on the board sits at the drop row |
| BoardReload.ThreeFirstBoard | frontend/src/pages/BigBoard.tsx:127-133 | with nothing saved, the player with a NaN consensus is filtered out of the first board |
| BoardReload.ThreeDrop | frontend/src/pages/BigBoard.tsx:212-245 | dragging player 3 onto row 0 of [2, 3] gives [3, 2] and saves (3, 1), (2, 2) |
| BoardReload.ThreeReload | frontend/src/pages/BigBoard.tsx:114-139 | after that save the filtered player returns with a NaN rank, which compares as 0, and the board is [1, 3, 2] |
| BoardReload.ThreeReloadLosesDrop | frontend/src/pages/BigBoard.tsx:95-245 | for any data with those three candidates, the drag of player 3 to row 0 does not survive a reload: player 1 takes row 0 |
| BoardReload.SampleReloadLosesDrop | frontend/src/pages/BigBoard.tsx:95-245 | the same for concrete bios 1, 2, 3 where all five scouts rank player 1 as 0 |
| BoardReload.BuildBoardFiltered | frontend/src/pages/BigBoard.tsx:127-133 | the load with the consensus filter on every load: ranks 1..N, re-saved iff ranks were loaded, and equal to the page's load when nothing is saved |
| BoardReload.KeptResolve | frontend/src/pages/BigBoard.tsx:114-133 | the kept candidates are the kept entries resolved against the saved ranks |
| BoardReload.FilteredFirstBoard | frontend/src/pages/BigBoard.tsx:127-133 | the filtered load's board holds exactly the kept candidate entries |
| BoardReload.FilteredDropSurvivesReload | frontend/src/pages/BigBoard.tsx:95-245 | with the filter on every load and distinct ids, reloading after any drop rebuilds the dropped board, so the dragged player sits at the drop row |
| RankingsPage.Join | frontend/src/pages/ScoutRankings.tsx:65-79 | each row carries the player's first ranking and its consensus |
| RankingsPage.RowBios | frontend/src/pages/ScoutRankings.tsx:74 | the bio of each row, in order |
| RankingsPage.JoinIsRankedBios | frontend/src/pages/ScoutRankings.tsx:65-79 | the joined rows are exactly the bios with a ranking, in bio order |
| RankingsPage.LoadRows | frontend/src/pages/ScoutRankings.tsx:49-87 | no rows when bios or rankings are missing; otherwise the bios with a ranking, in order |
| RankingsPage.TabRank | frontend/src/pages/ScoutRankings.tsx:98-107 | the consensus on the consensus tab, that scout's rank on a scout tab |
| RankingsPage.WithTabRank | frontend/src/pages/ScoutRankings.tsx:96-113 | each row with its rank replaced by the tab's rank |
| RankingsPage.Displayed | frontend/src/pages/ScoutRankings.tsx:93-134 | no rows leaves the previous list; otherwise a permutation of the filtered tab rows |
| RankingsPage.DisplayedAreRanked | frontend/src/pages/ScoutRankings.tsx:96-115 | every shown row has a positive tab rank, and every row with one is shown |
| RankingsPage.ConsensusTabOrder | frontend/src/pages/ScoutRankings.tsx:117-127 | the consensus tab ascends by consensus, then by average |
| RankingsPage.ScoutTabOrder | frontend/src/pages/ScoutRankings.tsx:128-131 | a scout tab ascends by that scout's rank, and equal ranks keep input order |
| RankingsPage.TabCount | frontend/src/pages/ScoutRankings.tsx:180-189 | the tab count never exceeds the rows |
| RankingsPage.CountMatchesRanked | frontend/src/pages/ScoutRankings.tsx:180-189 | the counting filter and the display filter select the same number of rows |
| RankingsPage.TabCountIsShown | frontend/src/pages/ScoutRankings.tsx:180-189 | each tab's count equals the length of the list that tab shows |
| RankingsPage.Positions | frontend/src/pages/ScoutRankings.tsx:226 | the shown positions are 1..N, strictly increasing, without gaps |
| PlayerProfile.Entries | frontend/src/pages/PlayerProfile.tsx:273-278 | one (id, consensus, average) entry per ranking, in order |
| PlayerProfile.SortPositions | frontend/src/pages/PlayerProfile.tsx:280-285 | sorting entries with defined ranks yields the consensus-then-average order |
| PlayerProfile.PositionListOrdered | frontend/src/pages/PlayerProfile.tsx:273-285 | the list ascends by consensus then average and holds exactly the entries with positive consensus |
| PlayerProfile.ConsensusPosition | frontend/src/pages/PlayerProfile.tsx:268-293 | raw consensus without rankings; otherwise one more than the player's first index in the list, or the raw consensus when absent |
| PlayerProfile.UnrankedPositionIsConsensus | frontend/src/pages/PlayerProfile.tsx:279-292 | a player whose rankings all lack a positive consensus falls back to the raw consensus |
| PlayerProfile.PlayerSeasons | frontend/src/pages/PlayerProfile.tsx:202-220 | no logs give no seasons; every season shown belongs to the player |
| PlayerProfile.PlayerSeasonsFacts | frontend/src/pages/PlayerProfile.tsx:202-220 | sorting the player's logs keeps only the player's logs |
| PlayerProfile.PlayerSeasonsOrdered | frontend/src/pages/PlayerProfile.tsx:220 | newest season first, and logs of the same season keep data order |
| PlayerProfile.LoadAllNotes | frontend/src/pages/PlayerProfile.tsx:65-85 | a missing or corrupt store loads as the empty map |
| PlayerProfile.PlayerNotes | frontend/src/pages/PlayerProfile.tsx:96-99 | the player's stored list, or empty |
| PlayerProfile.AddNote | frontend/src/pages/PlayerProfile.tsx:88-121 | the note carries the id and the two separate clock readings for creation and update; when the write succeeds exactly the new note is appended to the player's list and every other player's list is unchanged; when `setItem` throws the store is as before and the note is still returned |
| PlayerProfile.UpdateNote | frontend/src/pages/PlayerProfile.tsx:123-145 | null iff no note has the id, and then nothing changes; otherwise the first such note keeps id, player and creation time, takes the given title and content and gets the new time; a successful write changes nothing else, a failed one leaves the store as it was |
| PlayerProfile.DeleteNote | frontend/src/pages/PlayerProfile.tsx:147-159 | false iff no note has the id, and then nothing changes; otherwise true, and a successful write removes every note with the id, keeps the rest in order and leaves other players unchanged, while a failed write leaves the store as it was |
| PlayerProfile.HandleAddNote | frontend/src/pages/PlayerProfile.tsx:296-309 | refused iff the title or content is blank or no player is loaded; otherwise adds the trimmed, non-empty title and content |
| PlayerProfile.AddedNoteLoads | frontend/src/pages/PlayerProfile.tsx:96-121 | after a successful add, loading the player's notes gives the old list with the new note at its end |
| PlayerProfile.AddThenDelete | frontend/src/pages/PlayerProfile.tsx:101-159 | deleting a note just added under a fresh id, both writes succeeding, restores the player's list |
| PlayerProfile.DisplayNotes | frontend/src/pages/PlayerProfile.tsx:816-821 | the same notes, most recently updated first |
| PlayerProfile.DisplayNotesStable | frontend/src/pages/PlayerProfile.tsx:816-821 | notes updated at the same time keep their stored order |
| HomePage.Best | frontend/src/pages/HomePage.tsx:48-49 | min(N, 3) rows, the front of the rows sorted by consensus |
| HomePage.TopPlayers | frontend/src/pages/HomePage.tsx:23-49 | at most three; empty when bios or rankings are missing or the rankings are empty; otherwise the best of the joined rows |
| HomePage.BestAreCandidates | frontend/src/pages/HomePage.tsx:36-49 | the selection is a sub-multiset of the candidates |
| HomePage.TopPlayersAreRanked | frontend/src/pages/HomePage.tsx:35-47 | every selected player is a bio player with a ranking, shown with that ranking's consensus |
| HomePage.JoinedBioIsRanked | frontend/src/pages/HomePage.tsx:36-47 | every joined row is a bio player with its first ranking and that ranking's consensus |
| HomePage.PrefixIsBest | frontend/src/pages/HomePage.tsx:48-49 | a prefix of a sorted list holds ranks no greater than any row left out |
| HomePage.BestAreBest | frontend/src/pages/HomePage.tsx:48-49 | the selection ascends by consensus, and no row left out ranks better than a selected one |
| HomePage.BestTiesInOrder | frontend/src/pages/HomePage.tsx:48-49 | selected rows sharing a consensus are the first of those rows in bio order |
| Prospects.LatestSeason | frontend/src/pages/Prospects.tsx:53-58 | undefined iff no log has a season above 0; otherwise the first log with the maximal season |
| Prospects.LatestStep | frontend/src/pages/Prospects.tsx:54-56 | one reduce step keeps the latest-season property for the longer prefix |
| Prospects.LoadProspects | frontend/src/pages/Prospects.tsx:41-64 | no bios give no prospects; otherwise one per bio, in order, whose season (if any) is the player's and above 0; with season logs present, the season is the latest one among that player's season logs |
| Prospects.ProspectsFacts | frontend/src/pages/Prospects.tsx:48-58 | a chosen season belongs to the player and is above 0 |
| Prospects.Search | frontend/src/pages/Prospects.tsx:82-90 | a blank term keeps all; otherwise exactly the prospects whose lower-cased name or team contains the lower-cased term, each with all of its copies; always a subsequence |
| Prospects.ByLeague | frontend/src/pages/Prospects.tsx:93-98 | "all" is the identity; "ncaa" keeps exactly the NCAA prospects and "non-ncaa" the rest; always a subsequence |
| Prospects.LeaguesPartition | frontend/src/pages/Prospects.tsx:93-98 | the two league filters partition the list |
| Prospects.MissingLeagueIsNonNcaa | frontend/src/pages/Prospects.tsx:95 | a prospect without league type is non-NCAA |
| Prospects.Filtered | frontend/src/pages/Prospects.tsx:79-98 | filtering never adds or duplicates prospects |
| Prospects.FilteredMembers | frontend/src/pages/Prospects.tsx:79-98 | a prospect survives iff it is in the list, matches the term (or the term is blank) and fits the league choice |
| Prospects.SortedByAge | frontend/src/pages/Prospects.tsx:101-112 | the same prospects, ascending or descending by age |
| Prospects.SortedByAgeStable | frontend/src/pages/Prospects.tsx:101-112 | prospects of the same age keep their order |
| JsMath.RoundDiv | frontend/src/types/scoutRankings.ts:38 | n/d rounded half-up |
| JsMath.Minus | frontend/src/pages/BigBoard.tsx:138 | NaN when either operand is; otherwise the difference |
| JsMath.SortValue | frontend/src/pages/BigBoard.tsx:135-159 | a NaN comparator result counts as 0 |
| JsMath.Or | frontend/src/pages/BigBoard.tsx:115 | the left operand when truthy, otherwise the right |
| Seqs.FindIndex | frontend/src/pages/BigBoard.tsx:220 | −1 iff nothing matches; otherwise the first matching index |
| Seqs.Find | frontend/src/pages/ScoutRankings.tsx:67-69 | nothing iff nothing matches; otherwise the first match |
| Seqs.Move | frontend/src/pages/BigBoard.tsx:224-226 | the element lands at the target index; removing it gives back the source without it; a permutation |
| Seqs.FilterMembers | frontend/src/pages/ScoutRankings.tsx:115 | an element survives a filter iff it is in the input and satisfies the test |
| Sorting.Sort | frontend/src/pages/HomePage.tsx:48 | a permutation of the input |
| Sorting.SortSorted | frontend/src/pages/HomePage.tsx:48 | a comparator that agrees with a transitive order sorts by that order |
| Sorting.SortStable | frontend/src/pages/HomePage.tsx:48 | elements that compare as equal keep their input order |
| Text.Trim | frontend/src/types/scoutingReports.ts:34 | strips leading and trailing whitespace; empty iff the input is blank |
| Text.Split | frontend/src/types/scoutingReports.ts:34 | at least one piece, none containing whitespace |
| Text.SplitCountsRuns | frontend/src/types/scoutingReports.ts:34 | the number of pieces is one more than the number of whitespace runs |
| Text.Lower | frontend/src/types/scoutingReports.ts:60 | the same length, lower-cased character by character |
| Text.LastIndexOf | frontend/src/types/scoutingReports.ts:51 | −1 iff the character is absent; otherwise its last position |
| Text.NatToString | frontend/src/types/seasonLogs.ts:76 | decimal digits without a leading zero that parse back to the number |
| Text.IntToStringRoundTrip | frontend/src/types/seasonLogs.ts:156 | the decimal text of any integer parses back to it |
| Text.PairRoundTrip | frontend/src/types/seasonLogs.ts:76 | "a-b" parses back to the pair (a, b) |

## Left out

- React rendering, hooks, state setters, drag plumbing, image handlers and the confirm/reload calls are not modelled. They are UI glue; only the state changes they trigger are modelled.
- `localStorage` and `JSON.parse`/`JSON.stringify` are an explicit store value, passed in and returned. Any parse failure is the `Corrupt` case. `console` logging is dropped. A failing notes write (`setItem` throwing, caught in `saveAllNotes`) is the `written` flag of the notes operations.
- Note ids (`Date.now()`/`Math.random()`) and timestamps (`new Date()`) are parameters. Times are integers.
- Date-string parsing and time zones are not modelled. Ages take explicit calendar dates, with today as a parameter.
- The game-log date sort on the profile page is not modelled, because it works on parsed dates.
- The Prospects name sort (`localeCompare`) is not modelled, because it is locale-dependent. Only the two age orders are modelled.
- Floating point: all rates are exact rationals rounded half-up to integer tenths. The IEEE rounding of products that land near .5 is not modelled.
- PER, usage rate, assist-to-turnover ratio, `getKeyStats`, `isHighVolumeScorer`, `isEfficientShooter`, `timePlayedToMinutes` and `formatGameDate` are not modelled. They are floating-point or date display helpers.
- `extractDraftProjection` is a regex search, so it enters the score as an opaque boolean.
- `formatReportText`, `searchReports` and `containsKeywords` are not modelled. They are not part of the scored pipeline.
- `getFullLocation`, `getHighSchoolLocation`, the `isXxx` type guards, `App.tsx`, `NavBar.tsx` and the YouTube iframe are not modelled. They are display-only or structural.
- The handlers `handleEditNote`, `handleUpdateNote` and `handleDeleteNote` are not modelled separately. They only wrap the storage operations, which are modelled.
- Lower-casing covers ASCII and Latin-1 capitals only. Full Unicode case mapping is not modelled.
- Strings compare by character, which equals UTF-16 code-unit order only within the Basic Multilingual Plane.
- Number-to-string conversion is decimal digits only. Exponent notation for 1e21 and beyond is not modelled.
- Bio fields that are only displayed (photo, school, weight and so on) are omitted from the records.
- Game and season counts are naturals, since the data never holds negative counts.
- Player keys of the notes map are integers. `toString` on integers is injective, so this loses nothing.
- BigBoard.OrderedByConsensusThenAverage: needs every bio player to have a ranking. A tie between a ranked and an unranked player returns 0 while ranked ties return the average difference. That comparator is not consistent, and ECMA-262 leaves the resulting order implementation-defined. The model commits to insertion-sort order, and BigBoard.TiesKeepBioOrder covers the rest.
- BigBoard.SaveRankings: the write always succeeds. `saveRankingsToStorage` catches a throwing `setItem` (full quota, storage switched off) and the stored value stays as it was; that case is not modelled. BigBoard.BuildBoard and BigBoard.HandleDrop inherit this, and BoardReload.DropSurvivesReload and BoardReload.FilteredDropSurvivesReload hold only for writes that succeed.
- BigBoard.OrderedBySavedRank: needs every resolved rank to be defined. After a drag, a player dropped earlier for a NaN consensus can reappear with a NaN rank, which makes the comparator inconsistent. The consequence is that a drag can be lost on reload (see Findings). BoardReload.DropSurvivesReload therefore requires that the first load kept every bio.
- HomePage.BestAreBest: needs every consensus to be defined, for the same reason. HomePage.BestTiesInOrder holds without it.
- ScoutingReports.ComprehensivenessScore: its own contract states the range only. The point ladders are stated on ScoutingReports.LengthPoints and ScoutingReports.SentimentPoints, and the projection bonus on ScoutingReports.ProjectionBonus.
- Bio.FormatHeight: heights are whole inches. The source's number type also admits a fractional height such as 78.5, which it prints as 6'6.5"; fractional heights are not modelled.
- SeasonLogs.TrueShootingTenths: per-game averages (FGA, FTA, PTS, TRB, AST, STL, BLK) are whole tenths, while the source's `number` admits any value, such as PTS 9.95; finer averages are not modelled.
- SeasonLogs.IsDoubleDouble: points, rebounds, assists, steals and blocks per game are whole tenths, so an average such as 9.95 is not modelled; the ten-or-more test is exact on tenths.
- SeasonLogs.FormatSeason: states the round trip for seasons of at least 10 only. Shorter seasons have a one-character tail that is not a year.
- RankingsPage.TabCount: its own contract only bounds the count. Its meaning is in RankingsPage.TabCountIsShown.

## Findings

| source | as written | input that shows it | evidently intended | confidence | as-written member | corrected member |
|---|---|---|---|---|---|---|
| frontend/src/pages/BigBoard.tsx:127-139 | the NaN-consensus filter runs only when no ranks are saved; on a reload after a drag the filtered player returns with rank `undefined \|\| NaN`, and `a.rank - b.rank` treats NaN as 0 | bios 1, 2, 3; all five scouts rank player 1 as 0, player 2 as 1, player 3 as 2; the first board is [2, 3]; drag 3 onto row 0, which saves (3, 1), (2, 2); the reload shows [1, 3, 2] | the reloaded board is the dragged one, [3, 2] | medium, not executed | BoardReload.ThreeReloadLosesDrop | BoardReload.FilteredDropSurvivesReload |

=== FILE: BigBoard.dfy ===
/** The Big Board page: the draft board built from biographies, scout
    rankings and manually saved ranks; drag-and-drop reordering; and the
    saved-rank store under the key "mavs-draft-board-rankings". */
module BigBoard {
  import opened Wrappers
  import opened Seqs
  import opened Sorting
  import opened JsMath
  import opened ScoutRankings
  import opened Bio
  import opened Draft

  const RankingsStorageKey: string := "mavs-draft-board-rankings"

  /** One stored `{id, rank}` pair; a NaN rank is stored as JSON `null`,
      modelled as `None`. */
  datatype SavedRank = SavedRank(id: int, rank: Num)

  /** The value under the storage key: absent, a value that fails to parse
      or on which the loading `forEach` throws, or a list of pairs. A parsed
      list whose items lack an `id` loads the key "undefined"; it is a
      `Present` list whose id matches no bio. */
  datatype RankStore = Missing | Corrupt | Present(entries: seq<SavedRank>)

  /** What the board knows about a player apart from the rank shown. */
  datatype Entry = Entry(bio: PlayerBio, consensusRank: Num, scoutRanking: Option<ScoutRanking>) {
    function id(): int { bio.playerId }
  }

  datatype BoardPlayer = BoardPlayer(entry: Entry, rank: Num)

  function Entries(ps: seq<BoardPlayer>): (es: seq<Entry>)
    ensures |es| == |ps|
    ensures forall i :: 0 <= i < |ps| ==> es[i] == ps[i].entry
  {
    seq(|ps|, i requires 0 <= i < |ps| => ps[i].entry)
  }

  /** `map((player, index) => ({...player, rank: index + 1}))`. */
  function Renumber(ps: seq<BoardPlayer>): (r: seq<BoardPlayer>)
    ensures Entries(r) == Entries(ps)
    ensures forall i :: 0 <= i < |r| ==> r[i].rank == Some(i + 1)
  {
    seq(|ps|, i requires 0 <= i < |ps| => ps[i].(rank := Some(i + 1)))
  }

  /** `saveRankingsToStorage`: the list of `{id, rank}` pairs, in board order. */
  function SaveRankings(board: seq<BoardPlayer>): (store: RankStore)
    ensures store.Present? && |store.entries| == |board|
    ensures forall i :: 0 <= i < |board| ==>
              store.entries[i] == SavedRank(board[i].entry.id(), board[i].rank)
  {
    Present(seq(|board|, i requires 0 <= i < |board| => SavedRank(board[i].entry.id(), board[i].rank)))
  }

  /** Entry `i` is the last one stored for `id`. */
  predicate LastWithId(es: seq<SavedRank>, id: int, i: int) {
    0 <= i < |es| && es[i].id == id && forall j :: i < j < |es| ==> es[j].id != id
  }

  /** The `forEach` that fills the rank map: later pairs overwrite earlier
      ones with the same id. */
  function LoadEntries(es: seq<SavedRank>): (m: map<int, Num>)
    decreases |es|
  {
    if |es| == 0 then map[]
    else
      var e := es[|es| - 1];
      LoadEntries(es[..|es| - 1])[e.id := e.rank]
  }

  /** The map holds exactly the stored ids. */
  lemma {:induction false} LoadEntriesKeys(es: seq<SavedRank>)
    ensures forall id :: id in LoadEntries(es) <==> exists i :: 0 <= i < |es| && es[i].id == id
    decreases |es|
  {
    if |es| > 0 {
      var init := es[..|es| - 1];
      var e := es[|es| - 1];
      LoadEntriesKeys(init);
      var m0 := LoadEntries(init);
      var m := LoadEntries(es);
      assert m == m0[e.id := e.rank];
      forall id ensures id in m <==> exists i :: 0 <= i < |es| && es[i].id == id {
        if id in m && id != e.id {
          var i :| 0 <= i < |init| && init[i].id == id;
          assert es[i].id == id;
        }
        if id == e.id {
          assert es[|es| - 1].id == id;
        }
        if exists i :: 0 <= i < |es| && es[i].id == id {
          var i :| 0 <= i < |es| && es[i].id == id;
          if i < |es| - 1 {
            assert init[i].id == id;
          }
        }
      }
    }
  }

  /** Each stored id maps to the rank of its last pair. */
  lemma {:induction false} LoadEntriesValues(es: seq<SavedRank>)
    ensures forall id :: id in LoadEntries(es) ==>
              exists i :: LastWithId(es, id, i) && LoadEntries(es)[id] == es[i].rank
    decreases |es|
  {
    if |es| > 0 {
      var init := es[..|es| - 1];
      var e := es[|es| - 1];
      LoadEntriesValues(init);
      var m0 := LoadEntries(init);
      var m := LoadEntries(es);
      assert m == m0[e.id := e.rank];
      forall id | id in m ensures exists i :: LastWithId(es, id, i) && m[id] == es[i].rank {
        if id == e.id {
          assert LastWithId(es, id, |es| - 1);
        } else {
          assert id in m0 && m[id] == m0[id];
          var i :| LastWithId(init, id, i) && m0[id] == init[i].rank;
          assert LastWithId(es, id, i);
        }
      }
    }
  }

  /** `loadSavedRankings`: the rank map, empty when nothing usable is stored. */
  function LoadRankings(store: RankStore): (m: map<int, Num>)
    ensures !store.Present? ==> m == map[]
    ensures store.Present? ==>
              (forall id :: id in m <==> exists i :: 0 <= i < |store.entries| && store.entries[i].id == id) &&
              (forall id :: id in m ==> exists i :: LastWithId(store.entries, id, i) && m[id] == store.entries[i].rank)
  {
    match store
    case Present(es) => LoadEntriesKeys(es); LoadEntriesValues(es); LoadEntries(es)
    case _ => map[]
  }

  predicate DistinctIds(board: seq<BoardPlayer>) {
    forall i, j :: 0 <= i < j < |board| ==> board[i].entry.id() != board[j].entry.id()
  }

  /** Loading what was saved gives every player on the board its rank back. */
  lemma SaveLoadRoundTrip(board: seq<BoardPlayer>)
    requires DistinctIds(board)
    ensures var m := LoadRankings(SaveRankings(board));
            (forall id :: id in m <==> exists i :: 0 <= i < |board| && board[i].entry.id() == id) &&
            (forall i :: 0 <= i < |board| ==> board[i].entry.id() in m && m[board[i].entry.id()] == board[i].rank)
  {
  }

  /** `resetRankings`: the key is removed, so the next load starts from consensus. */
  function ResetRankings(store: RankStore): (r: RankStore)
    ensures LoadRankings(r) == map[]
  {
    Missing
  }

  /** The first `map` of `loadDraftData`: each biography with its ranking,
      its consensus (bio position + 1 when unranked) and its resolved rank,
      which is the saved rank when that is present and truthy and the
      consensus otherwise. */
  function Candidates(bios: seq<PlayerBio>, rankings: Option<seq<ScoutRanking>>, saved: map<int, Num>): (cs: seq<BoardPlayer>)
    ensures |cs| == |bios|
    ensures forall i :: 0 <= i < |bios| ==>
              var e := cs[i].entry;
              var id := bios[i].playerId;
              e.bio == bios[i] && e.scoutRanking == FindRanking(rankings, id) &&
              e.consensusRank == (if e.scoutRanking.Some? then Consensus(e.scoutRanking.value) else Some(i + 1)) &&
              (id in saved && Truthy(saved[id]) ==> cs[i].rank == saved[id]) &&
              (!(id in saved && Truthy(saved[id])) ==> cs[i].rank == e.consensusRank)
  {
    seq(|bios|, i requires 0 <= i < |bios| => Candidate(bios[i], i, rankings, saved))
  }

  /** The entry built for the biography at position `index`: its first
      ranking and its consensus, or `index + 1` without a ranking. */
  function CandidateEntry(bio: PlayerBio, index: nat, rankings: Option<seq<ScoutRanking>>): Entry {
    var ranking := FindRanking(rankings, bio.playerId);
    Entry(bio, if ranking.Some? then Consensus(ranking.value) else Some(index + 1), ranking)
  }

  /** `rank: savedRankings[id] || consensusRank` for an entry. */
  function Resolve(saved: map<int, Num>): Entry -> BoardPlayer {
    (e: Entry) => BoardPlayer(e, Or(if e.id() in saved then saved[e.id()] else None, e.consensusRank))
  }

  function Candidate(bio: PlayerBio, index: nat, rankings: Option<seq<ScoutRanking>>, saved: map<int, Num>): BoardPlayer {
    Resolve(saved)(CandidateEntry(bio, index, rankings))
  }

  /** The candidates' entries, which do not depend on what was saved. */
  function CandidateEntries(bios: seq<PlayerBio>, rankings: Option<seq<ScoutRanking>>): (es: seq<Entry>)
    ensures |es| == |bios|
    ensures forall i :: 0 <= i < |bios| ==> es[i].id() == bios[i].playerId
  {
    seq(|bios|, i requires 0 <= i < |bios| => CandidateEntry(bios[i], i, rankings))
  }

  /** The candidates are their entries, each resolved against the saved ranks. */
  lemma CandidatesResolve(bios: seq<PlayerBio>, rankings: Option<seq<ScoutRanking>>, saved: map<int, Num>)
    ensures Candidates(bios, rankings, saved) == Map(CandidateEntries(bios, rankings), Resolve(saved))
    ensures Entries(Candidates(bios, rankings, saved)) == CandidateEntries(bios, rankings)
  {
  }

  /** The `filter` callback used when nothing is saved: unranked players stay,
      ranked ones need a consensus above zero. */
  function KeepEntry(e: Entry): bool {
    e.scoutRanking.None? || IsPositive(e.consensusRank)
  }

  function Keep(p: BoardPlayer): bool {
    KeepEntry(p.entry)
  }

  /** The comparator with saved ranks: `a.rank - b.rank`. */
  function CompareResolved(a: BoardPlayer, b: BoardPlayer): int {
    SortValue(Minus(a.rank, b.rank))
  }

  /** The comparator without saved ranks: consensus first, then the
      one-decimal average when both players are ranked, otherwise a tie. */
  function CompareConsensus(a: BoardPlayer, b: BoardPlayer): int {
    var x, y := a.entry, b.entry;
    if StrictNe(x.consensusRank, y.consensusRank) then SortValue(Minus(x.consensusRank, y.consensusRank))
    else if x.scoutRanking.Some? && y.scoutRanking.Some? then
      SortValue(Minus(AverageTenths(x.scoutRanking.value), AverageTenths(y.scoutRanking.value)))
    else 0
  }

  /** The filter and sort of `loadDraftData`, before renumbering. */
  function Ordered(bios: seq<PlayerBio>, rankings: Option<seq<ScoutRanking>>, saved: map<int, Num>): seq<BoardPlayer> {
    var cs := Candidates(bios, rankings, saved);
    if |saved| > 0 then Sort(cs, CompareResolved)
    else Sort(Filter(cs, Keep), CompareConsensus)
  }

  /** The board shown and the store after loading. */
  datatype Loaded = Loaded(players: seq<BoardPlayer>, store: RankStore)

  /** `loadDraftData`. Without a bio list the load fails and the board stays
      empty. Otherwise the board is the ordered list renumbered 1..N, and it
      is written back when saved ranks were found. */
  function BuildBoard(data: DraftData, store: RankStore): (r: Loaded)
    ensures data.bio.None? ==> r == Loaded([], store)
    ensures forall i :: 0 <= i < |r.players| ==> r.players[i].rank == Some(i + 1)
    ensures data.bio.Some? ==>
              var saved := LoadRankings(store);
              Entries(r.players) == Entries(Ordered(data.bio.value, data.scoutRankings, saved)) &&
              (|saved| > 0 ==> r.store == SaveRankings(r.players)) &&
              (|saved| == 0 ==> r.store == store)
  {
    match data.bio
    case None => Loaded([], store)
    case Some(bios) =>
      var saved := LoadRankings(store);
      var players := Renumber(Ordered(bios, data.scoutRankings, saved));
      Loaded(players, if |saved| > 0 then SaveRankings(players) else store)
  }

  /** With saved ranks nobody is dropped; without them, exactly the players
      `Keep` accepts remain. */
  lemma OrderedMembers(bios: seq<PlayerBio>, rankings: Option<seq<ScoutRanking>>, saved: map<int, Num>)
    ensures var cs := Candidates(bios, rankings, saved);
            var o := Ordered(bios, rankings, saved);
            (|saved| > 0 ==> multiset(o) == multiset(cs)) &&
            (|saved| == 0 ==> multiset(o) == multiset(Filter(cs, Keep))) &&
            (forall p :: p in o <==> p in cs && (|saved| > 0 || Keep(p)))
  {
    var cs := Candidates(bios, rankings, saved);
    var o := Ordered(bios, rankings, saved);
    if |saved| == 0 {
      FilterMembers(cs, Keep);
      forall p ensures p in o <==> p in Filter(cs, Keep) {
        assert p in o <==> p in multiset(o);
        assert p in Filter(cs, Keep) <==> p in multiset(Filter(cs, Keep));
      }
    } else {
      forall p ensures p in o <==> p in cs {
        assert p in o <==> p in multiset(o);
        assert p in cs <==> p in multiset(cs);
      }
    }
  }

  /** Unranked players are never dropped. */
  lemma UnrankedKept(bios: seq<PlayerBio>, rankings: Option<seq<ScoutRanking>>, saved: map<int, Num>, i: int)
    requires 0 <= i < |bios|
    requires Candidates(bios, rankings, saved)[i].entry.scoutRanking.None?
    ensures Candidates(bios, rankings, saved)[i] in Ordered(bios, rankings, saved)
  {
    OrderedMembers(bios, rankings, saved);
  }

  /** Everything `Keep` lets through has a positive consensus. */
  lemma KeptHaveConsensus(bios: seq<PlayerBio>, rankings: Option<seq<ScoutRanking>>, saved: map<int, Num>)
    ensures forall p :: p in Filter(Candidates(bios, rankings, saved), Keep) ==> IsPositive(p.entry.consensusRank)
  {
    var cs := Candidates(bios, rankings, saved);
    FilterMembers(cs, Keep);
    forall p | p in Filter(cs, Keep) ensures IsPositive(p.entry.consensusRank) {
      var i :| 0 <= i < |cs| && cs[i] == p;
    }
  }

  /** Ascending consensus. */
  function ConsensusLe(a: BoardPlayer, b: BoardPlayer): bool {
    a.entry.consensusRank.GetOr(0) <= b.entry.consensusRank.GetOr(0)
  }

  /** Without saved ranks the board is in ascending consensus order. */
  lemma OrderedByConsensus(bios: seq<PlayerBio>, rankings: Option<seq<ScoutRanking>>, saved: map<int, Num>)
    requires |saved| == 0
    ensures SortedBy(Ordered(bios, rankings, saved), ConsensusLe)
  {
    var kept := Filter(Candidates(bios, rankings, saved), Keep);
    KeptHaveConsensus(bios, rankings, saved);
    SortSorted(kept, CompareConsensus, ConsensusLe);
  }

  /** Ascending consensus, then ascending one-decimal average. */
  function ConsensusThenAverageLe(a: BoardPlayer, b: BoardPlayer): bool {
    var ca, cb := a.entry.consensusRank.GetOr(0), b.entry.consensusRank.GetOr(0);
    ca < cb || (ca == cb && AverageOf(a) <= AverageOf(b))
  }

  function AverageOf(p: BoardPlayer): int {
    match p.entry.scoutRanking
    case Some(r) => AverageTenths(r).GetOr(0)
    case None => 0
  }

  /** When every player is ranked, ties in consensus are broken by the average. */
  lemma OrderedByConsensusThenAverage(bios: seq<PlayerBio>, rankings: Option<seq<ScoutRanking>>, saved: map<int, Num>)
    requires |saved| == 0
    requires forall i :: 0 <= i < |bios| ==> FindRanking(rankings, bios[i].playerId).Some?
    ensures SortedBy(Ordered(bios, rankings, saved), ConsensusThenAverageLe)
  {
    var cs := Candidates(bios, rankings, saved);
    var kept := Filter(cs, Keep);
    KeptHaveConsensus(bios, rankings, saved);
    FilterMembers(cs, Keep);
    forall k | 0 <= k < |kept| ensures FullyRanked(kept[k]) {
      assert kept[k] in cs;
      var i :| 0 <= i < |cs| && cs[i] == kept[k];
    }
    SortRanked(kept);
  }

  /** A player with a ranking, a consensus and an average. */
  predicate FullyRanked(p: BoardPlayer) {
    p.entry.consensusRank.Some? && p.entry.scoutRanking.Some? &&
    AverageTenths(p.entry.scoutRanking.value).Some?
  }

  /** On fully ranked players the comparator's sign agrees with
      consensus-then-average order. */
  lemma CompareConsensusAgrees(a: BoardPlayer, b: BoardPlayer)
    requires FullyRanked(a) && FullyRanked(b)
    ensures CompareConsensus(a, b) <= 0 ==> ConsensusThenAverageLe(a, b)
    ensures CompareConsensus(a, b) > 0 ==> ConsensusThenAverageLe(b, a)
  {
  }

  /** Players with a ranking and a defined consensus sort by consensus and
      then average. */
  lemma SortRanked(kept: seq<BoardPlayer>)
    requires forall k :: 0 <= k < |kept| ==> FullyRanked(kept[k])
    ensures SortedBy(Sort(kept, CompareConsensus), ConsensusThenAverageLe)
  {
    forall a, b | a in kept && b in kept
      ensures (CompareConsensus(a, b) <= 0 ==> ConsensusThenAverageLe(a, b)) &&
              (CompareConsensus(a, b) > 0 ==> ConsensusThenAverageLe(b, a))
    {
      var i :| 0 <= i < |kept| && kept[i] == a;
      var j :| 0 <= j < |kept| && kept[j] == b;
      CompareConsensusAgrees(a, b);
    }
    SortSorted(kept, CompareConsensus, ConsensusThenAverageLe);
  }

  /** Players tied on consensus `c` that are unranked or have average `v`:
      the comparator calls any two of them equal. */
  function TieGroup(c: int, v: int): BoardPlayer -> bool {
    (p: BoardPlayer) => p.entry.consensusRank == Some(c) &&
                        (p.entry.scoutRanking.None? || AverageTenths(p.entry.scoutRanking.value) == Some(v))
  }

  /** Without saved ranks, ties the comparator cannot break (in particular
      ties involving an unranked player) keep bio order. */
  lemma TiesKeepBioOrder(bios: seq<PlayerBio>, rankings: Option<seq<ScoutRanking>>, saved: map<int, Num>, c: int, v: int)
    requires |saved| == 0
    ensures Filter(Ordered(bios, rankings, saved), TieGroup(c, v)) ==
            Filter(Filter(Candidates(bios, rankings, saved), Keep), TieGroup(c, v))
  {
    var kept := Filter(Candidates(bios, rankings, saved), Keep);
    SortStable(kept, CompareConsensus, TieGroup(c, v));
  }

  /** Ascending resolved rank. */
  function RankLe(a: BoardPlayer, b: BoardPlayer): bool {
    a.rank.GetOr(0) <= b.rank.GetOr(0)
  }

  /** With saved ranks, and every resolved rank a number, the board is in
      ascending resolved-rank order, and equal ranks keep bio order. */
  lemma OrderedBySavedRank(bios: seq<PlayerBio>, rankings: Option<seq<ScoutRanking>>, saved: map<int, Num>, k: int)
    requires |saved| > 0
    requires forall i :: 0 <= i < |bios| ==> Candidates(bios, rankings, saved)[i].rank.Some?
    ensures SortedBy(Ordered(bios, rankings, saved), RankLe)
    ensures Filter(Ordered(bios, rankings, saved), SameRank(k)) == Filter(Candidates(bios, rankings, saved), SameRank(k))
  {
    var cs := Candidates(bios, rankings, saved);
    SortSorted(cs, CompareResolved, RankLe);
    SortStable(cs, CompareResolved, SameRank(k));
  }

  function SameRank(k: int): BoardPlayer -> bool {
    (p: BoardPlayer) => p.rank == Some(k)
  }

  function HasId(id: int): BoardPlayer -> bool {
    (p: BoardPlayer) => p.entry.id() == id
  }

  /** Where `splice(draggedIndex, 1)` takes from: `findIndex` gives -1 for a
      player not on the board, and `splice(-1, 1)` removes the last one. */
  function TakeFrom(board: seq<BoardPlayer>, draggedIndex: int): (k: nat)
    requires |board| > 0 && -1 <= draggedIndex < |board|
    ensures k < |board|
  {
    if draggedIndex == -1 then |board| - 1 else draggedIndex
  }

  /** `handleDrop` onto row `dropIndex`: nothing happens without a dragged
      player or when it is dropped on its own row; otherwise it is taken out,
      put back at `dropIndex`, the board is renumbered and saved. */
  function HandleDrop(board: seq<BoardPlayer>, dragged: Option<int>, dropIndex: nat, store: RankStore): (r: Loaded)
    requires dropIndex < |board|
    ensures dragged.None? ==> r == Loaded(board, store)
    ensures dragged.Some? && FindIndex(board, HasId(dragged.value)) == dropIndex ==> r == Loaded(board, store)
    ensures dragged.Some? && FindIndex(board, HasId(dragged.value)) != dropIndex ==>
              var from := TakeFrom(board, FindIndex(board, HasId(dragged.value)));
              Entries(r.players) == Move(Entries(board), from, dropIndex) &&
              (forall i :: 0 <= i < |r.players| ==> r.players[i].rank == Some(i + 1)) &&
              r.store == SaveRankings(r.players)
  {
    match dragged
    case None => Loaded(board, store)
    case Some(id) =>
      var draggedIndex := FindIndex(board, HasId(id));
      if draggedIndex == dropIndex then Loaded(board, store)
      else
        var from := TakeFrom(board, draggedIndex);
        var moved := Move(board, from, dropIndex);
        MoveEntries(board, from, dropIndex);
        var players := Renumber(moved);
        Loaded(players, SaveRankings(players))
  }

  lemma MoveEntries(board: seq<BoardPlayer>, from: nat, to: nat)
    requires from < |board| && to < |board|
    ensures Entries(Move(board, from, to)) == Move(Entries(board), from, to)
  {
  }

  /** A real move is a permutation that lands the dragged player on
      `dropIndex` and keeps everybody else in their previous order. */
  lemma DropMovesPlayer(board: seq<BoardPlayer>, id: int, dropIndex: nat, store: RankStore)
    requires dropIndex < |board|
    requires 0 <= FindIndex(board, HasId(id)) != dropIndex
    ensures var r := HandleDrop(board, Some(id), dropIndex, store);
            var from := FindIndex(board, HasId(id));
            |r.players| == |board| &&
            r.players[dropIndex].entry == board[from].entry && r.players[dropIndex].entry.id() == id &&
            RemoveAt(Entries(r.players), dropIndex) == RemoveAt(Entries(board), from) &&
            multiset(Entries(r.players)) == multiset(Entries(board))
  {
  }
}

=== FILE: Bio.dfy ===
/** Player biographies and the display helpers of `PlayerBioUtils`. */
module Bio {
  import opened Wrappers
  import opened Text

  /** A calendar date as `getFullYear`, `getMonth` and `getDate` report it. */
  datatype CalendarDate = CalendarDate(year: int, month: int, day: int)

  /** One prospect's biography. The birth date is already parsed; the
      display-only fields (high school, home town, photo) are not modelled.
      `leagueType` is optional because the pages read it with `?.`. */
  datatype PlayerBio = PlayerBio(
    name: string,
    playerId: int,
    firstName: string,
    lastName: string,
    birthDate: CalendarDate,
    height: int,
    weight: int,
    nationality: string,
    currentTeam: string,
    league: string,
    leagueType: Option<string>)

  /** Chronological order on dates: year, then month, then day. */
  predicate DateLe(a: CalendarDate, b: CalendarDate) {
    a.year < b.year ||
    (a.year == b.year && (a.month < b.month || (a.month == b.month && a.day <= b.day)))
  }

  function AddYears(d: CalendarDate, k: int): CalendarDate {
    d.(year := d.year + k)
  }

  /** `calculateAge` with today's date passed in: the year difference, one
      less while this year's birthday is still ahead. The result is the
      number of whole years completed: the `age`-th anniversary has passed
      and the next one has not. */
  function Age(birth: CalendarDate, today: CalendarDate): (age: int)
    ensures age == today.year - birth.year || age == today.year - birth.year - 1
    ensures age == today.year - birth.year - 1 <==>
              today.month < birth.month || (today.month == birth.month && today.day < birth.day)
    ensures DateLe(AddYears(birth, age), today) && !DateLe(AddYears(birth, age + 1), today)
  {
    var age := today.year - birth.year;
    var monthDiff := today.month - birth.month;
    if monthDiff < 0 || (monthDiff == 0 && today.day < birth.day) then age - 1 else age
  }

  /** `Math.floor(h / 12)`. */
  function Feet(h: int): (f: int)
    ensures 12 * f <= h < 12 * (f + 1)
  {
    h / 12
  }

  /** `h % 12`: JavaScript's remainder takes the sign of the dividend. */
  function Inches(h: int): (i: int)
    ensures -12 < i < 12
    ensures h >= 0 ==> 0 <= i && 12 * Feet(h) + i == h
    ensures h < 0 ==> i <= 0 && (h - i) % 12 == 0
  {
    if h >= 0 then h % 12 else -((-h) % 12)
  }

  /** `formatHeight`: feet, an apostrophe, inches, a double quote. */
  function FormatHeight(h: int): (r: string)
    ensures |r| >= 4 && r[|r| - 1] == '"'
  {
    IntToString(Feet(h)) + "'" + IntToString(Inches(h)) + "\""
  }

  /** Reads a `FormatHeight` string back to a height in inches. */
  function ParseHeight(s: string): (r: Option<int>)
  {
    if |s| >= 1 && s[|s| - 1] == '"' then
      match ParsePair(s[..|s| - 1], '\'')
      case Some((feet, inches)) => Some(12 * feet + inches)
      case None => None
    else None
  }

  /** A non-negative height survives formatting: the feet and inches shown
      add back up to it, with fewer than 12 inches. */
  lemma HeightRoundTrip(h: int)
    requires h >= 0
    ensures ParseHeight(FormatHeight(h)) == Some(h)
    ensures 12 * Feet(h) + Inches(h) == h && 0 <= Inches(h) < 12
  {
    var f, i := Feet(h), Inches(h);
    assert f >= 0 && 0 <= i < 12 && 12 * f + i == h;
    var body := NatToString(f) + "'" + NatToString(i);
    assert FormatHeight(h) == body + "\"";
    PairRoundTrip(f, i, '\'');
    ParseQuoted(body);
  }

  /** Reading a quoted string reads the pair before the quote. */
  lemma ParseQuoted(body: string)
    ensures ParseHeight(body + "\"") ==
            match ParsePair(body, '\'')
            case Some((feet, inches)) => Some(12 * feet + inches)
            case None => None
  {
  }

  /** `isInternational`. */
  function IsInternational(p: PlayerBio): (b: bool)
    ensures b <==> p.nationality != "USA"
  {
    p.nationality != "USA"
  }

  /** `s.charAt(0)`: the first character, or "" for the empty string. */
  function FirstChar(s: string): (r: string)
    ensures |r| == 1 <==> |s| > 0
    ensures |r| <= 1 && |r| <= |s| && r == s[..|r|]
  {
    if |s| > 0 then [s[0]] else ""
  }

  /** `getInitials`: first letter of the first name, then of the last name;
      an empty name contributes nothing. */
  function Initials(p: PlayerBio): (r: string)
    ensures |r| <= 2
    ensures |r| == (if |p.firstName| > 0 then 1 else 0) + (if |p.lastName| > 0 then 1 else 0)
    ensures |p.firstName| > 0 ==> r[0] == p.firstName[0]
    ensures |p.lastName| > 0 ==> r[|r| - 1] == p.lastName[0]
  {
    FirstChar(p.firstName) + FirstChar(p.lastName)
  }
}

=== FILE: BoardReload.dfy ===
/** What survives a reload of the Big Board: a reordered board is saved,
    and the next `loadDraftData` rebuilds it from the saved ranks. The page's
    load filters out players with a NaN consensus only when nothing is saved,
    so a reload can bring such a player back with a NaN rank; the board then
    comes back as dragged only when the first load kept everybody. With the
    filter applied on every load, the dragged board always comes back. */
module BoardReload {
  import opened Wrappers
  import opened Seqs
  import opened Sorting
  import opened JsMath
  import opened ScoutRankings
  import opened Bio
  import opened Draft
  import opened BigBoard

  function EntryOf(p: BoardPlayer): Entry {
    p.entry
  }

  function EntryId(e: Entry): int {
    e.id()
  }

  lemma EntriesMap(ps: seq<BoardPlayer>)
    ensures Entries(ps) == Map(ps, EntryOf)
  {
  }

  /** Permuted boards have permuted entries. */
  lemma EntriesMultiset(a: seq<BoardPlayer>, b: seq<BoardPlayer>)
    requires multiset(a) == multiset(b)
    ensures multiset(Entries(a)) == multiset(Entries(b))
  {
    EntriesMap(a);
    EntriesMap(b);
    MapMultiset(a, b, EntryOf);
  }

  /** A board whose entries are a permutation of entries with distinct ids
      has distinct ids. */
  lemma PermutedIdsDistinct(es: seq<Entry>, board: seq<BoardPlayer>)
    requires multiset(es) == multiset(Entries(board))
    requires Distinct(Map(es, EntryId))
    ensures DistinctIds(board)
  {
    MapMultiset(es, Entries(board), EntryId);
    PermutationDistinct(Map(es, EntryId), Map(Entries(board), EntryId));
    forall i, j | 0 <= i < j < |board| ensures board[i].entry.id() != board[j].entry.id() {
      assert Map(Entries(board), EntryId)[i] == board[i].entry.id();
      assert Map(Entries(board), EntryId)[j] == board[j].entry.id();
    }
  }

  /** Filtering keeps the ids distinct. */
  lemma {:induction false} FilterIdsDistinct(es: seq<Entry>, p: Entry -> bool)
    requires Distinct(Map(es, EntryId))
    ensures Distinct(Map(Filter(es, p), EntryId))
    decreases |es|
  {
    if |es| > 0 {
      var tail := es[1..];
      assert Map(tail, EntryId) == Map(es, EntryId)[1..];
      assert Distinct(Map(tail, EntryId)) by {
        forall i, j | 0 <= i < j < |tail| ensures Map(tail, EntryId)[i] != Map(tail, EntryId)[j] {
          assert Map(es, EntryId)[i + 1] != Map(es, EntryId)[j + 1];
        }
      }
      FilterIdsDistinct(tail, p);
      if p(es[0]) {
        var f := Filter(es, p);
        var rest := Filter(tail, p);
        assert f == [es[0]] + rest;
        FilterMembers(tail, p);
        forall i, j | 0 <= i < j < |f| ensures Map(f, EntryId)[i] != Map(f, EntryId)[j] {
          if i == 0 {
            assert f[j] == rest[j - 1] && f[j] in tail;
            var k :| 0 <= k < |tail| && tail[k] == f[j];
            assert Map(es, EntryId)[0] != Map(es, EntryId)[k + 1];
          } else {
            assert Map(rest, EntryId)[i - 1] != Map(rest, EntryId)[j - 1];
          }
        }
      }
    }
  }

  function RankKey(p: BoardPlayer): int {
    p.rank.GetOr(0)
  }

  /** A list sorted by rank holding the same players as a board whose ranks
      strictly increase is that board. */
  lemma SortedByRankIsBoard(o: seq<BoardPlayer>, board: seq<BoardPlayer>)
    requires SortedBy(o, RankLe)
    requires forall i :: 0 <= i < |board| ==> board[i].rank == Some(i + 1)
    requires multiset(o) == multiset(board)
    ensures o == board
  {
    assert forall i, j :: 0 <= i < j < |o| ==> RankKey(o[i]) <= RankKey(o[j]) by {
      forall i, j | 0 <= i < j < |o| ensures RankKey(o[i]) <= RankKey(o[j]) {
        assert RankLe(o[i], o[j]);
      }
    }
    SortedByKeyUnique(o, board, RankKey);
  }

  /** Reloading a saved board whose ranks are 1..N and whose ids are
      distinct: resolving any permutation of its entries against what was
      saved and sorting by rank gives the board back. */
  lemma ResolvedSortIsBoard(es: seq<Entry>, board: seq<BoardPlayer>)
    requires multiset(es) == multiset(Entries(board))
    requires forall i :: 0 <= i < |board| ==> board[i].rank == Some(i + 1)
    requires DistinctIds(board)
    ensures Sort(Map(es, Resolve(LoadRankings(SaveRankings(board)))), CompareResolved) == board
  {
    var f := Resolve(LoadRankings(SaveRankings(board)));
    ResolveSaved(board);
    MapMultiset(es, Entries(board), f);
    var cs := Map(es, f);
    forall a | a in cs ensures a.rank.Some? {
      assert a in multiset(board);
    }
    SortByRank(cs);
    SortedByRankIsBoard(Sort(cs, CompareResolved), board);
  }

  /** Resolving a saved board's entries against what it saved gives the board. */
  lemma ResolveSaved(board: seq<BoardPlayer>)
    requires forall i :: 0 <= i < |board| ==> board[i].rank == Some(i + 1)
    requires DistinctIds(board)
    ensures Map(Entries(board), Resolve(LoadRankings(SaveRankings(board)))) == board
  {
  }

  /** With every rank a number, the saved-rank comparator sorts by rank. */
  lemma SortByRank(cs: seq<BoardPlayer>)
    requires forall a :: a in cs ==> a.rank.Some?
    ensures SortedBy(Sort(cs, CompareResolved), RankLe)
  {
    SortSorted(cs, CompareResolved, RankLe);
  }

  /** Renumbering a board already ranked 1..N changes nothing. */
  lemma RenumberRanked(board: seq<BoardPlayer>)
    requires forall i :: 0 <= i < |board| ==> board[i].rank == Some(i + 1)
    ensures Renumber(board) == board
  {
  }

  /** Distinct biography ids give candidate entries with distinct ids. */
  lemma CandidateIdsDistinct(bios: seq<PlayerBio>, rankings: Option<seq<ScoutRanking>>)
    requires forall i, j :: 0 <= i < j < |bios| ==> bios[i].playerId != bios[j].playerId
    ensures Distinct(Map(CandidateEntries(bios, rankings), EntryId))
  {
  }

  /** A board saved by the page, its entries a permutation of `es`, is
      rebuilt exactly when the load sorts the resolved `es`. */
  lemma ReloadsAs(board: seq<BoardPlayer>, es: seq<Entry>)
    requires |board| > 0
    requires forall i :: 0 <= i < |board| ==> board[i].rank == Some(i + 1)
    requires multiset(es) == multiset(Entries(board))
    requires Distinct(Map(es, EntryId))
    ensures Sort(Map(es, Resolve(LoadRankings(SaveRankings(board)))), CompareResolved) == board
    ensures |LoadRankings(SaveRankings(board))| > 0
  {
    PermutedIdsDistinct(es, board);
    ResolvedSortIsBoard(es, board);
    SaveLoadRoundTrip(board);
    assert board[0].entry.id() in LoadRankings(SaveRankings(board));
  }

  /** When the first load keeps every biography, its board is a permutation
      of all candidate entries. */
  lemma FullFirstBoard(data: DraftData, store: RankStore)
    requires data.bio.Some?
    requires |BuildBoard(data, store).players| == |data.bio.value|
    ensures multiset(Entries(BuildBoard(data, store).players)) ==
            multiset(CandidateEntries(data.bio.value, data.scoutRankings))
  {
    var bios, rk := data.bio.value, data.scoutRankings;
    var saved := LoadRankings(store);
    var cs := Candidates(bios, rk, saved);
    CandidatesResolve(bios, rk, saved);
    var o := Ordered(bios, rk, saved);
    if |saved| == 0 {
      FilterKeepsAll(cs, Keep);
      FilterAll(cs, Keep);
    }
    assert multiset(o) == multiset(cs);
    EntriesMultiset(o, cs);
  }

  /** Dragging a player on a board where the first load kept every
      biography, and reloading: the rebuilt board is the dragged one, so the
      dragged player is back at the drop row. */
  lemma DropSurvivesReload(data: DraftData, store: RankStore, dragged: Option<int>, dropIndex: nat)
    requires data.bio.Some?
    requires forall i, j :: 0 <= i < j < |data.bio.value| ==> data.bio.value[i].playerId != data.bio.value[j].playerId
    requires |BuildBoard(data, store).players| == |data.bio.value|
    requires dropIndex < |data.bio.value|
    ensures var first := BuildBoard(data, store);
            var r := HandleDrop(first.players, dragged, dropIndex, first.store);
            BuildBoard(data, r.store).players == r.players
    ensures var first := BuildBoard(data, store);
            var r := HandleDrop(first.players, dragged, dropIndex, first.store);
            dragged.Some? && FindIndex(first.players, HasId(dragged.value)) >= 0 ==>
              BuildBoard(data, r.store).players[dropIndex].entry.id() == dragged.value
  {
    var bios, rk := data.bio.value, data.scoutRankings;
    var first := BuildBoard(data, store);
    var r := HandleDrop(first.players, dragged, dropIndex, first.store);
    var es := CandidateEntries(bios, rk);
    FullFirstBoard(data, store);
    CandidateIdsDistinct(bios, rk);
    var moved := dragged.Some? && FindIndex(first.players, HasId(dragged.value)) != dropIndex;
    if !moved && |LoadRankings(store)| == 0 {
      assert r == Loaded(first.players, store);
    } else {
      assert r.store == SaveRankings(r.players);
      assert multiset(Entries(r.players)) == multiset(Entries(first.players)) by {
        if moved {
          var from := TakeFrom(first.players, FindIndex(first.players, HasId(dragged.value)));
          assert Entries(r.players) == Move(Entries(first.players), from, dropIndex);
        }
      }
      ReloadsAs(r.players, es);
      CandidatesResolve(bios, rk, LoadRankings(r.store));
      RenumberRanked(r.players);
    }
    if dragged.Some? && FindIndex(first.players, HasId(dragged.value)) >= 0 {
      if FindIndex(first.players, HasId(dragged.value)) != dropIndex {
        DropMovesPlayer(first.players, dragged.value, dropIndex, first.store);
      }
    }
  }

  /** The load as evidently intended: the consensus filter applies whether
      or not ranks were saved, so a player left out for a NaN consensus stays
      out instead of coming back with a NaN rank. */
  function OrderedFiltered(bios: seq<PlayerBio>, rankings: Option<seq<ScoutRanking>>, saved: map<int, Num>): seq<BoardPlayer> {
    var kept := Filter(Candidates(bios, rankings, saved), Keep);
    if |saved| > 0 then Sort(kept, CompareResolved) else Sort(kept, CompareConsensus)
  }

  /** `loadDraftData` with the filter on every load. With nothing saved it
      is the page's own load. */
  function BuildBoardFiltered(data: DraftData, store: RankStore): (r: Loaded)
    ensures data.bio.None? ==> r == Loaded([], store)
    ensures forall i :: 0 <= i < |r.players| ==> r.players[i].rank == Some(i + 1)
    ensures data.bio.Some? ==>
              var saved := LoadRankings(store);
              Entries(r.players) == Entries(OrderedFiltered(data.bio.value, data.scoutRankings, saved)) &&
              (|saved| > 0 ==> r.store == SaveRankings(r.players)) &&
              (|saved| == 0 ==> r.store == store)
    ensures |LoadRankings(store)| == 0 ==> r == BuildBoard(data, store)
  {
    match data.bio
    case None => Loaded([], store)
    case Some(bios) =>
      var saved := LoadRankings(store);
      var players := Renumber(OrderedFiltered(bios, data.scoutRankings, saved));
      Loaded(players, if |saved| > 0 then SaveRankings(players) else store)
  }

  /** The kept candidates are the kept entries, resolved. */
  lemma KeptResolve(bios: seq<PlayerBio>, rankings: Option<seq<ScoutRanking>>, saved: map<int, Num>)
    ensures Filter(Candidates(bios, rankings, saved), Keep) ==
            Map(Filter(CandidateEntries(bios, rankings), KeepEntry), Resolve(saved))
  {
    CandidatesResolve(bios, rankings, saved);
    FilterMap(CandidateEntries(bios, rankings), Resolve(saved), Keep, KeepEntry);
  }

  /** Resolving keeps the entries. */
  lemma ResolvedEntries(es: seq<Entry>, saved: map<int, Num>)
    ensures Entries(Map(es, Resolve(saved))) == es
  {
  }

  /** The filtered load's board is a permutation of the kept entries. */
  lemma FilteredFirstBoard(data: DraftData, store: RankStore)
    requires data.bio.Some?
    ensures multiset(Entries(BuildBoardFiltered(data, store).players)) ==
            multiset(Filter(CandidateEntries(data.bio.value, data.scoutRankings), KeepEntry))
  {
    var bios, rk := data.bio.value, data.scoutRankings;
    var saved := LoadRankings(store);
    var kept := Filter(Candidates(bios, rk, saved), Keep);
    KeptResolve(bios, rk, saved);
    ResolvedEntries(Filter(CandidateEntries(bios, rk), KeepEntry), saved);
    EntriesMultiset(OrderedFiltered(bios, rk, saved), kept);
  }

  /** With the filter on every load, dragging and reloading always rebuilds
      the dragged board, so the dragged player is back at the drop row. */
  lemma FilteredDropSurvivesReload(data: DraftData, store: RankStore, dragged: Option<int>, dropIndex: nat)
    requires data.bio.Some?
    requires forall i, j :: 0 <= i < j < |data.bio.value| ==> data.bio.value[i].playerId != data.bio.value[j].playerId
    requires dropIndex < |BuildBoardFiltered(data, store).players|
    ensures var first := BuildBoardFiltered(data, store);
            var r := HandleDrop(first.players, dragged, dropIndex, first.store);
            BuildBoardFiltered(data, r.store).players == r.players
    ensures var first := BuildBoardFiltered(data, store);
            var r := HandleDrop(first.players, dragged, dropIndex, first.store);
            dragged.Some? && FindIndex(first.players, HasId(dragged.value)) >= 0 ==>
              BuildBoardFiltered(data, r.store).players[dropIndex].entry.id() == dragged.value
  {
    var bios, rk := data.bio.value, data.scoutRankings;
    var first := BuildBoardFiltered(data, store);
    var r := HandleDrop(first.players, dragged, dropIndex, first.store);
    var es := Filter(CandidateEntries(bios, rk), KeepEntry);
    FilteredFirstBoard(data, store);
    CandidateIdsDistinct(bios, rk);
    FilterIdsDistinct(CandidateEntries(bios, rk), KeepEntry);
    var moved := dragged.Some? && FindIndex(first.players, HasId(dragged.value)) != dropIndex;
    if !moved && |LoadRankings(store)| == 0 {
      assert r == Loaded(first.players, store);
    } else {
      assert r.store == SaveRankings(r.players);
      assert multiset(Entries(r.players)) == multiset(Entries(first.players)) by {
        if moved {
          var from := TakeFrom(first.players, FindIndex(first.players, HasId(dragged.value)));
          assert Entries(r.players) == Move(Entries(first.players), from, dropIndex);
        }
      }
      ReloadsAs(r.players, es);
      KeptResolve(bios, rk, LoadRankings(r.store));
      RenumberRanked(r.players);
    }
    if dragged.Some? && FindIndex(first.players, HasId(dragged.value)) >= 0 {
      if FindIndex(first.players, HasId(dragged.value)) != dropIndex {
        DropMovesPlayer(first.players, dragged.value, dropIndex, first.store);
      }
    }
  }

  /** The ids of a board, in order. */
  function Ids(board: seq<BoardPlayer>): seq<int> {
    Map(Entries(board), EntryId)
  }

  function SampleBio(id: int): PlayerBio {
    PlayerBio("", id, "", "", CalendarDate(2005, 1, 1), 80, 200, "USA", "", "NCAA", None)
  }

  /** A ranking in which all five scouts give the same rank. */
  function Uniform(id: int, rank: int): ScoutRanking {
    ScoutRanking(id, rank, rank, rank, rank, rank)
  }

  /** Three prospects; no scout ranked player 1, so its consensus is NaN. */
  const Sample: DraftData :=
    DraftData(Some([SampleBio(1), SampleBio(2), SampleBio(3)]),
              Some([Uniform(1, 0), Uniform(2, 1), Uniform(3, 2)]))

  lemma SumFive(a: int, b: int, c: int, d: int, e: int)
    ensures Sum([a, b, c, d, e]) == a + b + c + d + e
  {
    var s := [a, b, c, d, e];
    assert s[1..] == [b, c, d, e] && s[1..][1..] == [c, d, e];
    assert s[1..][1..][1..] == [d, e] && [d, e][1..] == [e] && [e][1..] == [];
    assert Sum([e]) == e;
    assert Sum([d, e]) == d + e;
    assert Sum([c, d, e]) == c + d + e;
    assert Sum([b, c, d, e]) == b + c + d + e;
  }

  /** Five equal positive ranks give that rank as the consensus. */
  lemma UniformRanked(id: int, rank: int)
    requires rank > 0
    ensures Consensus(Uniform(id, rank)) == Some(rank)
  {
    var u := Uniform(id, rank);
    FilterAll(Ranks(u), Positive);
    var v := ValidRanks(u);
    assert v == [rank, rank, rank, rank, rank];
    SumFive(rank, rank, rank, rank, rank);
  }

  /** Five zero ranks leave no valid rank, so the consensus is NaN. */
  lemma UniformUnranked(id: int)
    ensures Consensus(Uniform(id, 0)) == None
  {
    FilterNone(Ranks(Uniform(id, 0)), Positive);
  }

  /** Each sample player finds its own ranking. */
  lemma SampleFind(k: int)
    requires 1 <= k <= 3
    ensures FindRanking(Sample.scoutRankings, k) == Some(Uniform(k, k - 1))
  {
  }

  /** A candidate whose ranking is found carries that ranking and its consensus. */
  lemma FoundEntry(bio: PlayerBio, index: nat, rankings: Option<seq<ScoutRanking>>, u: ScoutRanking)
    requires FindRanking(rankings, bio.playerId) == Some(u)
    ensures CandidateEntry(bio, index, rankings) == Entry(bio, Consensus(u), Some(u))
  {
  }

  lemma EntriesTriple(a: PlayerBio, b: PlayerBio, c: PlayerBio, rankings: Option<seq<ScoutRanking>>)
    ensures CandidateEntries([a, b, c], rankings) ==
            [CandidateEntry(a, 0, rankings), CandidateEntry(b, 1, rankings), CandidateEntry(c, 2, rankings)]
  {
  }

  /** The sample's candidate list, one entry per bio. */
  lemma SampleEntries()
    ensures var rk := Sample.scoutRankings;
            CandidateEntries(Sample.bio.value, rk) ==
            [CandidateEntry(SampleBio(1), 0, rk), CandidateEntry(SampleBio(2), 1, rk), CandidateEntry(SampleBio(3), 2, rk)]
  {
    EntriesTriple(SampleBio(1), SampleBio(2), SampleBio(3), Sample.scoutRankings);
  }

  /** The sample's three candidates, in bio order. */
  lemma SampleCandidates()
    ensures var rk := Sample.scoutRankings;
            ThreeCandidates(Sample, CandidateEntry(SampleBio(1), 0, rk),
                            CandidateEntry(SampleBio(2), 1, rk), CandidateEntry(SampleBio(3), 2, rk))
  {
    var rk := Sample.scoutRankings;
    SampleEntries();
    SampleFind(1);
    SampleFind(2);
    SampleFind(3);
    FoundEntry(SampleBio(1), 0, rk, Uniform(1, 0));
    FoundEntry(SampleBio(2), 1, rk, Uniform(2, 1));
    FoundEntry(SampleBio(3), 2, rk, Uniform(3, 2));
    UniformUnranked(1);
    UniformRanked(2, 1);
    UniformRanked(3, 2);
  }

  /** Three candidates: player 1 ranked but with a NaN consensus, players
      2 and 3 with consensus 1 and 2. */
  predicate ThreeCandidates(data: DraftData, e1: Entry, e2: Entry, e3: Entry) {
    data.bio.Some? &&
    CandidateEntries(data.bio.value, data.scoutRankings) == [e1, e2, e3] &&
    e1.id() == 1 && e2.id() == 2 && e3.id() == 3 &&
    e1.scoutRanking.Some? && e1.consensusRank == None &&
    e2.scoutRanking.Some? && e2.consensusRank == Some(1) &&
    e3.scoutRanking.Some? && e3.consensusRank == Some(2)
  }

  lemma FilterTriple<T>(a: T, b: T, c: T, p: T -> bool)
    requires !p(a) && p(b) && p(c)
    ensures Filter([a, b, c], p) == [b, c]
  {
    var s := [a, b, c];
    assert s[1..] == [b, c] && s[1..][1..] == [c] && s[1..][1..][1..] == [];
    assert Filter([c], p) == [c] + Filter([], p);
    assert Filter([b, c], p) == [b] + Filter([c], p);
  }

  lemma SortPair<T>(a: T, b: T, cmp: (T, T) -> int)
    requires cmp(a, b) <= 0
    ensures Sort([a, b], cmp) == [a, b]
  {
  }

  lemma SortTriple<T>(a: T, b: T, c: T, cmp: (T, T) -> int)
    requires cmp(b, c) > 0 && cmp(a, c) <= 0
    ensures Sort([a, b, c], cmp) == [a, c, b]
  {
    assert [a, b, c][1..] == [b, c] && [b, c][1..] == [c];
    assert Sort([c], cmp) == [c];
    assert Insert(b, [c], cmp) == [c, b];
    assert Sort([b, c], cmp) == [c, b];
  }

  lemma MovePair<T>(a: T, b: T)
    ensures Move([a, b], 1, 0) == [b, a]
  {
  }

  lemma RenumberPair(x: Entry, y: Entry, m: Num, n: Num)
    ensures Renumber([BoardPlayer(x, m), BoardPlayer(y, n)]) == [BoardPlayer(x, Some(1)), BoardPlayer(y, Some(2))]
  {
  }

  lemma RenumberTriple(x: Entry, y: Entry, z: Entry, l: Num, m: Num, n: Num)
    ensures Renumber([BoardPlayer(x, l), BoardPlayer(y, m), BoardPlayer(z, n)]) ==
            [BoardPlayer(x, Some(1)), BoardPlayer(y, Some(2)), BoardPlayer(z, Some(3))]
  {
  }

  lemma SavePair(x: Entry, y: Entry)
    ensures SaveRankings([BoardPlayer(x, Some(1)), BoardPlayer(y, Some(2))]) ==
            Present([SavedRank(x.id(), Some(1)), SavedRank(y.id(), Some(2))])
  {
  }

  lemma LoadPair(a: SavedRank, b: SavedRank)
    ensures LoadRankings(Present([a, b])) == map[a.id := a.rank][b.id := b.rank]
  {
    var es := [a, b];
    assert es[..1] == [a] && es[..1][..0] == [];
    assert LoadEntries([a]) == map[][a.id := a.rank];
  }

  lemma IdsPair(x: Entry, y: Entry, m: Num, n: Num)
    ensures Ids([BoardPlayer(x, m), BoardPlayer(y, n)]) == [x.id(), y.id()]
  {
  }

  lemma IdsTriple(x: Entry, y: Entry, z: Entry, l: Num, m: Num, n: Num)
    ensures Ids([BoardPlayer(x, l), BoardPlayer(y, m), BoardPlayer(z, n)]) == [x.id(), y.id(), z.id()]
  {
  }

  /** The first load, with nothing saved, leaves player 1 out. */
  lemma ThreeFirstBoard(data: DraftData, e1: Entry, e2: Entry, e3: Entry)
    requires ThreeCandidates(data, e1, e2, e3)
    ensures BuildBoard(data, Missing) == Loaded([BoardPlayer(e2, Some(1)), BoardPlayer(e3, Some(2))], Missing)
  {
    var bios, rk := data.bio.value, data.scoutRankings;
    assert LoadRankings(Missing) == map[];
    KeptResolve(bios, rk, map[]);
    FilterTriple(e1, e2, e3, KeepEntry);
    var p2, p3 := BoardPlayer(e2, Some(1)), BoardPlayer(e3, Some(2));
    assert Map([e2, e3], Resolve(map[])) == [p2, p3];
    SortPair(p2, p3, CompareConsensus);
    RenumberPair(e2, e3, Some(1), Some(2));
  }

  /** Dragging player 3 onto the top row saves it first. */
  lemma ThreeDrop(e2: Entry, e3: Entry)
    requires e2.id() == 2 && e3.id() == 3
    ensures HandleDrop([BoardPlayer(e2, Some(1)), BoardPlayer(e3, Some(2))], Some(3), 0, Missing) ==
            Loaded([BoardPlayer(e3, Some(1)), BoardPlayer(e2, Some(2))],
                   Present([SavedRank(3, Some(1)), SavedRank(2, Some(2))]))
  {
    var board := [BoardPlayer(e2, Some(1)), BoardPlayer(e3, Some(2))];
    assert !HasId(3)(board[0]) && HasId(3)(board[1]);
    assert FindIndex(board, HasId(3)) == 1;
    MovePair(board[0], board[1]);
    RenumberPair(e3, e2, Some(2), Some(1));
    SavePair(e3, e2);
  }

  /** The reload: player 1 comes back with a NaN rank, which the comparator
      ties with player 3, and stays in front. */
  lemma ThreeReload(data: DraftData, e1: Entry, e2: Entry, e3: Entry)
    requires ThreeCandidates(data, e1, e2, e3)
    ensures BuildBoard(data, Present([SavedRank(3, Some(1)), SavedRank(2, Some(2))])).players ==
            [BoardPlayer(e1, Some(1)), BoardPlayer(e3, Some(2)), BoardPlayer(e2, Some(3))]
  {
    var bios, rk := data.bio.value, data.scoutRankings;
    var saved := map[3 := Some(1)][2 := Some(2)];
    LoadPair(SavedRank(3, Some(1)), SavedRank(2, Some(2)));
    CandidatesResolve(bios, rk, saved);
    var c1, c2, c3 := BoardPlayer(e1, None), BoardPlayer(e2, Some(2)), BoardPlayer(e3, Some(1));
    assert Map([e1, e2, e3], Resolve(saved)) == [c1, c2, c3];
    SortTriple(c1, c2, c3, CompareResolved);
    RenumberTriple(e1, e3, e2, None, Some(1), Some(2));
  }

  /** With three such candidates, dragging player 3 from row 1 onto row 0
      and reloading shows [1, 3, 2]: the dragged player is not on row 0. */
  lemma ThreeReloadLosesDrop(data: DraftData, e1: Entry, e2: Entry, e3: Entry)
    requires ThreeCandidates(data, e1, e2, e3)
    ensures var first := BuildBoard(data, Missing);
            |first.players| == 2 &&
            var r := HandleDrop(first.players, Some(3), 0, first.store);
            Ids(first.players) == [2, 3] && Ids(r.players) == [3, 2] &&
            Ids(BuildBoard(data, r.store).players) == [1, 3, 2]
  {
    ThreeFirstBoard(data, e1, e2, e3);
    ThreeDrop(e2, e3);
    ThreeReload(data, e1, e2, e3);
    IdsPair(e2, e3, Some(1), Some(2));
    IdsPair(e3, e2, Some(1), Some(2));
    IdsTriple(e1, e3, e2, Some(1), Some(2), Some(3));
  }

  /** The sample board loses the drag of player 3 onto the top row. */
  lemma SampleReloadLosesDrop()
    ensures var first := BuildBoard(Sample, Missing);
            |first.players| == 2 &&
            var r := HandleDrop(first.players, Some(3), 0, first.store);
            Ids(first.players) == [2, 3] && Ids(r.players) == [3, 2] &&
            Ids(BuildBoard(Sample, r.store).players) == [1, 3, 2]
  {
    SampleCandidates();
    var rk := Sample.scoutRankings;
    ThreeReloadLosesDrop(Sample, CandidateEntry(SampleBio(1), 0, rk),
                         CandidateEntry(SampleBio(2), 1, rk), CandidateEntry(SampleBio(3), 2, rk));
  }
}

=== FILE: Draft.dfy ===
/** The draft data file the pages import, and the lookup of a player's
    scout ranking that every page repeats. */
module Draft {
  import opened Wrappers
  import opened Seqs
  import opened ScoutRankings
  import opened Bio

  /** The imported draft data; either list may be absent. */
  datatype DraftData = DraftData(bio: Option<seq<PlayerBio>>, scoutRankings: Option<seq<ScoutRanking>>)

  function RankingFor(id: int): ScoutRanking -> bool {
    (r: ScoutRanking) => r.playerId == id
  }

  /** `scoutRankings?.find(r => r.playerId === id)`: the first ranking of the
      player, nothing when the list is absent or holds none. */
  function FindRanking(rankings: Option<seq<ScoutRanking>>, id: int): (r: Option<ScoutRanking>)
    ensures rankings.None? ==> r.None?
    ensures rankings.Some? ==> r == Find(rankings.value, RankingFor(id))
    ensures r.Some? ==> r.value.playerId == id
  {
    match rankings
    case None => None
    case Some(rs) => Find(rs, RankingFor(id))
  }
}

=== FILE: GameLogs.dfy ===
/** Single-game box scores (`GameLogUtils`): outcome, score line and the
    zero-attempt guard of effective field-goal percentage. */
module GameLogs {
  import opened Wrappers
  import opened Text
  import opened JsMath

  /** The fields of a game log that the modelled helpers read. Points and
      shot counts are non-negative whole numbers. */
  datatype GameLog = GameLog(
    playerId: int,
    gameId: int,
    isHome: int,
    homeTeamPts: nat,
    visitorTeamPts: nat,
    fgm: nat,
    fga: nat,
    tpm: nat)

  /** The player's team's points: the home score when `isHome` is 1, the
      visitors' score for any other value. */
  function TeamPoints(g: GameLog): nat {
    if g.isHome == 1 then g.homeTeamPts else g.visitorTeamPts
  }

  function OpponentPoints(g: GameLog): nat {
    if g.isHome == 1 then g.visitorTeamPts else g.homeTeamPts
  }

  /** `didTeamWin`: the team won exactly when it outscored the opponent. */
  function DidTeamWin(g: GameLog): (won: bool)
    ensures won <==> TeamPoints(g) > OpponentPoints(g)
    ensures g.homeTeamPts == g.visitorTeamPts ==> !won
  {
    if g.isHome == 1 then g.homeTeamPts > g.visitorTeamPts
    else g.visitorTeamPts > g.homeTeamPts
  }

  datatype GameResult = GameResult(result: string, score: string)

  /** `getGameResult`: "W" exactly when the team won, and a score line that
      reads back as the team's points then the opponent's. */
  function GetGameResult(g: GameLog): (r: GameResult)
    ensures r.result == "W" <==> DidTeamWin(g)
    ensures r.result == "W" || r.result == "L"
    ensures ParsePair(r.score, '-') == Some((TeamPoints(g), OpponentPoints(g)))
  {
    PairRoundTrip(TeamPoints(g), OpponentPoints(g), '-');
    GameResult(if DidTeamWin(g) then "W" else "L",
               NatToString(TeamPoints(g)) + "-" + NatToString(OpponentPoints(g)))
  }

  /** Seen from the other bench: swapping home and away swaps the two halves
      of the score line, and the two sides never both win. */
  lemma FlipSide(g: GameLog)
    requires g.isHome == 1
    ensures var h := g.(isHome := 0);
            ParsePair(GetGameResult(h).score, '-') == Some((OpponentPoints(g), TeamPoints(g))) &&
            !(DidTeamWin(g) && DidTeamWin(h)) &&
            (DidTeamWin(g) || DidTeamWin(h) <==> g.homeTeamPts != g.visitorTeamPts)
  {
  }

  /** `calculateEffectiveFieldGoalPercentage` in tenths of a percent:
      `round(1000 * (fgm + tpm / 2) / fga)`, and 0 when no shot was taken. */
  function EffectiveFgTenths(g: GameLog): (r: int)
    ensures g.fga == 0 ==> r == 0
    ensures g.fga > 0 ==>
              4 * g.fga * r <= 4000 * g.fgm + 2000 * g.tpm + 2 * g.fga < 4 * g.fga * (r + 1)
  {
    if g.fga == 0 then 0
    else RoundDiv(2000 * g.fgm + 1000 * g.tpm, 2 * g.fga)
  }
}

=== FILE: Highlights.dfy ===
/** Highlight videos (`HighlightUtils`): per-player selection and the YouTube
    id and URL helpers. */
module Highlights {
  import opened Wrappers
  import opened Seqs
  import opened Text

  datatype Highlight = Highlight(playerId: int, highlightUrl: string)

  function ForPlayer(playerId: int): Highlight -> bool {
    (h: Highlight) => h.playerId == playerId
  }

  /** `getPlayerHighlights`: the highlights of one player, in data order. */
  function PlayerHighlights(hs: seq<Highlight>, playerId: int): (r: seq<Highlight>)
    ensures IsSubseq(r, hs)
    ensures forall i :: 0 <= i < |r| ==> r[i].playerId == playerId
    ensures forall i :: 0 <= i < |hs| && hs[i].playerId == playerId ==> hs[i] in r
    ensures forall h :: multiset(r)[h] == if h.playerId == playerId then multiset(hs)[h] else 0
  {
    FilterCount(hs, ForPlayer(playerId));
    FilterIsSubseq(hs, ForPlayer(playerId));
    FilterMembers(hs, ForPlayer(playerId));
    Filter(hs, ForPlayer(playerId))
  }

  /** `hasHighlights`: some highlight belongs to the player, which is the same
      as `getPlayerHighlights` being non-empty. */
  function HasHighlights(hs: seq<Highlight>, playerId: int): (b: bool)
    ensures b <==> |PlayerHighlights(hs, playerId)| > 0
  {
    FilterHead(hs, ForPlayer(playerId));
    exists i :: 0 <= i < |hs| && hs[i].playerId == playerId
  }

  /** `getFirstHighlight`: the head of `getPlayerHighlights`, i.e. the
      player's earliest highlight in the data, or null. */
  function FirstHighlight(hs: seq<Highlight>, playerId: int): (r: Option<Highlight>)
    ensures r.None? <==> !HasHighlights(hs, playerId)
    ensures r == Find(hs, ForPlayer(playerId))
  {
    FilterHead(hs, ForPlayer(playerId));
    var ph := PlayerHighlights(hs, playerId);
    if |ph| > 0 then Some(ph[0]) else None
  }

  const WatchMarker: string := "youtube.com/watch?v="
  const ShortMarker: string := "youtu.be/"
  const EmbedPrefix: string := "https://www.youtube.com/embed/"
  const ThumbnailPrefix: string := "https://img.youtube.com/vi/"
  const ThumbnailSuffix: string := "/maxresdefault.jpg"

  /** A character of the id group `[^&\n?#]`. */
  predicate IdChar(c: char) {
    c != '&' && c != '\n' && c != '?' && c != '#'
  }

  /** Length of the longest prefix of `s` made of id characters. */
  function IdRunLength(s: string): (n: nat)
    ensures n <= |s|
    ensures forall k :: 0 <= k < n ==> IdChar(s[k])
    ensures n == |s| || !IdChar(s[n])
    decreases |s|
  {
    if |s| > 0 && IdChar(s[0]) then
      var m := IdRunLength(s[1..]);
      assert forall k :: 1 <= k < 1 + m ==> s[k] == s[1..][k - 1];
      1 + m
    else 0
  }

  /** `marker` occurs at `i` and at least one id character follows it. */
  predicate MatchesAt(url: string, i: int, marker: string) {
    OccursAt(url, marker, i) && i + |marker| < |url| && IdChar(url[i + |marker|])
  }

  /** The alternative of the pattern that matches at `i`, tried in order. */
  function MarkerAt(url: string, i: int): (m: Option<string>)
    ensures m.Some? ==> MatchesAt(url, i, m.value)
    ensures m.None? <==> !MatchesAt(url, i, WatchMarker) && !MatchesAt(url, i, ShortMarker)
  {
    if MatchesAt(url, i, WatchMarker) then Some(WatchMarker)
    else if MatchesAt(url, i, ShortMarker) then Some(ShortMarker)
    else None
  }

  /** The greedy id group of a match starting at `i`. */
  function IdAt(url: string, i: int): (id: string)
    requires MarkerAt(url, i).Some?
    ensures var start := i + |MarkerAt(url, i).value|;
            |id| > 0 && start + |id| <= |url| && id == url[start..start + |id|] &&
            (forall k :: 0 <= k < |id| ==> IdChar(id[k])) &&
            (start + |id| == |url| || !IdChar(url[start + |id|]))
  {
    var start := i + |MarkerAt(url, i).value|;
    var rest := url[start..];
    assert rest[0] == url[start];
    var n := IdRunLength(rest);
    assert forall k :: 0 <= k < n ==> rest[k] == url[start + k];
    rest[..n]
  }

  /** `j` is the leftmost match position at or after `i`. */
  predicate FirstMatchFrom(url: string, i: int, j: int) {
    i <= j < |url| && MarkerAt(url, j).Some? &&
    forall k :: i <= k < j ==> MarkerAt(url, k).None?
  }

  /** Skipping a position where nothing matches keeps the leftmost match. */
  lemma FirstMatchSkip(url: string, i: int)
    requires MarkerAt(url, i).None?
    ensures forall j :: FirstMatchFrom(url, i + 1, j) ==> FirstMatchFrom(url, i, j)
  {
  }

  /** The leftmost match of the pattern, scanning from position `i`. */
  function VideoIdFrom(url: string, i: nat): (r: Option<string>)
    ensures r.None? <==> forall k :: i <= k < |url| ==> MarkerAt(url, k).None?
    ensures r.Some? ==> exists j :: FirstMatchFrom(url, i, j) && r.value == IdAt(url, j)
    decreases |url| - i
  {
    if i >= |url| then None
    else match MarkerAt(url, i)
      case Some(_) =>
        assert FirstMatchFrom(url, i, i);
        Some(IdAt(url, i))
      case None =>
        FirstMatchSkip(url, i);
        VideoIdFrom(url, i + 1)
  }

  /** `getVideoId`: the id group of the leftmost match of
      `(?:youtube\.com\/watch\?v=|youtu\.be\/)([^&\n?#]+)`, or null. A
      returned id is non-empty and holds none of `&`, `?`, `#`, newline. */
  function VideoId(url: string): (r: Option<string>)
    ensures r.None? <==> forall k :: 0 <= k < |url| ==> MarkerAt(url, k).None?
    ensures r.Some? ==> |r.value| > 0 && forall k :: 0 <= k < |r.value| ==> IdChar(r.value[k])
    ensures r.Some? ==> exists j :: FirstMatchFrom(url, 0, j) && r.value == IdAt(url, j)
  {
    VideoIdFrom(url, 0)
  }

  /** `getEmbedUrl`: null exactly when there is no id; otherwise the embed
      prefix followed by the id. */
  function EmbedUrl(url: string): (r: Option<string>)
    ensures r.Some? <==> VideoId(url).Some?
    ensures r.Some? ==> |r.value| > |EmbedPrefix| && r.value[..|EmbedPrefix|] == EmbedPrefix &&
                        r.value[|EmbedPrefix|..] == VideoId(url).value
  {
    match VideoId(url)
    case Some(id) => Some(EmbedPrefix + id)
    case None => None
  }

  /** `getThumbnailUrl`: null exactly when there is no id; otherwise the id
      between the thumbnail prefix and suffix. */
  function ThumbnailUrl(url: string): (r: Option<string>)
    ensures r.Some? <==> VideoId(url).Some?
    ensures r.Some? ==>
      var n := |r.value| - |ThumbnailSuffix|;
      |ThumbnailPrefix| < n && r.value[..|ThumbnailPrefix|] == ThumbnailPrefix &&
      r.value[|ThumbnailPrefix|..n] == VideoId(url).value && r.value[n..] == ThumbnailSuffix
  {
    match VideoId(url)
    case Some(id) =>
      var u := ThumbnailPrefix + id + ThumbnailSuffix;
      assert u[|ThumbnailPrefix|..|u| - |ThumbnailSuffix|] == id;
      Some(u)
    case None => None
  }
}

=== FILE: HomePage.dfy ===
/** The home page's "top prospects": the three best ranked biographies by
    consensus rank. */
module HomePage {
  import opened Wrappers
  import opened Seqs
  import opened Sorting
  import opened JsMath
  import opened ScoutRankings
  import opened Bio
  import opened Draft
  import opened RankingsPage

  const TopCount := 3

  /** `a.consensusRank - b.consensusRank`; a joined row's `scoutRank` is
      its consensus rank. */
  function CompareConsensusRank(a: RankingRow, b: RankingRow): int {
    SortValue(Minus(a.scoutRank, b.scoutRank))
  }

  /** `.sort(...).slice(0, 3)` over the candidates. */
  function Best(rows: seq<RankingRow>): (top: seq<RankingRow>)
    ensures |top| == (if |rows| < TopCount then |rows| else TopCount)
    ensures top == Sort(rows, CompareConsensusRank)[..|top|]
  {
    var sorted := Sort(rows, CompareConsensusRank);
    if |sorted| < TopCount then sorted else sorted[..TopCount]
  }

  /** The top players: nothing without biographies or scout rankings,
      otherwise the best three of the joined candidates. */
  function TopPlayers(data: DraftData): (top: seq<RankingRow>)
    ensures |top| <= TopCount
    ensures data.bio.None? || data.scoutRankings.None? || |data.scoutRankings.value| == 0 ==> top == []
    ensures data.bio.Some? && data.scoutRankings.Some? && |data.scoutRankings.value| > 0 ==>
              top == Best(Join(data.bio.value, data.scoutRankings.value))
  {
    if data.bio.None? || |data.bio.value| == 0 || data.scoutRankings.None? || |data.scoutRankings.value| == 0 then []
    else Best(Join(data.bio.value, data.scoutRankings.value))
  }

  /** The selection is drawn from the candidates, each at most as often as
      it occurs there. */
  lemma BestAreCandidates(rows: seq<RankingRow>)
    ensures multiset(Best(rows)) <= multiset(rows)
    ensures forall i :: 0 <= i < |Best(rows)| ==> Best(rows)[i] in rows
  {
    var sorted := Sort(rows, CompareConsensusRank);
    var top := Best(rows);
    assert sorted == top + sorted[|top|..];
    assert multiset(sorted) == multiset(top) + multiset(sorted[|top|..]);
    forall i | 0 <= i < |top| ensures top[i] in rows {
      assert top[i] in multiset(top);
    }
  }

  /** Only ranked biographies are candidates: each selected row is a
      biography from the data together with its first scout ranking. */
  lemma TopPlayersAreRanked(bios: seq<PlayerBio>, rs: seq<ScoutRanking>)
    ensures forall row :: row in TopPlayers(DraftData(Some(bios), Some(rs))) ==>
              row.bio in bios && HasRanking(rs)(row.bio) &&
              Find(rs, RankingFor(row.bio.playerId)) == Some(row.ranking) &&
              row.scoutRank == Consensus(row.ranking)
  {
    var top := TopPlayers(DraftData(Some(bios), Some(rs)));
    if top != [] {
      assert top == Best(Join(bios, rs));
    }
    forall row | row in top
      ensures row.bio in bios && HasRanking(rs)(row.bio) &&
              Find(rs, RankingFor(row.bio.playerId)) == Some(row.ranking) &&
              row.scoutRank == Consensus(row.ranking)
    {
      BestRowIsRanked(bios, rs, row);
    }
  }

  /** A row of the best three is a biography of the list with its first ranking. */
  lemma BestRowIsRanked(bios: seq<PlayerBio>, rs: seq<ScoutRanking>, row: RankingRow)
    ensures row in Best(Join(bios, rs)) ==>
              row.bio in bios && HasRanking(rs)(row.bio) &&
              Find(rs, RankingFor(row.bio.playerId)) == Some(row.ranking) &&
              row.scoutRank == Consensus(row.ranking)
  {
    var joined := Join(bios, rs);
    BestAreCandidates(joined);
    if row in Best(joined) {
      var j :| 0 <= j < |joined| && joined[j] == row;
      JoinedBioIsRanked(bios, rs, j);
    }
  }

  /** A joined row is a biography of the list with its first ranking. */
  lemma JoinedBioIsRanked(bios: seq<PlayerBio>, rs: seq<ScoutRanking>, j: int)
    requires 0 <= j < |Join(bios, rs)|
    ensures var row := Join(bios, rs)[j];
            row.bio in bios && HasRanking(rs)(row.bio) &&
            Find(rs, RankingFor(row.bio.playerId)) == Some(row.ranking) &&
            row.scoutRank == Consensus(row.ranking)
  {
    var joined := Join(bios, rs);
    JoinIsRankedBios(bios, rs);
    FilterMembers(bios, HasRanking(rs));
    assert RowBios(joined)[j] == joined[j].bio;
    assert joined[j].bio in Filter(bios, HasRanking(rs));
  }

  /** In a list sorted by rank, no element after position `n` ranks better
      than one before it. */
  lemma PrefixIsBest(sorted: seq<RankingRow>, n: nat)
    requires n <= |sorted| && SortedBy(sorted, ScoutRowLe)
    ensures forall x, i :: x in multiset(sorted) - multiset(sorted[..n]) && 0 <= i < n ==>
              sorted[i].scoutRank.GetOr(0) <= x.scoutRank.GetOr(0)
  {
    assert sorted == sorted[..n] + sorted[n..];
    assert multiset(sorted) == multiset(sorted[..n]) + multiset(sorted[n..]);
    forall x, i | x in multiset(sorted) - multiset(sorted[..n]) && 0 <= i < n
      ensures sorted[i].scoutRank.GetOr(0) <= x.scoutRank.GetOr(0)
    {
      assert x in multiset(sorted[n..]);
      var j :| 0 <= j < |sorted[n..]| && sorted[n..][j] == x;
      assert sorted[n + j] == x;
    }
  }

  /** With every candidate's consensus defined, the selection is in
      ascending consensus order and no candidate left out has a better
      consensus than a selected one. */
  lemma BestAreBest(rows: seq<RankingRow>)
    requires forall i :: 0 <= i < |rows| ==> rows[i].scoutRank.Some?
    ensures SortedBy(Best(rows), ScoutRowLe)
    ensures forall x, i :: x in multiset(rows) - multiset(Best(rows)) && 0 <= i < |Best(rows)| ==>
              Best(rows)[i].scoutRank.GetOr(0) <= x.scoutRank.GetOr(0)
  {
    var sorted := Sort(rows, CompareConsensusRank);
    var top := Best(rows);
    forall a | a in rows ensures a.scoutRank.Some? {
      var i :| 0 <= i < |rows| && rows[i] == a;
    }
    SortSorted(rows, CompareConsensusRank, ScoutRowLe);
    PrefixIsBest(sorted, |top|);
    assert SortedBy(top, ScoutRowLe) by {
      forall i, j | 0 <= i < j < |top| ensures ScoutRowLe(top[i], top[j]) {
        assert top[i] == sorted[i] && top[j] == sorted[j];
      }
    }
  }

  /** Candidates with the same consensus rank appear in biography order:
      among the selected, those of rank `k` are the first ones of rank `k`
      among the candidates. */
  lemma BestTiesInOrder(rows: seq<RankingRow>, k: int)
    ensures |Filter(Best(rows), RankIs(k))| <= |Filter(rows, RankIs(k))|
    ensures Filter(Best(rows), RankIs(k)) == Filter(rows, RankIs(k))[..|Filter(Best(rows), RankIs(k))|]
  {
    var sorted := Sort(rows, CompareConsensusRank);
    SortStable(rows, CompareConsensusRank, RankIs(k));
    FilterTake(sorted, |Best(rows)|, RankIs(k));
  }
}

=== FILE: JsMath.dfy ===
/** The slice of JavaScript number behaviour the source relies on. Values are
    integers or NaN; `Math.round` rounds halves toward +infinity (ECMA-262,
    2023 edition, section 21.3.2.28). */
module JsMath {
  import opened Wrappers

  /** A JavaScript number known to be an integer, or NaN (`None`). */
  type Num = Option<int>

  /** `Math.round(n / d)` for `d > 0`: the integer nearest to `n / d`, with
      exact halves going up. */
  function RoundDiv(n: int, d: int): (r: int)
    requires d > 0
    ensures 2 * d * r <= 2 * n + d < 2 * d * (r + 1)
  {
    var q := (2 * n + d) / (2 * d);
    assert (2 * d) * q + (2 * n + d) % (2 * d) == 2 * n + d;
    q
  }

  /** `x > 0`; false for NaN. */
  predicate IsPositive(x: Num) {
    x.Some? && x.value > 0
  }

  /** `a - b`, NaN when either side is NaN. */
  function Minus(a: Num, b: Num): (r: Num)
    ensures r.Some? <==> a.Some? && b.Some?
    ensures r.Some? ==> r.value + b.value == a.value
  {
    if a.Some? && b.Some? then Some(a.value - b.value) else None
  }

  /** What `Array.prototype.sort` makes of a comparator result: a NaN result
      counts as zero (ECMA-262, 2023 edition, section 23.1.3.30.2). */
  function SortValue(x: Num): (r: int)
    ensures x.Some? ==> r == x.value
    ensures x.None? ==> r == 0
  {
    x.GetOr(0)
  }

  /** JavaScript truthiness of a number: neither 0 nor NaN. */
  predicate Truthy(x: Num) {
    x.Some? && x.value != 0
  }

  /** `a || b` on numbers. */
  function Or(a: Num, b: Num): (r: Num)
    ensures Truthy(a) ==> r == a
    ensures !Truthy(a) ==> r == b
  {
    if Truthy(a) then a else b
  }

  /** `a !== b` on numbers: NaN differs from everything, itself included. */
  predicate StrictNe(a: Num, b: Num) {
    a.None? || b.None? || a.value != b.value
  }
}

=== FILE: PlayerProfile.dfy ===
/** The player profile page: the player's consensus position, the ordering
    of season logs and notes, and the scouting-notes store kept under the
    key "playerScoutingNotes" as a map from player id to that player's notes. */
module PlayerProfile {
  import opened Wrappers
  import opened Seqs
  import opened Sorting
  import opened Text
  import opened JsMath
  import opened ScoutRankings
  import opened SeasonLogs

  /** A position-list item: `{playerId, consensusRank, averageRank}`. */
  datatype PositionEntry = PositionEntry(playerId: int, consensusRank: Num, averageTenths: Num)

  function ToEntry(r: ScoutRanking): PositionEntry {
    PositionEntry(r.playerId, Consensus(r), AverageTenths(r))
  }

  function Entries(rs: seq<ScoutRanking>): (es: seq<PositionEntry>)
    ensures |es| == |rs|
    ensures forall i :: 0 <= i < |rs| ==> es[i] == ToEntry(rs[i])
  {
    seq(|rs|, i requires 0 <= i < |rs| => ToEntry(rs[i]))
  }

  function HasConsensus(e: PositionEntry): bool {
    IsPositive(e.consensusRank)
  }

  /** Consensus first, then the one-decimal average. */
  function ComparePositions(a: PositionEntry, b: PositionEntry): int {
    if StrictNe(a.consensusRank, b.consensusRank) then SortValue(Minus(a.consensusRank, b.consensusRank))
    else SortValue(Minus(a.averageTenths, b.averageTenths))
  }

  /** Every ranked player (consensus above zero), best first. */
  function PositionList(rs: seq<ScoutRanking>): seq<PositionEntry> {
    Sort(Filter(Entries(rs), HasConsensus), ComparePositions)
  }

  function PositionLe(a: PositionEntry, b: PositionEntry): bool {
    var x, y := a.consensusRank.GetOr(0), b.consensusRank.GetOr(0);
    x < y || (x == y && a.averageTenths.GetOr(0) <= b.averageTenths.GetOr(0))
  }

  /** With both keys defined, sorting by `ComparePositions` orders by
      consensus and then average. */
  lemma SortPositions(kept: seq<PositionEntry>)
    requires forall i :: 0 <= i < |kept| ==> kept[i].consensusRank.Some? && kept[i].averageTenths.Some?
    ensures SortedBy(Sort(kept, ComparePositions), PositionLe)
  {
    forall e | e in kept ensures e.consensusRank.Some? && e.averageTenths.Some? {
      var i :| 0 <= i < |kept| && kept[i] == e;
    }
    SortSorted(kept, ComparePositions, PositionLe);
  }

  /** The list holds the ranked players only, ordered by consensus and then average. */
  lemma PositionListOrdered(rs: seq<ScoutRanking>)
    ensures SortedBy(PositionList(rs), PositionLe)
    ensures forall e :: e in PositionList(rs) <==> e in Entries(rs) && HasConsensus(e)
  {
    var es := Entries(rs);
    var kept := Filter(es, HasConsensus);
    var l := PositionList(rs);
    FilterMembers(es, HasConsensus);
    forall i | 0 <= i < |kept| ensures kept[i].consensusRank.Some? && kept[i].averageTenths.Some? {
      assert kept[i] in es;
    }
    SortPositions(kept);
    forall e ensures e in l <==> e in kept {
      assert e in l <==> e in multiset(l);
      assert e in kept <==> e in multiset(kept);
    }
  }

  function EntryFor(id: int): PositionEntry -> bool {
    (e: PositionEntry) => e.playerId == id
  }

  /** `getConsensusRankPosition`: the player's 1-based place in the position
      list; the raw consensus when the rankings are absent or the player is
      not in the list. */
  function ConsensusPosition(rankings: Option<seq<ScoutRanking>>, r: ScoutRanking): (p: Num)
    ensures rankings.None? ==> p == Consensus(r)
    ensures rankings.Some? ==>
              var l := PositionList(rankings.value);
              var k := FindIndex(l, EntryFor(r.playerId));
              (k >= 0 ==> p == Some(k + 1) && l[k].playerId == r.playerId &&
                          forall j :: 0 <= j < k ==> l[j].playerId != r.playerId) &&
              (k < 0 ==> p == Consensus(r) && forall j :: 0 <= j < |l| ==> l[j].playerId != r.playerId)
  {
    match rankings
    case None => Consensus(r)
    case Some(rs) =>
      var k := FindIndex(PositionList(rs), EntryFor(r.playerId));
      if k >= 0 then Some(k + 1) else Consensus(r)
  }

  /** A player whose consensus is NaN never appears in the list, so gets
      the NaN consensus back. */
  lemma UnrankedPositionIsConsensus(rs: seq<ScoutRanking>, r: ScoutRanking)
    requires forall i :: 0 <= i < |rs| && rs[i].playerId == r.playerId ==> !IsPositive(Consensus(rs[i]))
    ensures ConsensusPosition(Some(rs), r) == Consensus(r)
  {
    PositionListOrdered(rs);
    var l := PositionList(rs);
    forall j | 0 <= j < |l| ensures l[j].playerId != r.playerId {
      assert l[j] in Entries(rs);
      var i :| 0 <= i < |rs| && Entries(rs)[i] == l[j];
    }
  }

  function ForPlayer(id: int): SeasonLog -> bool {
    (s: SeasonLog) => s.playerId == id
  }

  /** `b.Season - a.Season`. */
  function NewestFirst(a: SeasonLog, b: SeasonLog): int {
    b.season - a.season
  }

  function SeasonGe(a: SeasonLog, b: SeasonLog): bool {
    a.season >= b.season
  }

  /** The player's season logs, most recent season first (none when the
      data has no season logs). */
  function PlayerSeasons(logs: Option<seq<SeasonLog>>, id: int): (r: seq<SeasonLog>)
    ensures logs.None? ==> r == []
    ensures forall i :: 0 <= i < |r| ==> r[i].playerId == id
  {
    match logs
    case None => []
    case Some(ls) => PlayerSeasonsFacts(ls, id); Sort(Filter(ls, ForPlayer(id)), NewestFirst)
  }

  lemma PlayerSeasonsFacts(ls: seq<SeasonLog>, id: int)
    ensures forall i :: 0 <= i < |Sort(Filter(ls, ForPlayer(id)), NewestFirst)| ==>
              Sort(Filter(ls, ForPlayer(id)), NewestFirst)[i].playerId == id
  {
    var f := Filter(ls, ForPlayer(id));
    var r := Sort(f, NewestFirst);
    forall i | 0 <= i < |r| ensures r[i].playerId == id {
      assert r[i] in multiset(f);
      var k :| 0 <= k < |f| && f[k] == r[i];
    }
  }

  function InSeason(season: int): SeasonLog -> bool {
    (s: SeasonLog) => s.season == season
  }

  /** Seasons come newest first, and logs of the same season keep data order. */
  lemma PlayerSeasonsOrdered(ls: seq<SeasonLog>, id: int, season: int)
    ensures SortedBy(PlayerSeasons(Some(ls), id), SeasonGe)
    ensures Filter(PlayerSeasons(Some(ls), id), InSeason(season)) ==
            Filter(Filter(ls, ForPlayer(id)), InSeason(season))
  {
    var f := Filter(ls, ForPlayer(id));
    SortSorted(f, NewestFirst, SeasonGe);
    SortStable(f, NewestFirst, InSeason(season));
  }

  /** A scouting note; the two times are timestamps in milliseconds. */
  datatype ScoutingNote = ScoutingNote(
    id: string,
    playerId: int,
    title: string,
    content: string,
    createdAt: int,
    updatedAt: int)

  /** The value under "playerScoutingNotes": absent (or empty), not a JSON
      object of note lists, or the map that was written. Keys are player ids. */
  datatype NotesStore = NoNotes | CorruptNotes | Notes(byPlayer: map<int, seq<ScoutingNote>>)

  /** `loadAllNotes`: the stored map, empty when nothing usable is stored. */
  function LoadAllNotes(store: NotesStore): (m: map<int, seq<ScoutingNote>>)
    ensures store.Notes? ==> m == store.byPlayer
    ensures !store.Notes? ==> m == map[]
  {
    if store.Notes? then store.byPlayer else map[]
  }

  /** `getPlayerNotes`: that player's list, `[]` when there is none. */
  function PlayerNotes(store: NotesStore, playerId: int): (ns: seq<ScoutingNote>)
    ensures playerId in LoadAllNotes(store) ==> ns == LoadAllNotes(store)[playerId]
    ensures playerId !in LoadAllNotes(store) ==> ns == []
  {
    var m := LoadAllNotes(store);
    if playerId in m then m[playerId] else []
  }

  /** Every other player's list is as it was. */
  ghost predicate OthersUnchanged(before: map<int, seq<ScoutingNote>>, after: map<int, seq<ScoutingNote>>, playerId: int) {
    forall k :: k != playerId ==> (k in after <==> k in before) && (k in before ==> after[k] == before[k])
  }

  /** `saveAllNotes`: the map is written, unless `setItem` throws (a full
      quota, storage switched off), which is caught and leaves the stored
      value as it was. */
  function SaveAllNotes(store: NotesStore, all: map<int, seq<ScoutingNote>>, written: bool): (r: NotesStore)
    ensures r == if written then Notes(all) else store
  {
    if written then Notes(all) else store
  }

  datatype Added = Added(store: NotesStore, note: ScoutingNote)

  /** `addNote`, with the generated id and the two clock readings passed in:
      the new note goes at the end of the player's list and the map is
      written back; the note is returned whether or not the write succeeds. */
  function AddNote(store: NotesStore, playerId: int, notePlayerId: int, title: string, content: string,
                   id: string, created: int, updated: int, written: bool): (r: Added)
    ensures r.note == ScoutingNote(id, notePlayerId, title, content, created, updated)
    ensures !written ==> r.store == store
    ensures written ==> r.store.Notes? && playerId in r.store.byPlayer
    ensures written ==> r.store.byPlayer[playerId] == PlayerNotes(store, playerId) + [r.note]
    ensures written ==> OthersUnchanged(LoadAllNotes(store), r.store.byPlayer, playerId)
  {
    var all := LoadAllNotes(store);
    var note := ScoutingNote(id, notePlayerId, title, content, created, updated);
    Added(SaveAllNotes(store, all[playerId := PlayerNotes(store, playerId) + [note]], written), note)
  }

  function NoteWithId(noteId: string): ScoutingNote -> bool {
    (n: ScoutingNote) => n.id == noteId
  }

  datatype Updated = Updated(store: NotesStore, note: Option<ScoutingNote>)

  /** `updateNote`: null and no write when the player has no note with that
      id; otherwise the first such note gets the supplied title and content
      and the new time, nothing else about it changes, and it is returned
      whether or not the write succeeds. */
  function UpdateNote(store: NotesStore, playerId: int, noteId: string,
                      title: Option<string>, content: Option<string>, now: int, written: bool): (r: Updated)
    ensures var ns := PlayerNotes(store, playerId);
            r.note.None? <==> forall i :: 0 <= i < |ns| ==> ns[i].id != noteId
    ensures r.note.None? || !written ==> r.store == store
    ensures r.note.Some? ==>
              var ns := PlayerNotes(store, playerId);
              var k := FindIndex(ns, NoteWithId(noteId));
              var old_ := ns[k];
              var n := r.note.value;
              n.id == old_.id == noteId && n.playerId == old_.playerId && n.createdAt == old_.createdAt &&
              n.title == title.GetOr(old_.title) && n.content == content.GetOr(old_.content) &&
              n.updatedAt == now &&
              (written ==>
                 r.store.Notes? && playerId in r.store.byPlayer &&
                 r.store.byPlayer[playerId] == ns[k := n] &&
                 OthersUnchanged(LoadAllNotes(store), r.store.byPlayer, playerId))
  {
    var ns := PlayerNotes(store, playerId);
    var k := FindIndex(ns, NoteWithId(noteId));
    if k == -1 then Updated(store, None)
    else
      var n := ns[k].(title := title.GetOr(ns[k].title), content := content.GetOr(ns[k].content), updatedAt := now);
      Updated(SaveAllNotes(store, LoadAllNotes(store)[playerId := ns[k := n]], written), Some(n))
  }

  function NoteWithoutId(noteId: string): ScoutingNote -> bool {
    (n: ScoutingNote) => n.id != noteId
  }

  datatype Deleted = Deleted(store: NotesStore, ok: bool)

  /** `deleteNote`: false and no write when no note has that id; otherwise
      every note with that id is removed, the rest keep their order, and
      true is returned whether or not the write succeeds. */
  function DeleteNote(store: NotesStore, playerId: int, noteId: string, written: bool): (r: Deleted)
    ensures var ns := PlayerNotes(store, playerId);
            !r.ok <==> forall i :: 0 <= i < |ns| ==> ns[i].id != noteId
    ensures !r.ok || !written ==> r.store == store
    ensures r.ok && written ==>
              var ns := PlayerNotes(store, playerId);
              r.store.Notes? && playerId in r.store.byPlayer &&
              var kept := r.store.byPlayer[playerId];
              kept == Filter(ns, NoteWithoutId(noteId)) && IsSubseq(kept, ns) && |kept| < |ns| &&
              (forall i :: 0 <= i < |kept| ==> kept[i].id != noteId) &&
              (forall i :: 0 <= i < |ns| && ns[i].id != noteId ==> ns[i] in kept) &&
              OthersUnchanged(LoadAllNotes(store), r.store.byPlayer, playerId)
  {
    var ns := PlayerNotes(store, playerId);
    var kept := Filter(ns, NoteWithoutId(noteId));
    FilterKeepsAll(ns, NoteWithoutId(noteId));
    FilterIsSubseq(ns, NoteWithoutId(noteId));
    FilterMembers(ns, NoteWithoutId(noteId));
    if |kept| == |ns| then Deleted(store, false)
    else Deleted(SaveAllNotes(store, LoadAllNotes(store)[playerId := kept], written), true)
  }

  /** `handleAddNote`: refused (nothing happens) when the trimmed title or
      content is empty or no player is loaded; otherwise the trimmed texts
      are stored as a new note of the loaded player. */
  function HandleAddNote(store: NotesStore, loaded: Option<int>, title: string, content: string,
                         id: string, created: int, updated: int, written: bool): (r: Option<Added>)
    ensures r.None? <==> Blank(title) || Blank(content) || loaded.None?
    ensures r.Some? ==>
              r.value == AddNote(store, loaded.value, loaded.value, Trim(title), Trim(content), id, created, updated, written) &&
              |r.value.note.title| > 0 && |r.value.note.content| > 0
  {
    if |Trim(title)| == 0 || |Trim(content)| == 0 || loaded.None? then None
    else Some(AddNote(store, loaded.value, loaded.value, Trim(title), Trim(content), id, created, updated, written))
  }

  /** A note added with a successful write is what the player's list now
      ends with, and the list grew by one. */
  lemma AddedNoteLoads(store: NotesStore, playerId: int, title: string, content: string,
                       id: string, created: int, updated: int)
    ensures var r := AddNote(store, playerId, playerId, title, content, id, created, updated, true);
            var ns := PlayerNotes(r.store, playerId);
            |ns| == |PlayerNotes(store, playerId)| + 1 && ns[|ns| - 1] == r.note &&
            ns[..|ns| - 1] == PlayerNotes(store, playerId)
  {
  }

  /** Deleting a note just added, with both writes successful, gives the
      player's list back, provided no earlier note shared the new id. */
  lemma AddThenDelete(store: NotesStore, playerId: int, title: string, content: string,
                      id: string, created: int, updated: int)
    requires forall i :: 0 <= i < |PlayerNotes(store, playerId)| ==> PlayerNotes(store, playerId)[i].id != id
    ensures var a := AddNote(store, playerId, playerId, title, content, id, created, updated, true);
            var d := DeleteNote(a.store, playerId, id, true);
            d.ok && PlayerNotes(d.store, playerId) == PlayerNotes(store, playerId)
  {
    var ns := PlayerNotes(store, playerId);
    var a := AddNote(store, playerId, playerId, title, content, id, created, updated, true);
    var ms := PlayerNotes(a.store, playerId);
    assert ms == ns + [a.note];
    FilterConcat(ns, [a.note], NoteWithoutId(id));
    FilterAll(ns, NoteWithoutId(id));
    FilterSingleton(a.note, NoteWithoutId(id));
    assert ms[|ms| - 1].id == id;
  }

  /** `b.updatedAt - a.updatedAt`. */
  function RecentFirst(a: ScoutingNote, b: ScoutingNote): int {
    b.updatedAt - a.updatedAt
  }

  function UpdatedLater(a: ScoutingNote, b: ScoutingNote): bool {
    a.updatedAt >= b.updatedAt
  }

  function UpdatedAt(t: int): ScoutingNote -> bool {
    (n: ScoutingNote) => n.updatedAt == t
  }

  /** The notes list as displayed: most recently updated first, same-time
      notes in list order, and the same notes as before. */
  function DisplayNotes(ns: seq<ScoutingNote>): (r: seq<ScoutingNote>)
    ensures multiset(r) == multiset(ns)
    ensures SortedBy(r, UpdatedLater)
  {
    SortSorted(ns, RecentFirst, UpdatedLater);
    Sort(ns, RecentFirst)
  }

  lemma DisplayNotesStable(ns: seq<ScoutingNote>, t: int)
    ensures Filter(DisplayNotes(ns), UpdatedAt(t)) == Filter(ns, UpdatedAt(t))
  {
    SortStable(ns, RecentFirst, UpdatedAt(t));
  }
}

=== FILE: Prospects.dfy ===
/** The prospects page: each biography with its latest season, the search
    box, the league filter and the age orderings. */
module Prospects {
  import opened Wrappers
  import opened Seqs
  import opened Sorting
  import opened Text
  import opened Bio
  import opened SeasonLogs

  /** `latest?.Season || 0`: an absent accumulator counts as season 0. */
  function SeasonOr0(latest: Option<SeasonLog>): int {
    if latest.None? then 0 else latest.value.season
  }

  /** Index `i` holds the first log of the highest season, which is above 0. */
  ghost predicate LatestAt(logs: seq<SeasonLog>, i: int) {
    0 <= i < |logs| && logs[i].season > 0 &&
    (forall j :: 0 <= j < |logs| ==> logs[j].season <= logs[i].season) &&
    (forall j :: 0 <= j < i ==> logs[j].season < logs[i].season)
  }

  /** The `reduce` over the logs, starting from `undefined`: a log replaces
      the accumulator only when its season is strictly higher. */
  function LatestSeason(logs: seq<SeasonLog>): (r: Option<SeasonLog>)
    ensures r.None? <==> forall j :: 0 <= j < |logs| ==> logs[j].season <= 0
    ensures r.Some? ==> exists i :: LatestAt(logs, i) && logs[i] == r.value
    decreases |logs|
  {
    if |logs| == 0 then None
    else
      var prev := LatestSeason(logs[..|logs| - 1]);
      var cur := logs[|logs| - 1];
      LatestStep(logs, prev);
      if cur.season > SeasonOr0(prev) then Some(cur) else prev
  }

  lemma LatestStep(logs: seq<SeasonLog>, prev: Option<SeasonLog>)
    requires |logs| > 0
    requires var init := logs[..|logs| - 1];
             (prev.None? <==> forall j :: 0 <= j < |init| ==> init[j].season <= 0) &&
             (prev.Some? ==> exists i :: LatestAt(init, i) && init[i] == prev.value)
    ensures var cur := logs[|logs| - 1];
            var r := if cur.season > SeasonOr0(prev) then Some(cur) else prev;
            (r.None? <==> forall j :: 0 <= j < |logs| ==> logs[j].season <= 0) &&
            (r.Some? ==> exists i :: LatestAt(logs, i) && logs[i] == r.value)
  {
    var init := logs[..|logs| - 1];
    var n := |logs| - 1;
    var cur := logs[n];
    assert forall j :: 0 <= j < n ==> logs[j] == init[j];
    if prev.Some? {
      var i :| LatestAt(init, i) && init[i] == prev.value;
      if cur.season > SeasonOr0(prev) {
        assert LatestAt(logs, n);
      } else {
        assert LatestAt(logs, i);
      }
    } else if cur.season > 0 {
      assert LatestAt(logs, n);
    }
  }

  /** A biography with its latest season log, if it has one. */
  datatype Prospect = Prospect(bio: PlayerBio, currentSeason: Option<SeasonLog>)

  function LogFor(id: int): SeasonLog -> bool {
    (s: SeasonLog) => s.playerId == id
  }

  function ProspectOf(b: PlayerBio, logs: Option<seq<SeasonLog>>): Prospect {
    Prospect(b, if logs.None? then None else LatestSeason(Filter(logs.value, LogFor(b.playerId))))
  }

  /** One prospect per biography, in biography order; none when the data
      has no biography list. A prospect's season is that player's latest. */
  function LoadProspects(bios: Option<seq<PlayerBio>>, logs: Option<seq<SeasonLog>>): (ps: seq<Prospect>)
    ensures bios.None? ==> ps == []
    ensures bios.Some? ==> |ps| == |bios.value|
    ensures bios.Some? ==>
              forall i :: 0 <= i < |ps| ==>
                ps[i].bio == bios.value[i] &&
                (logs.None? ==> ps[i].currentSeason.None?) &&
                (ps[i].currentSeason.Some? ==>
                   ps[i].currentSeason.value.playerId == bios.value[i].playerId &&
                   ps[i].currentSeason.value.season > 0)
    ensures bios.Some? && logs.Some? ==>
              forall i :: 0 <= i < |ps| ==>
                ps[i].currentSeason == LatestSeason(Filter(logs.value, LogFor(bios.value[i].playerId)))
  {
    if bios.None? then []
    else
      ProspectsFacts(bios.value, logs);
      seq(|bios.value|, i requires 0 <= i < |bios.value| => ProspectOf(bios.value[i], logs))
  }

  lemma ProspectsFacts(bios: seq<PlayerBio>, logs: Option<seq<SeasonLog>>)
    ensures forall i :: 0 <= i < |bios| && ProspectOf(bios[i], logs).currentSeason.Some? ==>
              ProspectOf(bios[i], logs).currentSeason.value.playerId == bios[i].playerId &&
              ProspectOf(bios[i], logs).currentSeason.value.season > 0
  {
  }

  /** The search term occurs, ignoring case, in the name or the team. */
  function Matches(term: string): Prospect -> bool {
    (p: Prospect) => Contains(Lower(p.bio.name), Lower(term)) || Contains(Lower(p.bio.currentTeam), Lower(term))
  }

  /** The search box: a blank term keeps everyone; otherwise the prospects
      that match the untrimmed term. */
  function Search(ps: seq<Prospect>, term: string): (r: seq<Prospect>)
    ensures Blank(term) ==> r == ps
    ensures IsSubseq(r, ps)
    ensures !Blank(term) ==> forall p :: p in r <==> p in ps && Matches(term)(p)
    ensures !Blank(term) ==> forall p :: multiset(r)[p] == if Matches(term)(p) then multiset(ps)[p] else 0
  {
    FilterCount(ps, Matches(term));
    SubseqRefl(ps);
    FilterIsSubseq(ps, Matches(term));
    FilterMembers(ps, Matches(term));
    if |Trim(term)| == 0 then ps else Filter(ps, Matches(term))
  }

  datatype LeagueChoice = AllLeagues | NcaaOnly | NonNcaa

  /** `leagueType?.toLowerCase() === "ncaa"`; a missing league type is not NCAA. */
  predicate IsNcaa(b: PlayerBio) {
    b.leagueType.Some? && Lower(b.leagueType.value) == "ncaa"
  }

  function InLeague(ncaa: bool): Prospect -> bool {
    (p: Prospect) => IsNcaa(p.bio) == ncaa
  }

  /** The league filter: "all" keeps everyone, the other two keep the NCAA
      or the non-NCAA prospects. */
  function ByLeague(ps: seq<Prospect>, choice: LeagueChoice): (r: seq<Prospect>)
    ensures choice == AllLeagues ==> r == ps
    ensures IsSubseq(r, ps)
    ensures choice == NcaaOnly ==> forall p :: p in r <==> p in ps && IsNcaa(p.bio)
    ensures choice == NonNcaa ==> forall p :: p in r <==> p in ps && !IsNcaa(p.bio)
  {
    SubseqRefl(ps);
    FilterIsSubseq(ps, InLeague(true));
    FilterIsSubseq(ps, InLeague(false));
    FilterMembers(ps, InLeague(true));
    FilterMembers(ps, InLeague(false));
    match choice
    case AllLeagues => ps
    case NcaaOnly => Filter(ps, InLeague(true))
    case NonNcaa => Filter(ps, InLeague(false))
  }

  /** The NCAA and non-NCAA lists split the prospects: together they hold
      each prospect exactly as often as the input does. */
  lemma LeaguesPartition(ps: seq<Prospect>)
    ensures multiset(ByLeague(ps, NcaaOnly)) + multiset(ByLeague(ps, NonNcaa)) == multiset(ps)
  {
    FilterPartition(ps, InLeague(true), InLeague(false));
  }

  /** A prospect without a league type always passes the non-NCAA filter. */
  lemma MissingLeagueIsNonNcaa(ps: seq<Prospect>, p: Prospect)
    requires p in ps && p.bio.leagueType.None?
    ensures p in ByLeague(ps, NonNcaa) && p !in ByLeague(ps, NcaaOnly)
  {
  }

  /** Search, then the league filter: only prospects of the input, in
      input order, matching both. */
  function Filtered(ps: seq<Prospect>, term: string, choice: LeagueChoice): (r: seq<Prospect>)
    ensures IsSubseq(r, ps)
  {
    var s := Search(ps, term);
    var r := ByLeague(s, choice);
    SubseqTrans(r, s, ps);
    r
  }

  /** A prospect is listed exactly when it passes both filters. */
  lemma FilteredMembers(ps: seq<Prospect>, term: string, choice: LeagueChoice, p: Prospect)
    ensures p in Filtered(ps, term, choice) <==>
              p in ps && (Blank(term) || Matches(term)(p)) &&
              (choice == NcaaOnly ==> IsNcaa(p.bio)) && (choice == NonNcaa ==> !IsNcaa(p.bio))
  {
  }

  datatype AgeOrder = Youngest | Oldest

  /** `calculateAge(a) - calculateAge(b)` (youngest first) or the reverse. */
  function AgeComparator(order: AgeOrder, today: CalendarDate): (Prospect, Prospect) -> int {
    (a: Prospect, b: Prospect) =>
      if order == Youngest then Age(a.bio.birthDate, today) - Age(b.bio.birthDate, today)
      else Age(b.bio.birthDate, today) - Age(a.bio.birthDate, today)
  }

  function AgeLe(order: AgeOrder, today: CalendarDate): (Prospect, Prospect) -> bool {
    (a: Prospect, b: Prospect) =>
      if order == Youngest then Age(a.bio.birthDate, today) <= Age(b.bio.birthDate, today)
      else Age(a.bio.birthDate, today) >= Age(b.bio.birthDate, today)
  }

  function AgeIs(n: int, today: CalendarDate): Prospect -> bool {
    (p: Prospect) => Age(p.bio.birthDate, today) == n
  }

  /** The listed prospects under an age ordering: the same prospects, in
      age order, players of the same age in filtered order. */
  function SortedByAge(ps: seq<Prospect>, order: AgeOrder, today: CalendarDate): (r: seq<Prospect>)
    ensures multiset(r) == multiset(ps)
    ensures SortedBy(r, AgeLe(order, today))
  {
    SortSorted(ps, AgeComparator(order, today), AgeLe(order, today));
    Sort(ps, AgeComparator(order, today))
  }

  lemma SortedByAgeStable(ps: seq<Prospect>, order: AgeOrder, today: CalendarDate, n: int)
    ensures Filter(SortedByAge(ps, order, today), AgeIs(n, today)) == Filter(ps, AgeIs(n, today))
  {
    SortStable(ps, AgeComparator(order, today), AgeIs(n, today));
  }
}

=== FILE: RankingsPage.dfy ===
/** The Scout Rankings page: biographies joined with their rankings, one
    tab per scout plus a Consensus tab, each showing the players that tab
    ranks, in that tab's order. */
module RankingsPage {
  import opened Wrappers
  import opened Seqs
  import opened Sorting
  import opened JsMath
  import opened ScoutRankings
  import opened Bio
  import opened Draft

  /** A joined row; `scoutRank` is the rank the active tab shows. */
  datatype RankingRow = RankingRow(bio: PlayerBio, ranking: ScoutRanking, scoutRank: Num)

  datatype Tab = ConsensusTab | ScoutTab(scout: Scout)

  /** The tabs in the order the page lists them. */
  const Tabs: seq<Tab> := [ConsensusTab, ScoutTab(Espn), ScoutTab(Vecenie), ScoutTab(OConnor), ScoutTab(Boone), ScoutTab(Parrish)]

  function HasRanking(rs: seq<ScoutRanking>): PlayerBio -> bool {
    (b: PlayerBio) => Find(rs, RankingFor(b.playerId)).Some?
  }

  /** The `map`/`filter` join: each biography with its first ranking, and
      biographies without one left out. */
  function Join(bios: seq<PlayerBio>, rs: seq<ScoutRanking>): (rows: seq<RankingRow>)
    ensures |rows| <= |bios|
    ensures forall i :: 0 <= i < |rows| ==>
              Find(rs, RankingFor(rows[i].bio.playerId)) == Some(rows[i].ranking) &&
              rows[i].scoutRank == Consensus(rows[i].ranking)
    decreases |bios|
  {
    if |bios| == 0 then []
    else
      var head := match Find(rs, RankingFor(bios[0].playerId))
                  case Some(r) => [RankingRow(bios[0], r, Consensus(r))]
                  case None => [];
      head + Join(bios[1..], rs)
  }

  function RowBios(rows: seq<RankingRow>): (bs: seq<PlayerBio>)
    ensures |bs| == |rows|
    ensures forall i :: 0 <= i < |rows| ==> bs[i] == rows[i].bio
  {
    seq(|rows|, i requires 0 <= i < |rows| => rows[i].bio)
  }

  /** The joined list holds exactly the ranked biographies, in bio order. */
  lemma {:induction false} JoinIsRankedBios(bios: seq<PlayerBio>, rs: seq<ScoutRanking>)
    ensures RowBios(Join(bios, rs)) == Filter(bios, HasRanking(rs))
    decreases |bios|
  {
    if |bios| > 0 {
      JoinIsRankedBios(bios[1..], rs);
      var rest := Join(bios[1..], rs);
      var head := match Find(rs, RankingFor(bios[0].playerId))
                  case Some(r) => [RankingRow(bios[0], r, Consensus(r))]
                  case None => [];
      assert Join(bios, rs) == head + rest;
      RowBiosConcat(head, rest);
      assert RowBios(head) == if HasRanking(rs)(bios[0]) then [bios[0]] else [];
    }
  }

  lemma RowBiosConcat(a: seq<RankingRow>, b: seq<RankingRow>)
    ensures RowBios(a + b) == RowBios(a) + RowBios(b)
  {
  }

  /** `loadScoutingData`: without either list the load fails and nothing is shown. */
  function LoadRows(data: DraftData): (rows: seq<RankingRow>)
    ensures data.bio.None? || data.scoutRankings.None? ==> rows == []
    ensures data.bio.Some? && data.scoutRankings.Some? ==>
              RowBios(rows) == Filter(data.bio.value, HasRanking(data.scoutRankings.value))
  {
    match (data.bio, data.scoutRankings)
    case (Some(bios), Some(rs)) => JoinIsRankedBios(bios, rs); Join(bios, rs)
    case _ => []
  }

  /** The rank a tab shows: the consensus, or that scout's field. */
  function TabRank(r: ScoutRanking, tab: Tab): (x: Num)
    ensures tab.ConsensusTab? ==> x == Consensus(r)
    ensures tab.ScoutTab? ==> x == Some(RankByScout(r, tab.scout))
  {
    match tab
    case ConsensusTab => Consensus(r)
    case ScoutTab(s) => Some(RankByScout(r, s))
  }

  function WithTabRank(rows: seq<RankingRow>, tab: Tab): (r: seq<RankingRow>)
    ensures |r| == |rows|
    ensures forall i :: 0 <= i < |rows| ==> r[i] == rows[i].(scoutRank := TabRank(rows[i].ranking, tab))
  {
    seq(|rows|, i requires 0 <= i < |rows| => rows[i].(scoutRank := TabRank(rows[i].ranking, tab)))
  }

  function RowPositive(row: RankingRow): bool {
    IsPositive(row.scoutRank)
  }

  /** The page's comparator: rank first; on the Consensus tab equal ranks
      fall back to the one-decimal average. */
  function CompareRows(tab: Tab, a: RankingRow, b: RankingRow): int {
    if tab.ConsensusTab? && !StrictNe(a.scoutRank, b.scoutRank) then
      SortValue(Minus(AverageTenths(a.ranking), AverageTenths(b.ranking)))
    else SortValue(Minus(a.scoutRank, b.scoutRank))
  }

  function Comparator(tab: Tab): (RankingRow, RankingRow) -> int {
    (a: RankingRow, b: RankingRow) => CompareRows(tab, a, b)
  }

  /** The rows a tab ranks, before sorting. */
  function Ranked(rows: seq<RankingRow>, tab: Tab): seq<RankingRow> {
    Filter(WithTabRank(rows, tab), RowPositive)
  }

  /** The list shown for a tab. With no joined rows the effect returns early
      and the previous list stays. */
  function Displayed(rows: seq<RankingRow>, tab: Tab, previous: seq<RankingRow>): (d: seq<RankingRow>)
    ensures |rows| == 0 ==> d == previous
    ensures |rows| > 0 ==> multiset(d) == multiset(Ranked(rows, tab))
  {
    if |rows| == 0 then previous
    else Sort(Ranked(rows, tab), Comparator(tab))
  }

  /** Every row shown carries the tab's rank, and that rank is above zero;
      conversely every joined row the tab ranks is shown. */
  lemma DisplayedAreRanked(rows: seq<RankingRow>, tab: Tab, previous: seq<RankingRow>)
    requires |rows| > 0
    ensures var d := Displayed(rows, tab, previous);
            (forall i :: 0 <= i < |d| ==> IsPositive(d[i].scoutRank) && d[i].scoutRank == TabRank(d[i].ranking, tab)) &&
            (forall i :: 0 <= i < |rows| && IsPositive(TabRank(rows[i].ranking, tab)) ==>
               rows[i].(scoutRank := TabRank(rows[i].ranking, tab)) in d)
  {
    var w := WithTabRank(rows, tab);
    var d := Displayed(rows, tab, previous);
    FilterMembers(w, RowPositive);
    forall i | 0 <= i < |d| ensures IsPositive(d[i].scoutRank) && d[i].scoutRank == TabRank(d[i].ranking, tab) {
      assert d[i] in multiset(Ranked(rows, tab));
      assert d[i] in w;
    }
    forall i | 0 <= i < |rows| && IsPositive(TabRank(rows[i].ranking, tab))
      ensures rows[i].(scoutRank := TabRank(rows[i].ranking, tab)) in d
    {
      assert w[i] in Ranked(rows, tab);
      assert w[i] in multiset(d);
    }
  }

  /** Consensus tab order: ascending consensus, then ascending average. */
  function ConsensusRowLe(a: RankingRow, b: RankingRow): bool {
    var x, y := a.scoutRank.GetOr(0), b.scoutRank.GetOr(0);
    x < y || (x == y && AverageTenths(a.ranking).GetOr(0) <= AverageTenths(b.ranking).GetOr(0))
  }

  lemma ConsensusTabOrder(rows: seq<RankingRow>, previous: seq<RankingRow>)
    requires |rows| > 0
    ensures SortedBy(Displayed(rows, ConsensusTab, previous), ConsensusRowLe)
  {
    var ranked := Ranked(rows, ConsensusTab);
    var w := WithTabRank(rows, ConsensusTab);
    FilterMembers(w, RowPositive);
    forall x | x in ranked ensures x.scoutRank.Some? && AverageTenths(x.ranking).Some? {
      var i :| 0 <= i < |w| && w[i] == x;
    }
    SortSorted(ranked, Comparator(ConsensusTab), ConsensusRowLe);
  }

  function ScoutRowLe(a: RankingRow, b: RankingRow): bool {
    a.scoutRank.GetOr(0) <= b.scoutRank.GetOr(0)
  }

  function RankIs(k: int): RankingRow -> bool {
    (row: RankingRow) => row.scoutRank == Some(k)
  }

  /** A scout's tab is in ascending order of that scout's rank, and players
      the scout ranks equally keep bio order. */
  lemma ScoutTabOrder(rows: seq<RankingRow>, s: Scout, previous: seq<RankingRow>, k: int)
    requires |rows| > 0
    ensures SortedBy(Displayed(rows, ScoutTab(s), previous), ScoutRowLe)
    ensures Filter(Displayed(rows, ScoutTab(s), previous), RankIs(k)) == Filter(Ranked(rows, ScoutTab(s)), RankIs(k))
  {
    var ranked := Ranked(rows, ScoutTab(s));
    var w := WithTabRank(rows, ScoutTab(s));
    FilterMembers(w, RowPositive);
    forall x | x in ranked ensures x.scoutRank.Some? {
      var i :| 0 <= i < |w| && w[i] == x;
    }
    SortSorted(ranked, Comparator(ScoutTab(s)), ScoutRowLe);
    SortStable(ranked, Comparator(ScoutTab(s)), RankIs(k));
  }

  function CountedIn(tab: Tab): RankingRow -> bool {
    (row: RankingRow) => IsPositive(TabRank(row.ranking, tab))
  }

  /** The count on a tab's button: the joined rows whose rank for that tab is above zero. */
  function TabCount(rows: seq<RankingRow>, tab: Tab): (n: nat)
    ensures n <= |rows|
  {
    |Filter(rows, CountedIn(tab))|
  }

  lemma {:induction false} CountMatchesRanked(rows: seq<RankingRow>, tab: Tab)
    ensures |Filter(rows, CountedIn(tab))| == |Ranked(rows, tab)|
    decreases |rows|
  {
    if |rows| > 0 {
      CountMatchesRanked(rows[1..], tab);
      assert WithTabRank(rows, tab) == [WithTabRank(rows, tab)[0]] + WithTabRank(rows[1..], tab);
    }
  }

  /** Each tab's count is the length of the list that tab shows. */
  lemma TabCountIsShown(rows: seq<RankingRow>, tab: Tab, previous: seq<RankingRow>)
    requires |rows| > 0
    ensures TabCount(rows, tab) == |Displayed(rows, tab, previous)|
  {
    CountMatchesRanked(rows, tab);
  }

  /** The position column: `index + 1` for each row, so 1..N without gaps. */
  function Positions(n: nat): (r: seq<int>)
    ensures |r| == n
    ensures forall i :: 0 <= i < n ==> 1 <= r[i] <= n
    ensures forall i, j :: 0 <= i < j < n ==> r[i] < r[j]
    ensures n > 0 ==> r[0] == 1 && r[n - 1] == n
  {
    seq(n, i requires 0 <= i < n => i + 1)
  }
}

=== FILE: ScoutRankings.dfy ===
/** Consensus arithmetic over the five scouts' ranks of one player
    (`ScoutRankingUtils`). A rank that is not positive means "not ranked by
    this scout". */
module ScoutRankings {
  import opened Wrappers
  import opened Seqs
  import opened JsMath

  /** One player's ranks from the five scouts, in declaration order. */
  datatype ScoutRanking = ScoutRanking(
    playerId: int,
    espn: int,
    vecenie: int,
    oconnor: int,
    boone: int,
    parrish: int)

  datatype Scout = Espn | Vecenie | OConnor | Boone | Parrish

  /** The scouts in the order the record declares them. */
  const AllScouts: seq<Scout> := [Espn, Vecenie, OConnor, Boone, Parrish]

  /** The JSON field holding the scout's rank. */
  function FieldName(s: Scout): string {
    match s
    case Espn => "ESPN Rank"
    case Vecenie => "Sam Vecenie Rank"
    case OConnor => "Kevin O'Connor Rank"
    case Boone => "Kyle Boone Rank"
    case Parrish => "Gary Parrish Rank"
  }

  /** `getScoutNames`: the five rank fields, one per scout, in declaration order. */
  function ScoutNames(): (r: seq<string>)
    ensures |r| == |AllScouts| == 5
    ensures forall i :: 0 <= i < 5 ==> r[i] == FieldName(AllScouts[i])
    ensures forall i, j :: 0 <= i < j < 5 ==> r[i] != r[j]
  {
    ["ESPN Rank", "Sam Vecenie Rank", "Kevin O'Connor Rank", "Kyle Boone Rank", "Gary Parrish Rank"]
  }

  /** The five ranks, in declaration order. */
  function Ranks(r: ScoutRanking): seq<int> {
    [r.espn, r.vecenie, r.oconnor, r.boone, r.parrish]
  }

  /** `getRankByScout`: the field of `r` that belongs to scout `s`. */
  function RankByScout(r: ScoutRanking, s: Scout): (x: int)
    ensures exists i :: 0 <= i < 5 && AllScouts[i] == s && Ranks(r)[i] == x
  {
    match s
    case Espn => assert AllScouts[0] == s; r.espn
    case Vecenie => assert AllScouts[1] == s; r.vecenie
    case OConnor => assert AllScouts[2] == s; r.oconnor
    case Boone => assert AllScouts[3] == s; r.boone
    case Parrish => assert AllScouts[4] == s; r.parrish
  }

  function Positive(x: int): bool {
    x > 0
  }

  /** The ranks that count: those greater than zero, in declaration order. */
  function ValidRanks(r: ScoutRanking): (v: seq<int>)
    ensures |v| <= 5
    ensures forall i :: 0 <= i < |v| ==> v[i] > 0
    ensures IsSubseq(v, Ranks(r)) && |v| == Count(Ranks(r), Positive)
  {
    FilterIsSubseq(Ranks(r), Positive);
    FilterLength(Ranks(r), Positive);
    Filter(Ranks(r), Positive)
  }

  /** Every positive rank among the five is kept, as many times as it occurs;
      every other value is dropped. */
  lemma ValidRanksKeepsPositive(r: ScoutRanking)
    ensures forall x :: multiset(ValidRanks(r))[x] == if x > 0 then multiset(Ranks(r))[x] else 0
  {
    FilterCount(Ranks(r), Positive);
  }

  function Sum(s: seq<int>): int
    decreases |s|
  {
    if |s| == 0 then 0 else s[0] + Sum(s[1..])
  }

  /** `getAverageRank` in tenths: `Math.round(sum / n * 10)` over the `n` valid
      ranks, or NaN when there are none. */
  function AverageTenths(r: ScoutRanking): (t: Num)
    ensures t.None? <==> |ValidRanks(r)| == 0
    ensures t.Some? ==> var v := ValidRanks(r); var n := |v|;
              2 * n * t.value <= 20 * Sum(v) + n < 2 * n * (t.value + 1)
  {
    var v := ValidRanks(r);
    if |v| == 0 then None
    else
      var t := RoundDiv(10 * Sum(v), |v|);
      assert 2 * |v| * t <= 2 * (10 * Sum(v)) + |v| < 2 * |v| * (t + 1);
      Some(t)
  }

  /** `getConsensusRank`: the one-decimal average rounded again to an integer
      (half up), NaN when no scout ranked the player. */
  function Consensus(r: ScoutRanking): (c: Num)
    ensures c.None? <==> AverageTenths(r).None?
    ensures c.Some? ==> var t := AverageTenths(r).value;
              20 * c.value <= 2 * t + 10 < 20 * (c.value + 1)
  {
    match AverageTenths(r)
    case None => None
    case Some(t) => Some(RoundDiv(t, 10))
  }

  /** With at most five scouts the double rounding never matters: the
      consensus equals the raw mean `sum / n` rounded half up once. */
  lemma ConsensusIsRoundedMean(r: ScoutRanking)
    ensures |ValidRanks(r)| > 0 ==>
              Consensus(r) == Some(RoundDiv(Sum(ValidRanks(r)), |ValidRanks(r)|))
  {
    if |ValidRanks(r)| > 0 {
      RoundedMean(r);
    }
  }

  lemma RoundedMean(r: ScoutRanking)
    requires |ValidRanks(r)| > 0
    ensures Consensus(r) == Some(RoundDiv(Sum(ValidRanks(r)), |ValidRanks(r)|))
  {
    var v := ValidRanks(r);
    var n := |v|;
    var s := Sum(v);
    var t := AverageTenths(r).value;
    var c := Consensus(r).value;
    var m := RoundDiv(s, n);
    assert 2 * n * t <= 20 * s + n < 2 * n * (t + 1);
    assert 2 * n * m <= 2 * s + n < 2 * n * (m + 1);
    DoubleRounding(n, s, t, c, m);
  }

  /** For a count of one to five, rounding to tenths and then to a whole
      number gives the same as rounding once; the three premises are the
      half-up rounding facts for `t = round(10s/n)`, `c = round(t/10)` and
      `m = round(s/n)`. */
  lemma DoubleRounding(n: int, s: int, t: int, c: int, m: int)
    requires 1 <= n <= 5
    requires 2 * n * t <= 20 * s + n < 2 * n * (t + 1)
    requires 20 * c <= 2 * t + 10 < 20 * (c + 1)
    requires 2 * n * m <= 2 * s + n < 2 * n * (m + 1)
    ensures c == m
  {
  }

  function SeqMin(s: seq<int>): (m: int)
    requires |s| > 0
    ensures m in s && forall i :: 0 <= i < |s| ==> m <= s[i]
    decreases |s|
  {
    if |s| == 1 then s[0]
    else
      var m := SeqMin(s[1..]);
      assert forall i :: 1 <= i < |s| ==> s[i] == s[1..][i - 1];
      if s[0] <= m then s[0] else m
  }

  function SeqMax(s: seq<int>): (m: int)
    requires |s| > 0
    ensures m in s && forall i :: 0 <= i < |s| ==> s[i] <= m
    decreases |s|
  {
    if |s| == 1 then s[0]
    else
      var m := SeqMax(s[1..]);
      assert forall i :: 1 <= i < |s| ==> s[i] == s[1..][i - 1];
      if s[0] >= m then s[0] else m
  }

  lemma {:induction false} SumBounds(s: seq<int>, lo: int, hi: int)
    requires forall i :: 0 <= i < |s| ==> lo <= s[i] <= hi
    ensures |s| * lo <= Sum(s) <= |s| * hi
    decreases |s|
  {
    if |s| > 0 {
      SumBounds(s[1..], lo, hi);
    }
  }

  /** The average and the consensus both lie between the smallest and the
      largest valid rank. */
  lemma AverageWithinRange(r: ScoutRanking)
    requires |ValidRanks(r)| > 0
    ensures var v := ValidRanks(r);
            10 * SeqMin(v) <= AverageTenths(r).value <= 10 * SeqMax(v) &&
            SeqMin(v) <= Consensus(r).value <= SeqMax(v)
  {
    var v := ValidRanks(r);
    var n := |v|;
    var lo, hi := SeqMin(v), SeqMax(v);
    SumBounds(v, lo, hi);
    var t := AverageTenths(r).value;
    TenthsBetween(n, Sum(v), t, lo, hi);
  }

  /** Linear once the count of valid ranks (one to five) is fixed. */
  lemma TenthsBetween(n: int, sum: int, t: int, lo: int, hi: int)
    requires 1 <= n <= 5
    requires n * lo <= sum <= n * hi
    requires 2 * n * t <= 20 * sum + n < 2 * n * (t + 1)
    ensures 10 * lo <= t <= 10 * hi
  {
  }

  /** `getRankingSpread`. `NoValidRanks` stands for the source's result when no
      scout ranked the player: `Math.min()` and `Math.max()` of nothing give
      +Infinity and -Infinity, and the spread is -Infinity. */
  datatype Spread = Spread(min: int, max: int, spread: int) | NoValidRanks

  function RankingSpread(r: ScoutRanking): (sp: Spread)
    ensures sp.NoValidRanks? <==> |ValidRanks(r)| == 0
    ensures sp.Spread? ==>
      var v := ValidRanks(r);
      sp.min in v && sp.max in v &&
      (forall i :: 0 <= i < |v| ==> sp.min <= v[i] <= sp.max) &&
      sp.spread == sp.max - sp.min && sp.spread >= 0
  {
    var v := ValidRanks(r);
    if |v| == 0 then NoValidRanks
    else Spread(SeqMin(v), SeqMax(v), SeqMax(v) - SeqMin(v))
  }

  /** `isTopTenPlayer`: consensus at most 10; by the single-rounding lemma this
      is "the mean of the valid ranks is below 10.5". NaN gives false. */
  function IsTopTen(r: ScoutRanking): (b: bool)
    ensures b <==> |ValidRanks(r)| > 0 && 2 * Sum(ValidRanks(r)) < 21 * |ValidRanks(r)|
  {
    ConsensusAtMost(r, 10);
    Consensus(r).Some? && Consensus(r).value <= 10
  }

  /** `isFirstRoundPlayer`: consensus at most 30, i.e. mean below 30.5. */
  function IsFirstRound(r: ScoutRanking): (b: bool)
    ensures b <==> |ValidRanks(r)| > 0 && 2 * Sum(ValidRanks(r)) < 61 * |ValidRanks(r)|
  {
    ConsensusAtMost(r, 30);
    Consensus(r).Some? && Consensus(r).value <= 30
  }

  /** The consensus is at most `k` exactly when the mean is below `k + 1/2`. */
  lemma ConsensusAtMost(r: ScoutRanking, k: int)
    ensures Consensus(r).Some? && Consensus(r).value <= k <==>
            |ValidRanks(r)| > 0 && 2 * Sum(ValidRanks(r)) < (2 * k + 1) * |ValidRanks(r)|
  {
  }

  /** For `c` the half-up rounding of `s / n`: `c <= k` iff `2s < (2k + 1)n`. */
  lemma RoundedAtMost(s: int, n: int, c: int, k: int)
    requires n > 0 && 2 * n * c <= 2 * s + n < 2 * n * (c + 1)
    ensures c <= k <==> 2 * s < (2 * k + 1) * n
  {
    if c <= k {
      MulLe(n, c + 1, k + 1);
    } else {
      MulLe(n, k + 1, c);
    }
  }

  lemma MulLe(n: int, a: int, b: int)
    requires n > 0 && a <= b
    ensures n * a <= n * b
  {
  }

  lemma TopTenIsFirstRound(r: ScoutRanking)
    ensures IsTopTen(r) ==> IsFirstRound(r)
  {
  }
}

=== FILE: ScoutingReports.dfy ===
/** Written scouting reports (`ScoutingReportUtils`): length measures,
    previews, selection by player and scout, the scout list, keyword
    sentiment and the comprehensiveness score. */
module ScoutingReports {
  import opened Wrappers
  import opened Seqs
  import opened Sorting
  import opened Text

  datatype ScoutingReport = ScoutingReport(
    scout: string,
    reportId: string,
    playerId: int,
    report: string)

  /** `getWordCount`: the number of pieces `split(/\s+/)` makes of the trimmed
      text, i.e. one more than its inner runs of white space. A blank report
      still counts one (empty) word. */
  function WordCount(r: ScoutingReport): (n: nat)
    ensures n >= 1
    ensures n == 1 + WsRuns(Trim(r.report))
    ensures Blank(r.report) ==> n == 1
  {
    SplitCountsRuns(Trim(r.report));
    |Split(Trim(r.report))|
  }

  const WordsPerMinute: nat := 200

  /** `getReadingTime`: `max(1, ceil(words / 200))` minutes. Since there is
      always at least one word this is the least `t` with `words <= 200 * t`. */
  function ReadingTime(r: ScoutingReport): (t: int)
    ensures t >= 1
    ensures WordsPerMinute * (t - 1) < WordCount(r) <= WordsPerMinute * t
  {
    var w := WordCount(r);
    var c := (w + WordsPerMinute - 1) / WordsPerMinute;
    if c < 1 then 1 else c
  }

  /** `substring(0, m)` keeps at most `m` characters, none for negative `m`. */
  function CutLength(text: string, maxLength: int): (n: nat)
    ensures n <= |text|
    ensures n == if maxLength < 0 then 0 else if maxLength < |text| then maxLength else |text|
  {
    if maxLength < 0 then 0 else if maxLength < |text| then maxLength else |text|
  }

  /** How much of an over-long text the preview keeps: the last space of the
      first `maxLength` characters when it lies beyond `0.8 * maxLength`,
      otherwise all of them. (For a negative `maxLength` nothing is kept
      either way: `substring(0, -1)` is empty too.) */
  function PreviewLength(text: string, maxLength: int): (k: nat)
    requires |text| > maxLength
    ensures var cut := CutLength(text, maxLength);
            k <= cut &&
            (k == cut <==> forall j :: 0 <= j < cut && 5 * j > 4 * maxLength ==> text[j] != ' ') &&
            (k < cut ==> text[k] == ' ' && 5 * k > 4 * maxLength &&
                         forall j :: k < j < cut ==> text[j] != ' ')
  {
    var cut := CutLength(text, maxLength);
    var truncated := text[..cut];
    var lastSpace := LastIndexOf(truncated, ' ');
    assert forall j :: 0 <= j < cut ==> truncated[j] == text[j];
    if lastSpace >= 0 && 5 * lastSpace > 4 * maxLength then lastSpace
    else
      assert forall j :: 0 <= j < cut && 5 * j > 4 * maxLength ==> text[j] != ' ' by {
        assert lastSpace >= 0 ==> 5 * lastSpace <= 4 * maxLength;
      }
      cut
  }

  /** `getPreview`: the text itself when it fits, otherwise the kept prefix
      followed by "...". */
  function Preview(r: ScoutingReport, maxLength: int): (p: string)
    ensures |r.report| <= maxLength ==> p == r.report
    ensures |r.report| > maxLength ==>
              var k := PreviewLength(r.report, maxLength);
              p == r.report[..k] + "..." && |p| <= CutLength(r.report, maxLength) + 3
  {
    if |r.report| <= maxLength then r.report
    else r.report[..PreviewLength(r.report, maxLength)] + "..."
  }

  /** The preview length the pages use when none is given. */
  const DefaultPreviewLength: int := 150

  function ForPlayer(playerId: int): ScoutingReport -> bool {
    (r: ScoutingReport) => r.playerId == playerId
  }

  /** `getReportsForPlayer`: the player's reports, in data order. */
  function ReportsForPlayer(reports: seq<ScoutingReport>, playerId: int): (r: seq<ScoutingReport>)
    ensures IsSubseq(r, reports)
    ensures forall i :: 0 <= i < |r| ==> r[i].playerId == playerId
    ensures forall i :: 0 <= i < |reports| && reports[i].playerId == playerId ==> reports[i] in r
    ensures forall x :: multiset(r)[x] == if x.playerId == playerId then multiset(reports)[x] else 0
  {
    FilterCount(reports, ForPlayer(playerId));
    FilterIsSubseq(reports, ForPlayer(playerId));
    FilterMembers(reports, ForPlayer(playerId));
    Filter(reports, ForPlayer(playerId))
  }

  function ByScout(name: string): ScoutingReport -> bool {
    (r: ScoutingReport) => Lower(r.scout) == Lower(name)
  }

  /** `getReportsByScout`: the reports whose scout name equals `name` once
      both are lower-cased, in data order. */
  function ReportsByScout(reports: seq<ScoutingReport>, name: string): (r: seq<ScoutingReport>)
    ensures IsSubseq(r, reports)
    ensures forall i :: 0 <= i < |r| ==> Lower(r[i].scout) == Lower(name)
    ensures forall i :: 0 <= i < |reports| && Lower(reports[i].scout) == Lower(name) ==> reports[i] in r
    ensures forall x :: multiset(r)[x] == if Lower(x.scout) == Lower(name) then multiset(reports)[x] else 0
  {
    FilterCount(reports, ByScout(name));
    FilterIsSubseq(reports, ByScout(name));
    FilterMembers(reports, ByScout(name));
    Filter(reports, ByScout(name))
  }

  lemma LowerIdempotent(s: string)
    ensures Lower(Lower(s)) == Lower(s)
  {
  }

  /** The scout filter does not see the case of the requested name. */
  lemma ReportsByScoutIgnoresCase(reports: seq<ScoutingReport>, name: string)
    ensures ReportsByScout(reports, Lower(name)) == ReportsByScout(reports, name)
  {
    LowerIdempotent(name);
    FilterExt(reports, ByScout(Lower(name)), ByScout(name));
  }

  function Scouts(reports: seq<ScoutingReport>): (r: seq<string>)
    ensures |r| == |reports|
    ensures forall i :: 0 <= i < |r| ==> r[i] == reports[i].scout
  {
    seq(|reports|, i requires 0 <= i < |reports| => reports[i].scout)
  }

  /** The comparison `sort()` uses without a comparator on strings. */
  function StrCompare(a: string, b: string): int {
    if a == b then 0 else if StrLe(a, b) then -1 else 1
  }

  /** `getUniqueScouts`: the distinct scout names, in ascending code-unit
      order: strictly increasing, and the same names as the reports carry. */
  function UniqueScouts(reports: seq<ScoutingReport>): (r: seq<string>)
    ensures forall i, j :: 0 <= i < j < |r| ==> StrLe(r[i], r[j]) && r[i] != r[j]
    ensures forall i :: 0 <= i < |r| ==> r[i] in Scouts(reports)
    ensures forall i :: 0 <= i < |reports| ==> reports[i].scout in r
  {
    UniqueScoutsFacts(reports);
    Sort(Dedupe(Scouts(reports)), StrCompare)
  }

  lemma UniqueScoutsFacts(reports: seq<ScoutingReport>)
    ensures var r := Sort(Dedupe(Scouts(reports)), StrCompare);
            (forall i, j :: 0 <= i < j < |r| ==> StrLe(r[i], r[j]) && r[i] != r[j]) &&
            (forall i :: 0 <= i < |r| ==> r[i] in Scouts(reports)) &&
            (forall i :: 0 <= i < |reports| ==> reports[i].scout in r)
  {
    var names := Scouts(reports);
    var d := Dedupe(names);
    var r := Sort(d, StrCompare);
    SortedNames(d);
    forall i | 0 <= i < |r| ensures r[i] in names {
      assert r[i] in d;
    }
    forall i | 0 <= i < |reports| ensures reports[i].scout in r {
      assert names[i] == reports[i].scout;
      assert names[i] in d;
    }
  }

  /** Sorting a duplicate-free list of names orders it strictly and keeps its elements. */
  lemma SortedNames(d: seq<string>)
    requires Distinct(d)
    ensures var r := Sort(d, StrCompare);
            (forall i, j :: 0 <= i < j < |r| ==> StrLe(r[i], r[j]) && r[i] != r[j]) &&
            (forall x :: x in r <==> x in d)
  {
    var r := Sort(d, StrCompare);
    forall a, b | a in d && b in d
      ensures (StrCompare(a, b) <= 0 ==> StrLe(a, b)) && (StrCompare(a, b) > 0 ==> StrLe(b, a))
    {
      StrLeRefl(a);
      StrLeTotal(a, b);
    }
    forall a, b, c | a in d && b in d && c in d && StrLe(a, b) && StrLe(b, c)
      ensures StrLe(a, c)
    {
      StrLeTrans(a, b, c);
    }
    SortSorted(d, StrCompare, StrLe);
    PermutationDistinct(d, r);
    forall x ensures x in r <==> x in d {
      assert x in r <==> x in multiset(r);
      assert x in d <==> x in multiset(d);
    }
  }

  const PositiveKeywords: seq<string> := [
    "excellent", "outstanding", "great", "strong", "impressive", "skilled",
    "talented", "elite", "dominant", "explosive", "fluid", "smooth",
    "natural", "instinctive", "high-level"]

  const NegativeKeywords: seq<string> := [
    "weak", "poor", "limited", "struggles", "concerning", "inconsistent",
    "slow", "lacks", "needs improvement", "deficient", "questionable", "raw",
    "underdeveloped", "mechanical"]

  datatype Sentiment = Sentiment(positive: seq<string>, negative: seq<string>, neutral: seq<string>)

  function Mentions(text: string): string -> bool {
    (kw: string) => Contains(text, kw)
  }

  /** `analyzeSentiment`: the keywords of each fixed list that occur in the
      lower-cased report, in list order; `neutral` is always empty. */
  function AnalyzeSentiment(r: ScoutingReport): (s: Sentiment)
    ensures IsSubseq(s.positive, PositiveKeywords) && IsSubseq(s.negative, NegativeKeywords)
    ensures forall kw :: kw in PositiveKeywords ==> (kw in s.positive <==> Contains(Lower(r.report), kw))
    ensures forall kw :: kw in NegativeKeywords ==> (kw in s.negative <==> Contains(Lower(r.report), kw))
    ensures s.neutral == []
  {
    var text := Lower(r.report);
    Sentiment(KeywordsFound(PositiveKeywords, text), KeywordsFound(NegativeKeywords, text), [])
  }

  /** The keywords of the list that occur in the text, in list order. */
  function KeywordsFound(keywords: seq<string>, text: string): (found: seq<string>)
    ensures IsSubseq(found, keywords)
    ensures forall kw :: kw in keywords ==> (kw in found <==> Contains(text, kw))
  {
    FilterIsSubseq(keywords, Mentions(text));
    FilterMembers(keywords, Mentions(text));
    Filter(keywords, Mentions(text))
  }

  /** Word counts that each earn ten more length points, lowest first. */
  const LengthThresholds: seq<int> := [150, 300, 500]

  /** Keyword counts that each earn ten more sentiment points, lowest first. */
  const SentimentThresholds: seq<int> := [5, 10]

  /** Points for length: 40, 30, 20 or 10 as the report reaches 500, 300, 150 words. */
  function LengthPoints(words: int): (p: int)
    ensures 10 <= p <= 40
    ensures p == 10 + 10 * CountAtMost(LengthThresholds, words)
  {
    if words >= 500 then 40 else if words >= 300 then 30 else if words >= 150 then 20 else 10
  }

  /** Points for vocabulary: 30, 20 or 10 as 10 or 5 sentiment keywords are found. */
  function SentimentPoints(found: int): (p: int)
    ensures 10 <= p <= 30
    ensures p == 10 + 10 * CountAtMost(SentimentThresholds, found)
  {
    if found >= 10 then 30 else if found >= 5 then 20 else 10
  }

  const ProjectionPoints: int := 30

  /** `getComprehensivenessScore`, with whether a draft projection was found
      given as an input. The cap at 100 never bites, so the projection is
      worth exactly 30 points. */
  function ComprehensivenessScore(r: ScoutingReport, hasProjection: bool): (score: int)
    ensures 20 <= score <= 100
  {
    var sentiment := AnalyzeSentiment(r);
    var score := LengthPoints(WordCount(r)) +
                 SentimentPoints(|sentiment.positive| + |sentiment.negative|) +
                 (if hasProjection then ProjectionPoints else 0);
    if score < 100 then score else 100
  }

  /** The projection bonus is awarded exactly when a projection is found. */
  lemma ProjectionBonus(r: ScoutingReport)
    ensures ComprehensivenessScore(r, true) == ComprehensivenessScore(r, false) + ProjectionPoints
  {
  }

  /** A longer report never scores lower on length. */
  lemma LengthPointsMonotone(a: int, b: int)
    requires a <= b
    ensures LengthPoints(a) <= LengthPoints(b)
  {
  }
}

=== FILE: SeasonLogs.dfy ===
/** Season averages (`SeasonLogUtils`): team record, percentages, the
    shooting-grade ladder, the double-double test and season labels. */
module SeasonLogs {
  import opened Wrappers
  import opened Seqs
  import opened Text
  import opened JsMath

  /** The fields of a season log that the modelled helpers read. Per-game
      averages (`fga`, `fta`, `pts`, `trb`, `ast`, `stl`, `blk`) are held in
      tenths, the precision of the data; `w`, `l`, `gp` and `gs` are counts. */
  datatype SeasonLog = SeasonLog(
    playerId: int,
    season: int,
    league: string,
    team: string,
    w: nat,
    l: nat,
    gp: nat,
    gs: nat,
    fga: nat,
    fta: nat,
    pts: nat,
    trb: nat,
    ast: nat,
    stl: nat,
    blk: nat)

  /** `getTeamRecord`: wins, a dash, losses; it reads back as the pair. */
  function TeamRecord(s: SeasonLog): (r: string)
    ensures ParsePair(r, '-') == Some((s.w, s.l))
  {
    PairRoundTrip(s.w, s.l, '-');
    NatToString(s.w) + "-" + NatToString(s.l)
  }

  /** `getTeamWinningPercentage` in tenths of a percent: 0 without games,
      otherwise `1000 * w / (w + l)` rounded half up, between 0 and 1000. */
  function WinningPctTenths(s: SeasonLog): (r: int)
    ensures 0 <= r <= 1000
    ensures s.w + s.l == 0 ==> r == 0
    ensures s.w + s.l > 0 ==> var n := s.w + s.l;
              2 * n * r <= 2000 * s.w + n < 2 * n * (r + 1)
    ensures s.w == 0 ==> r == 0
    ensures s.l == 0 && s.w > 0 ==> r == 1000
  {
    var n := s.w + s.l;
    if n == 0 then 0
    else
      var r := RoundDiv(1000 * s.w, n);
      assert 2 * n * r <= 2000 * s.w + n;
      assert 2000 * s.w + n < 2 * n * (r + 1);
      PercentBounds(s.w, n, r);
      r
  }

  /** The rounded share `r` of `k` out of `n` lies in 0..1000, hitting the
      ends for none and for all. */
  lemma PercentBounds(k: nat, n: nat, r: int)
    requires k <= n && n > 0
    requires 2 * n * r <= 2000 * k + n < 2 * n * (r + 1)
    ensures 0 <= r <= 1000
    ensures k == 0 ==> r == 0
    ensures k == n ==> r == 1000
  {
    var m := 2 * n;
    CancelLt(m, 0, r + 1);
    assert 2000 * k + n <= 2001 * n;
    CancelLt(m, r, 1001);
    if k == 0 {
      CancelLt(m, r, 1);
    }
    if k == n {
      CancelLt(m, 1000, r + 1);
    }
  }

  /** Dividing both sides of a strict inequality by a positive factor. */
  lemma CancelLt(m: int, x: int, y: int)
    requires m > 0 && m * x < m * y
    ensures x < y
  {
  }

  /** `getStarterPercentage` in tenths of a percent: 0 without games played. */
  function StarterPctTenths(s: SeasonLog): (r: int)
    ensures s.gp == 0 ==> r == 0
    ensures s.gp > 0 ==> 2 * s.gp * r <= 2000 * s.gs + s.gp < 2 * s.gp * (r + 1)
    ensures r >= 0
    ensures s.gs <= s.gp ==> r <= 1000
  {
    if s.gp == 0 then 0
    else
      var r := RoundDiv(1000 * s.gs, s.gp);
      assert 2 * s.gp * r <= 2000 * s.gs + s.gp < 2 * s.gp * (r + 1);
      CancelLt(2 * s.gp, 0, r + 1);
      if s.gs <= s.gp then PercentBounds(s.gs, s.gp, r); r
      else r
  }

  /** `calculateTrueShootingPercentage` in tenths of a percent:
      `pts / (2 * (fga + 0.44 * fta))`, and 0 when there were no attempts.
      With averages in tenths the ratio is `100000 * pts / (200 * fga + 88 * fta)`. */
  function TrueShootingTenths(s: SeasonLog): (r: int)
    ensures s.fga + s.fta == 0 ==> r == 0
    ensures s.fga + s.fta > 0 ==> var d := 200 * s.fga + 88 * s.fta;
              2 * d * r <= 200000 * s.pts + d < 2 * d * (r + 1)
  {
    var d := 200 * s.fga + 88 * s.fta;
    if d == 0 then 0 else RoundDiv(100000 * s.pts, d)
  }

  datatype Grade = APlus | A | BPlus | B | CPlus | C | D | F

  /** Position on the ladder: F is 0, A+ is 7. */
  function GradeRank(g: Grade): nat {
    match g
    case F => 0
    case D => 1
    case C => 2
    case CPlus => 3
    case B => 4
    case BPlus => 5
    case A => 6
    case APlus => 7
  }

  function GradeLabel(g: Grade): string {
    match g
    case APlus => "A+"
    case A => "A"
    case BPlus => "B+"
    case B => "B"
    case CPlus => "C+"
    case C => "C"
    case D => "D"
    case F => "F"
  }

  /** The ladder's thresholds in tenths of a percent, lowest first. */
  const Thresholds: seq<int> := [450, 480, 510, 540, 570, 600, 650]

  /** `getShootingGrade` over a given true-shooting value in tenths: the
      grade is one step up the ladder for every threshold the value reaches. */
  function ShootingGrade(ts: int): (g: Grade)
    ensures GradeRank(g) == CountAtMost(Thresholds, ts)
  {
    if ts >= 650 then APlus
    else if ts >= 600 then A
    else if ts >= 570 then BPlus
    else if ts >= 540 then B
    else if ts >= 510 then CPlus
    else if ts >= 480 then C
    else if ts >= 450 then D
    else F
  }

  /** A higher true-shooting value never earns a lower grade. */
  lemma ShootingGradeMonotone(x: int, y: int)
    requires x <= y
    ensures GradeRank(ShootingGrade(x)) <= GradeRank(ShootingGrade(y))
  {
  }

  /** `getShootingGrade` on a season log. */
  function SeasonShootingGrade(s: SeasonLog): (g: Grade)
    ensures GradeRank(g) == CountAtMost(Thresholds, TrueShootingTenths(s))
  {
    ShootingGrade(TrueShootingTenths(s))
  }

  function Stats(s: SeasonLog): seq<nat> {
    [s.pts, s.trb, s.ast, s.stl, s.blk]
  }

  function DoubleDigits(x: nat): bool {
    x >= 100
  }

  /** `isAveragingDoubleDouble`: at least two of points, rebounds, assists,
      steals and blocks average 10 or more. */
  function IsDoubleDouble(s: SeasonLog): (b: bool)
    ensures b <==> exists i, j :: 0 <= i < j < 5 && Stats(s)[i] >= 100 && Stats(s)[j] >= 100
  {
    FilterAtLeastTwo(Stats(s), DoubleDigits);
    |Filter(Stats(s), DoubleDigits)| >= 2
  }

  /** `s.slice(-2)`: the last two characters, or all of a shorter string. */
  function LastTwo(s: string): (r: string)
    ensures |r| == if |s| < 2 then |s| else 2
    ensures r == s[|s| - |r|..]
  {
    if |s| <= 2 then s else s[|s| - 2..]
  }

  /** `formatSeason`: the previous year, a dash, the last two characters of the year. */
  function FormatSeason(season: int): (r: string)
    ensures season >= 10 ==> ParsePair(r, '-') == Some((season - 1, season % 100))
  {
    var r := IntToString(season - 1) + "-" + LastTwo(IntToString(season));
    if season >= 10 then SeasonLabelDigits(season); r else r
  }

  /** For a year of at least two digits the label ends in its tens and units digits. */
  lemma SeasonLabelDigits(season: int)
    requires season >= 10
    ensures var tail := LastTwo(NatToString(season));
            tail == [Digit((season / 10) % 10), Digit(season % 10)] &&
            ParsePair(NatToString(season - 1) + "-" + tail, '-') == Some((season - 1, season % 100))
  {
    LastTwoDigits(season);
    var tail := LastTwo(NatToString(season));
    assert tail == [Digit((season / 10) % 10), Digit(season % 10)];
    TwoDigitValue((season / 10) % 10, season % 10);
    LastTwoDecimal(season);
    PairOfDigits(NatToString(season - 1), tail, '-');
  }

  lemma TwoDigitValue(a: nat, b: nat)
    requires a < 10 && b < 10
    ensures IsDigits([Digit(a), Digit(b)]) && ParseNat([Digit(a), Digit(b)]) == 10 * a + b
  {
    var s := [Digit(a), Digit(b)];
    var s1 := [Digit(a)];
    assert s[..|s| - 1] == s1;
    assert s1[..|s1| - 1] == [];
    assert ParseNat(s1) == a;
    assert ParseNat(s) == 10 * ParseNat(s1) + (Digit(b) as int - '0' as int);
  }

  lemma LastTwoDecimal(n: int)
    requires n >= 0
    ensures 10 * ((n / 10) % 10) + n % 10 == n % 100
  {
  }

  /** Writing `n` as `100 * h + r` with `0 <= r < 100` fixes `r` as `n % 100`. */
  lemma RemainderUnique(n: int, h: int, r: int)
    requires n == 100 * h + r && 0 <= r < 100
    ensures n % 100 == r
  {
  }
}

=== FILE: Seqs.dfy ===
/** Order-preserving list helpers: `Array.prototype.filter`, `findIndex`,
    `splice`-based moves, prefixes and subsequences. */
module Seqs {
  import opened Wrappers

  /** `s.filter(p)`: the elements of `s` that satisfy `p`, in their original order. */
  function Filter<T>(s: seq<T>, p: T -> bool): (r: seq<T>)
    ensures |r| <= |s|
    ensures forall i :: 0 <= i < |r| ==> p(r[i])
    decreases |s|
  {
    if |s| == 0 then []
    else (if p(s[0]) then [s[0]] else []) + Filter(s[1..], p)
  }

  /** Each element keeps all of its copies when it satisfies `p` and loses
      all of them otherwise. */
  lemma {:induction false} FilterCount<T>(s: seq<T>, p: T -> bool)
    ensures forall x :: multiset(Filter(s, p))[x] == if p(x) then multiset(s)[x] else 0
    decreases |s|
  {
    if |s| > 0 {
      FilterCount(s[1..], p);
      assert s == [s[0]] + s[1..];
    }
  }

  /** How many elements of `s` satisfy `p`. */
  function Count<T>(s: seq<T>, p: T -> bool): (n: nat)
    ensures n <= |s|
    decreases |s|
  {
    if |s| == 0 then 0 else (if p(s[|s| - 1]) then 1 else 0) + Count(s[..|s| - 1], p)
  }

  /** The filter keeps one element for every element that satisfies `p`. */
  lemma {:induction false} FilterLength<T>(s: seq<T>, p: T -> bool)
    ensures |Filter(s, p)| == Count(s, p)
    decreases |s|
  {
    if |s| > 0 {
      var init := s[..|s| - 1];
      FilterLength(init, p);
      assert s == init + [s[|s| - 1]];
      FilterConcat(init, [s[|s| - 1]], p);
      FilterSingleton(s[|s| - 1], p);
    }
  }

  /** An element is kept exactly when it occurs in `s` and satisfies `p`. */
  lemma {:induction false} FilterMembers<T>(s: seq<T>, p: T -> bool)
    ensures forall x :: x in Filter(s, p) <==> x in s && p(x)
    decreases |s|
  {
    if |s| > 0 {
      FilterMembers(s[1..], p);
      assert s == [s[0]] + s[1..];
    }
  }

  /** `a` is obtained from `b` by deleting elements (order kept, nothing added). */
  predicate IsSubseq<T(==)>(a: seq<T>, b: seq<T>)
    decreases |b|
  {
    |a| == 0 ||
    (|b| > 0 && ((a[0] == b[0] && IsSubseq(a[1..], b[1..])) || IsSubseq(a, b[1..])))
  }

  lemma {:induction false} SubseqRefl<T>(a: seq<T>)
    ensures IsSubseq(a, a)
    decreases |a|
  {
    if |a| > 0 {
      SubseqRefl(a[1..]);
    }
  }

  lemma {:induction false} SubseqLength<T>(a: seq<T>, b: seq<T>)
    requires IsSubseq(a, b)
    ensures |a| <= |b|
    decreases |b|
  {
    if |a| > 0 {
      if a[0] == b[0] && IsSubseq(a[1..], b[1..]) {
        SubseqLength(a[1..], b[1..]);
      } else {
        SubseqLength(a, b[1..]);
      }
    }
  }

  /** Deleting from a subsequence of `b` still gives a subsequence of `b`. */
  lemma {:induction false} SubseqTrans<T>(a: seq<T>, b: seq<T>, c: seq<T>)
    requires IsSubseq(a, b) && IsSubseq(b, c)
    ensures IsSubseq(a, c)
    decreases |c|
  {
    if |a| == 0 {
    } else if |b| > 0 && b[0] == c[0] && IsSubseq(b[1..], c[1..]) {
      if a[0] == b[0] && IsSubseq(a[1..], b[1..]) {
        SubseqTrans(a[1..], b[1..], c[1..]);
      } else {
        SubseqTrans(a, b[1..], c[1..]);
      }
    } else {
      SubseqTrans(a, b, c[1..]);
    }
  }

  lemma {:induction false} FilterIsSubseq<T>(s: seq<T>, p: T -> bool)
    ensures IsSubseq(Filter(s, p), s)
    decreases |s|
  {
    if |s| > 0 {
      FilterIsSubseq(s[1..], p);
      var r := Filter(s, p);
      if p(s[0]) {
        assert r == [s[0]] + Filter(s[1..], p);
        assert r[1..] == Filter(s[1..], p);
      } else {
        assert r == Filter(s[1..], p);
      }
    }
  }

  lemma FilterSingleton<T>(x: T, p: T -> bool)
    ensures Filter([x], p) == if p(x) then [x] else []
  {
  }

  /** Filtering keeps every element exactly when nothing is rejected. */
  lemma {:induction false} FilterKeepsAll<T>(s: seq<T>, p: T -> bool)
    ensures |Filter(s, p)| == |s| <==> forall i :: 0 <= i < |s| ==> p(s[i])
    decreases |s|
  {
    if |s| > 0 {
      FilterKeepsAll(s[1..], p);
      if !p(s[0]) {
        assert |Filter(s[1..], p)| <= |s[1..]|;
      } else {
        assert forall i :: 1 <= i < |s| ==> s[i] == s[1..][i - 1];
      }
    }
  }

  /** When every element passes, the filter is the identity. */
  lemma {:induction false} FilterAll<T>(s: seq<T>, p: T -> bool)
    requires forall i :: 0 <= i < |s| ==> p(s[i])
    ensures Filter(s, p) == s
    decreases |s|
  {
    if |s| > 0 {
      FilterAll(s[1..], p);
    }
  }

  /** When every element is rejected, the filter is empty. */
  lemma {:induction false} FilterNone<T>(s: seq<T>, p: T -> bool)
    requires forall i :: 0 <= i < |s| ==> !p(s[i])
    ensures Filter(s, p) == []
    decreases |s|
  {
    if |s| > 0 {
      FilterNone(s[1..], p);
    }
  }

  lemma {:induction false} FilterConcat<T>(a: seq<T>, b: seq<T>, p: T -> bool)
    ensures Filter(a + b, p) == Filter(a, p) + Filter(b, p)
    decreases |a|
  {
    if |a| == 0 {
      assert a + b == b;
    } else {
      assert (a + b)[1..] == a[1..] + b;
      FilterConcat(a[1..], b, p);
    }
  }

  /** Filtering by `p` and by its negation splits `s` into two parts that
      together hold each element exactly as often as `s` does. */
  lemma {:induction false} FilterPartition<T>(s: seq<T>, p: T -> bool, q: T -> bool)
    requires forall x :: q(x) == !p(x)
    ensures multiset(Filter(s, p)) + multiset(Filter(s, q)) == multiset(s)
    decreases |s|
  {
    if |s| > 0 {
      var x, t := s[0], s[1..];
      FilterPartition(t, p, q);
      assert s == [x] + t;
      if p(x) {
        assert Filter(s, p) == [x] + Filter(t, p);
        assert Filter(s, q) == Filter(t, q);
      } else {
        assert Filter(s, p) == Filter(t, p);
        assert Filter(s, q) == [x] + Filter(t, q);
      }
    }
  }

  /** A filter of a prefix is a prefix of the filter. */
  lemma {:induction false} FilterTake<T>(s: seq<T>, n: nat, p: T -> bool)
    requires n <= |s|
    ensures |Filter(s[..n], p)| <= |Filter(s, p)|
    ensures Filter(s[..n], p) == Filter(s, p)[..|Filter(s[..n], p)|]
  {
    assert s == s[..n] + s[n..];
    FilterConcat(s[..n], s[n..], p);
  }

  /** `s.findIndex(p)`: the first index whose element satisfies `p`, or -1. */
  function FindIndex<T>(s: seq<T>, p: T -> bool): (r: int)
    ensures -1 <= r < |s|
    ensures r == -1 <==> forall i :: 0 <= i < |s| ==> !p(s[i])
    ensures r >= 0 ==> p(s[r]) && forall i :: 0 <= i < r ==> !p(s[i])
    decreases |s|
  {
    if |s| == 0 then -1
    else if p(s[0]) then 0
    else
      var k := FindIndex(s[1..], p);
      if k == -1 then -1 else k + 1
  }

  /** `s.find(p)`: the first element satisfying `p`, if any. */
  function Find<T>(s: seq<T>, p: T -> bool): (r: Option<T>)
    ensures r.None? <==> forall i :: 0 <= i < |s| ==> !p(s[i])
    ensures r.Some? ==> exists i :: 0 <= i < |s| && s[i] == r.value && p(s[i]) &&
                                    forall j :: 0 <= j < i ==> !p(s[j])
  {
    var k := FindIndex(s, p);
    if k == -1 then None else Some(s[k])
  }

  /** `s.splice(i, 1)`: the sequence without its element at `i`. */
  function RemoveAt<T>(s: seq<T>, i: nat): (r: seq<T>)
    requires i < |s|
    ensures |r| == |s| - 1
    ensures forall k :: 0 <= k < i ==> r[k] == s[k]
    ensures forall k :: i <= k < |r| ==> r[k] == s[k + 1]
  {
    s[..i] + s[i + 1..]
  }

  /** `s.splice(i, 0, x)` for `i <= |s|`: `x` inserted before position `i`. */
  function InsertAt<T>(s: seq<T>, i: nat, x: T): (r: seq<T>)
    requires i <= |s|
    ensures |r| == |s| + 1
    ensures r[i] == x
    ensures forall k :: 0 <= k < i ==> r[k] == s[k]
    ensures forall k :: i < k < |r| ==> r[k] == s[k - 1]
  {
    s[..i] + [x] + s[i..]
  }

  /** The element at `from` taken out and put back so that it ends at `to`. */
  function Move<T>(s: seq<T>, from: nat, to: nat): (r: seq<T>)
    requires from < |s| && to < |s|
    ensures |r| == |s|
    ensures r[to] == s[from]
    ensures RemoveAt(r, to) == RemoveAt(s, from)
    ensures multiset(r) == multiset(s)
  {
    var t := RemoveAt(s, from);
    var r := InsertAt(t, to, s[from]);
    assert RemoveAt(r, to) == t;
    RemoveAtMultiset(s, from);
    RemoveAtMultiset(r, to);
    r
  }

  /** Removing position `i` removes one occurrence of `s[i]`. */
  lemma RemoveAtMultiset<T>(s: seq<T>, i: nat)
    requires i < |s|
    ensures multiset(RemoveAt(s, i)) + multiset{s[i]} == multiset(s)
  {
    assert s == s[..i] + [s[i]] + s[i + 1..];
  }

  /** The filter is non-empty exactly when `findIndex` succeeds, and then its
      head is the element `findIndex` points at. */
  lemma {:induction false} FilterHead<T>(s: seq<T>, p: T -> bool)
    ensures |Filter(s, p)| > 0 <==> FindIndex(s, p) >= 0
    ensures |Filter(s, p)| > 0 ==> Filter(s, p)[0] == s[FindIndex(s, p)]
    decreases |s|
  {
    if |s| > 0 && !p(s[0]) {
      FilterHead(s[1..], p);
      var k := FindIndex(s[1..], p);
      if k >= 0 {
        assert s[k + 1] == s[1..][k];
      }
    }
  }

  /** Two different positions of `s` satisfy `p`. */
  ghost predicate TwoMatch<T>(s: seq<T>, p: T -> bool) {
    exists i, j :: 0 <= i < j < |s| && p(s[i]) && p(s[j])
  }

  /** At least two elements survive exactly when two positions satisfy `p`. */
  lemma {:induction false} FilterAtLeastTwo<T>(s: seq<T>, p: T -> bool)
    ensures |Filter(s, p)| >= 2 <==> TwoMatch(s, p)
    decreases |s|
  {
    if |s| > 0 {
      var t := s[1..];
      FilterAtLeastTwo(t, p);
      FilterHead(t, p);
      assert |Filter(s, p)| == (if p(s[0]) then 1 else 0) + |Filter(t, p)|;
      if p(s[0]) {
        TwoMatchWithHead(s, p);
      } else {
        TwoMatchWithoutHead(s, p);
      }
    }
  }

  lemma TwoMatchWithHead<T>(s: seq<T>, p: T -> bool)
    requires |s| > 0 && p(s[0])
    ensures TwoMatch(s, p) <==> FindIndex(s[1..], p) >= 0
  {
  }

  lemma TwoMatchWithoutHead<T>(s: seq<T>, p: T -> bool)
    requires |s| > 0 && !p(s[0])
    ensures TwoMatch(s, p) <==> TwoMatch(s[1..], p)
  {
  }

  /** Filtering depends only on the values of the predicate. */
  lemma {:induction false} FilterExt<T>(s: seq<T>, p: T -> bool, q: T -> bool)
    requires forall x :: p(x) == q(x)
    ensures Filter(s, p) == Filter(s, q)
    decreases |s|
  {
    if |s| > 0 { FilterExt(s[1..], p, q); }
  }

  /** No element occurs twice. */
  predicate Distinct<T(==)>(s: seq<T>) {
    forall i, j :: 0 <= i < j < |s| ==> s[i] != s[j]
  }

  /** The first occurrence of each element, in order of first appearance
      (the iteration order of `new Set(s)`). */
  function Dedupe<T(==)>(s: seq<T>): (r: seq<T>)
    ensures Distinct(r)
    ensures forall i :: 0 <= i < |r| ==> r[i] in s
    ensures forall i :: 0 <= i < |s| ==> s[i] in r
    decreases |s|
  {
    if |s| == 0 then []
    else
      var init := s[..|s| - 1];
      var d := Dedupe(init);
      assert forall i :: 0 <= i < |init| ==> s[i] == init[i];
      if s[|s| - 1] in d then d else d + [s[|s| - 1]]
  }

  /** In a duplicate-free sequence every value occurs at most once. */
  lemma {:induction false} DistinctCount<T>(s: seq<T>)
    requires Distinct(s)
    ensures forall x :: multiset(s)[x] <= 1
    decreases |s|
  {
    if |s| > 0 {
      var t := s[1..];
      assert Distinct(t) by {
        forall i, j | 0 <= i < j < |t| ensures t[i] != t[j] {
          assert t[i] == s[i + 1] && t[j] == s[j + 1];
        }
      }
      DistinctCount(t);
      assert s == [s[0]] + t;
      assert forall k :: 0 <= k < |t| ==> t[k] == s[k + 1] && t[k] != s[0];
      assert s[0] !in t;
    }
  }

  /** Two equal positions make a value occur at least twice. */
  lemma DupCount<T>(s: seq<T>, i: int, j: int)
    requires 0 <= i < j < |s| && s[i] == s[j]
    ensures multiset(s)[s[i]] >= 2
  {
    assert s == s[..j] + [s[j]] + s[j + 1..];
    assert s[..j][i] == s[i];
    assert s[i] in multiset(s[..j]);
  }

  /** A permutation of a duplicate-free sequence is duplicate-free. */
  lemma PermutationDistinct<T>(a: seq<T>, b: seq<T>)
    requires multiset(a) == multiset(b) && Distinct(a)
    ensures Distinct(b)
  {
    DistinctCount(a);
    forall i, j | 0 <= i < j < |b| ensures b[i] != b[j] {
      if b[i] == b[j] {
        DupCount(b, i, j);
        assert false;
      }
    }
  }

  /** How many of `t` are at most `x`. */
  function CountAtMost(t: seq<int>, x: int): (n: nat)
    ensures n <= |t|
    decreases |t|
  {
    if |t| == 0 then 0 else (if t[0] <= x then 1 else 0) + CountAtMost(t[1..], x)
  }

  lemma {:induction false} CountAtMostMonotone(t: seq<int>, x: int, y: int)
    requires x <= y
    ensures CountAtMost(t, x) <= CountAtMost(t, y)
    decreases |t|
  {
    if |t| > 0 { CountAtMostMonotone(t[1..], x, y); }
  }

  /** `s.map(f)`. */
  function Map<A, B>(s: seq<A>, f: A -> B): (r: seq<B>)
    ensures |r| == |s|
    ensures forall i :: 0 <= i < |s| ==> r[i] == f(s[i])
  {
    seq(|s|, i requires 0 <= i < |s| => f(s[i]))
  }

  /** Mapping two permutations of each other gives permutations of each other. */
  lemma {:induction false} MapMultiset<A, B>(a: seq<A>, b: seq<A>, f: A -> B)
    requires multiset(a) == multiset(b)
    ensures multiset(Map(a, f)) == multiset(Map(b, f))
    decreases |a|
  {
    if |a| == 0 {
      assert |b| == |multiset(b)| == 0;
    } else {
      RemoveMatch(a, b);
      var j :| 0 <= j < |b| && b[j] == a[0] && multiset(a[1..]) == multiset(RemoveAt(b, j));
      MapMultiset(a[1..], RemoveAt(b, j), f);
      MapRemoveAt(b, j, f);
      RemoveAtMultiset(Map(b, f), j);
      assert Map(a, f) == [f(a[0])] + Map(a[1..], f);
    }
  }

  /** The head of one permutation sits somewhere in the other, and the rests
      are permutations of each other. */
  lemma RemoveMatch<T>(a: seq<T>, b: seq<T>)
    requires multiset(a) == multiset(b) && |a| > 0
    ensures exists j :: 0 <= j < |b| && b[j] == a[0] && multiset(a[1..]) == multiset(RemoveAt(b, j))
  {
    var x := a[0];
    assert x in multiset(b);
    var j :| 0 <= j < |b| && b[j] == x;
    RemoveAtMultiset(b, j);
    assert a == [x] + a[1..];
    MultisetCancel(x, multiset(a[1..]), multiset(RemoveAt(b, j)));
  }

  lemma MultisetCancel<T>(x: T, m: multiset<T>, n: multiset<T>)
    requires m + multiset{x} == n + multiset{x}
    ensures m == n
  {
    forall y ensures m[y] == n[y] {
      assert (m + multiset{x})[y] == (n + multiset{x})[y];
    }
  }

  lemma MapRemoveAt<A, B>(s: seq<A>, i: nat, f: A -> B)
    requires i < |s|
    ensures Map(RemoveAt(s, i), f) == RemoveAt(Map(s, f), i)
  {
  }

  /** Filtering after a map is mapping after the matching filter. */
  lemma {:induction false} FilterMap<A, B>(s: seq<A>, f: A -> B, p: B -> bool, q: A -> bool)
    requires forall x :: p(f(x)) == q(x)
    ensures Filter(Map(s, f), p) == Map(Filter(s, q), f)
    decreases |s|
  {
    if |s| > 0 {
      FilterMap(s[1..], f, p, q);
      assert Map(s, f)[1..] == Map(s[1..], f);
      assert p(f(s[0])) == q(s[0]);
      if q(s[0]) {
        assert Map(Filter(s, q), f) == [f(s[0])] + Map(Filter(s[1..], q), f);
      }
    }
  }

  /** Two lists holding the same elements, the first with non-decreasing
      keys and the second with strictly increasing keys, are equal. */
  lemma {:induction false} SortedByKeyUnique<T>(a: seq<T>, b: seq<T>, key: T -> int)
    requires forall i, j :: 0 <= i < j < |a| ==> key(a[i]) <= key(a[j])
    requires forall i, j :: 0 <= i < j < |b| ==> key(b[i]) < key(b[j])
    requires multiset(a) == multiset(b)
    ensures a == b
    decreases |b|
  {
    assert |a| == |multiset(a)| == |b|;
    if |b| > 0 {
      SortedByKeyHead(a, b, key);
      SortedByKeyTail(a, b, key);
      SortedByKeyUnique(a[1..], b[1..], key);
      assert a == [a[0]] + a[1..] && b == [b[0]] + b[1..];
    }
  }

  lemma SortedByKeyHead<T>(a: seq<T>, b: seq<T>, key: T -> int)
    requires forall i, j :: 0 <= i < j < |a| ==> key(a[i]) <= key(a[j])
    requires forall i, j :: 0 <= i < j < |b| ==> key(b[i]) < key(b[j])
    requires multiset(a) == multiset(b) && |b| > 0
    ensures |a| > 0 && a[0] == b[0]
  {
    assert |a| == |multiset(a)| == |b|;
    assert a[0] in multiset(b);
    var j :| 0 <= j < |b| && b[j] == a[0];
    assert b[0] in multiset(a);
    var i :| 0 <= i < |a| && a[i] == b[0];
    if j > 0 {
      assert key(b[0]) < key(b[j]);
    }
  }

  lemma SortedByKeyTail<T>(a: seq<T>, b: seq<T>, key: T -> int)
    requires forall i, j :: 0 <= i < j < |a| ==> key(a[i]) <= key(a[j])
    requires forall i, j :: 0 <= i < j < |b| ==> key(b[i]) < key(b[j])
    requires multiset(a) == multiset(b) && |a| > 0 && |b| > 0 && a[0] == b[0]
    ensures forall i, j :: 0 <= i < j < |a[1..]| ==> key(a[1..][i]) <= key(a[1..][j])
    ensures forall i, j :: 0 <= i < j < |b[1..]| ==> key(b[1..][i]) < key(b[1..][j])
    ensures multiset(a[1..]) == multiset(b[1..])
  {
    TailMultiset(a, b);
    forall i, j | 0 <= i < j < |a[1..]| ensures key(a[1..][i]) <= key(a[1..][j]) {
      assert a[1..][i] == a[i + 1] && a[1..][j] == a[j + 1];
    }
    forall i, j | 0 <= i < j < |b[1..]| ensures key(b[1..][i]) < key(b[1..][j]) {
      assert b[1..][i] == b[i + 1] && b[1..][j] == b[j + 1];
    }
  }

  lemma TailMultiset<T>(a: seq<T>, b: seq<T>)
    requires multiset(a) == multiset(b) && |a| > 0 && |b| > 0 && a[0] == b[0]
    ensures multiset(a[1..]) == multiset(b[1..])
  {
    assert a == [a[0]] + a[1..] && b == [b[0]] + b[1..];
    assert multiset(a) == multiset(a[1..]) + multiset{a[0]};
    assert multiset(b) == multiset(b[1..]) + multiset{a[0]};
    MultisetCancel(a[0], multiset(a[1..]), multiset(b[1..]));
  }
}

=== FILE: Sorting.dfy ===
/** `Array.prototype.sort(compare)`. Since ES2019 the sort is required to be
    stable (ECMA-262, 2023 edition, section 23.1.3.30); it is modelled as a
    stable insertion sort driven by the comparator's sign: a negative or zero
    result keeps the earlier element first. When the comparator is not
    consistent the standard leaves the order implementation-defined; this
    model then still returns the insertion-sort order. */
module Sorting {
  import opened Seqs

  /** Places `x` (an element that came earlier in the input than all of `ys`)
      before the first element it does not compare greater than. */
  function Insert<T>(x: T, ys: seq<T>, cmp: (T, T) -> int): (r: seq<T>)
    ensures |r| == |ys| + 1
    ensures multiset(r) == multiset(ys) + multiset{x}
    decreases |ys|
  {
    if |ys| == 0 then [x]
    else if cmp(x, ys[0]) <= 0 then [x] + ys
    else
      assert ys == [ys[0]] + ys[1..];
      [ys[0]] + Insert(x, ys[1..], cmp)
  }

  function Sort<T>(xs: seq<T>, cmp: (T, T) -> int): (r: seq<T>)
    ensures |r| == |xs|
    ensures multiset(r) == multiset(xs)
    decreases |xs|
  {
    if |xs| == 0 then []
    else
      assert xs == [xs[0]] + xs[1..];
      Insert(xs[0], Sort(xs[1..], cmp), cmp)
  }

  /** Every earlier element is `le` every later one. */
  ghost predicate SortedBy<T>(s: seq<T>, le: (T, T) -> bool) {
    forall i, j :: 0 <= i < j < |s| ==> le(s[i], s[j])
  }

  lemma {:induction false} InsertSorted<T>(x: T, ys: seq<T>, cmp: (T, T) -> int, le: (T, T) -> bool)
    requires SortedBy(ys, le)
    requires forall e :: e in ys ==> (cmp(x, e) <= 0 ==> le(x, e)) && (cmp(x, e) > 0 ==> le(e, x))
    requires forall a, b, c :: a in ys && b in ys && c in ys && le(a, b) && le(b, c) ==> le(a, c)
    requires forall a, c :: a in ys && c in ys && le(a, x) && le(x, c) ==> le(a, c)
    requires forall a, c :: a in ys && c in ys && le(x, a) && le(a, c) ==> le(x, c)
    ensures SortedBy(Insert(x, ys, cmp), le)
    decreases |ys|
  {
    if |ys| == 0 {
    } else if cmp(x, ys[0]) <= 0 {
      forall e | e in ys ensures le(x, e) {
        var k :| 0 <= k < |ys| && ys[k] == e;
        if k > 0 {
          assert le(ys[0], ys[k]);
        }
      }
      ConsSorted(x, ys, le);
    } else {
      var tail := ys[1..];
      assert forall e :: e in tail ==> e in ys;
      InsertSorted(x, tail, cmp, le);
      var t := Insert(x, tail, cmp);
      forall e | e in t ensures le(ys[0], e) {
        assert e in multiset(t);
        if e != x {
          var k :| 0 <= k < |tail| && tail[k] == e;
          assert ys[k + 1] == e;
        }
      }
      ConsSorted(ys[0], t, le);
    }
  }

  /** An element below everything in a sorted list can go in front of it. */
  lemma ConsSorted<T>(y: T, t: seq<T>, le: (T, T) -> bool)
    requires SortedBy(t, le)
    requires forall e :: e in t ==> le(y, e)
    ensures SortedBy([y] + t, le)
  {
  }

  /** When the comparator's sign agrees with a transitive relation `le` on the
      input's elements, the sorted output is ordered by `le`. */
  lemma {:induction false} SortSorted<T>(xs: seq<T>, cmp: (T, T) -> int, le: (T, T) -> bool)
    requires forall a, b :: a in xs && b in xs ==>
      (cmp(a, b) <= 0 ==> le(a, b)) && (cmp(a, b) > 0 ==> le(b, a))
    requires forall a, b, c :: a in xs && b in xs && c in xs && le(a, b) && le(b, c) ==> le(a, c)
    ensures SortedBy(Sort(xs, cmp), le)
    decreases |xs|
  {
    if |xs| > 0 {
      var tail := xs[1..];
      assert forall e :: e in tail ==> e in xs;
      SortSorted(tail, cmp, le);
      var s := Sort(tail, cmp);
      assert forall e :: e in s ==> e in tail by {
        forall e | e in s ensures e in tail {
          assert e in multiset(s);
        }
      }
      InsertSorted(xs[0], s, cmp, le);
    }
  }

  lemma {:induction false} FilterInsert<T>(x: T, ys: seq<T>, cmp: (T, T) -> int, p: T -> bool)
    requires p(x) ==> forall e :: e in ys && p(e) ==> cmp(x, e) <= 0
    ensures Filter(Insert(x, ys, cmp), p) == (if p(x) then [x] else []) + Filter(ys, p)
    decreases |ys|
  {
    FilterSingleton(x, p);
    if |ys| == 0 {
    } else if cmp(x, ys[0]) <= 0 {
      FilterConcat([x], ys, p);
    } else {
      var tail := ys[1..];
      assert forall e :: e in tail ==> e in ys;
      FilterInsert(x, tail, cmp, p);
      FilterPastHead(x, ys, Insert(x, tail, cmp), p);
    }
  }

  /** The step of `FilterInsert` where `x` goes past the head `ys[0]`,
      which `p` then cannot hold for when it holds for `x`. */
  lemma FilterPastHead<T>(x: T, ys: seq<T>, t: seq<T>, p: T -> bool)
    requires |ys| > 0 && (p(x) ==> !p(ys[0]))
    requires Filter(t, p) == (if p(x) then [x] else []) + Filter(ys[1..], p)
    ensures Filter([ys[0]] + t, p) == (if p(x) then [x] else []) + Filter(ys, p)
  {
  }

  /** Stability: a group of elements that pairwise compare `<= 0` in input
      order comes out in input order. */
  lemma {:induction false} SortStable<T>(xs: seq<T>, cmp: (T, T) -> int, p: T -> bool)
    requires forall i, j :: 0 <= i < j < |xs| && p(xs[i]) && p(xs[j]) ==> cmp(xs[i], xs[j]) <= 0
    ensures Filter(Sort(xs, cmp), p) == Filter(xs, p)
    decreases |xs|
  {
    if |xs| > 0 {
      var tail := xs[1..];
      SortStable(tail, cmp, p);
      var s := Sort(tail, cmp);
      forall e | e in s && p(e) && p(xs[0]) ensures cmp(xs[0], e) <= 0 {
        assert e in multiset(s);
        assert e in tail;
        var k :| 0 <= k < |tail| && tail[k] == e;
        assert xs[k + 1] == e;
      }
      FilterInsert(xs[0], s, cmp, p);
    }
  }
}

=== FILE: Text.dfy ===
/** String helpers standing in for the JavaScript built-ins the source calls:
    `trim`, `split(/\s+/)`, `toLowerCase`, `includes`, `lastIndexOf` and the
    decimal rendering of integers in template literals. */
module Text {
  import opened Wrappers

  /** JavaScript's WhiteSpace and LineTerminator code points: the characters
      removed by `trim` and matched by `\s` (ECMA-262, 2023 edition, sections
      12.2 and 12.3). */
  predicate IsWs(c: char) {
    c == ' ' || c == '\t' || c == '\n' || c == '\r' || c == '\U{000B}' || c == '\U{000C}' ||
    c == '\U{00A0}' || c == '\U{1680}' || ('\U{2000}' <= c <= '\U{200A}') ||
    c == '\U{2028}' || c == '\U{2029}' || c == '\U{202F}' || c == '\U{205F}' ||
    c == '\U{3000}' || c == '\U{FEFF}'
  }

  /** Every character is white space (true of the empty string). */
  predicate Blank(s: string) {
    forall i :: 0 <= i < |s| ==> IsWs(s[i])
  }

  predicate NoWs(s: string) {
    forall i :: 0 <= i < |s| ==> !IsWs(s[i])
  }

  /** Number of white-space characters at the start of `s`. */
  function LeadWs(s: string): (n: nat)
    ensures n <= |s|
    ensures forall k :: 0 <= k < n ==> IsWs(s[k])
    ensures n == |s| || !IsWs(s[n])
    decreases |s|
  {
    if |s| > 0 && IsWs(s[0]) then
      var m := LeadWs(s[1..]);
      assert forall k :: 1 <= k < 1 + m ==> s[k] == s[1..][k - 1];
      1 + m
    else 0
  }

  /** Number of white-space characters at the end of `s`. */
  function TrailWs(s: string): (n: nat)
    ensures n <= |s|
    ensures forall k :: |s| - n <= k < |s| ==> IsWs(s[k])
    ensures n == |s| || !IsWs(s[|s| - n - 1])
    decreases |s|
  {
    if |s| > 0 && IsWs(s[|s| - 1]) then
      var m := TrailWs(s[..|s| - 1]);
      assert forall k :: |s| - 1 - m <= k < |s| - 1 ==> s[k] == s[..|s| - 1][k];
      1 + m
    else 0
  }

  /** `s` with its leading white space removed. */
  function TrimStart(s: string): (r: string)
    ensures |r| <= |s| && r == s[|s| - |r|..]
    ensures |r| == 0 || !IsWs(r[0])
  {
    s[LeadWs(s)..]
  }

  /** `r` is the infix of `s` starting at `i`, and only white space lies outside it. */
  predicate TrimmedAt(s: string, r: string, i: int) {
    0 <= i <= |s| - |r| && r == s[i..i + |r|] &&
    (forall k :: 0 <= k < i ==> IsWs(s[k])) &&
    (forall k :: i + |r| <= k < |s| ==> IsWs(s[k]))
  }

  /** `s.trim()`: the infix of `s` left after removing white space at both ends. */
  function Trim(s: string): (r: string)
    ensures TrimmedAt(s, r, LeadWs(s))
    ensures |r| == 0 || (!IsWs(r[0]) && !IsWs(r[|r| - 1]))
    ensures |r| == 0 <==> Blank(s)
  {
    var i := LeadWs(s);
    if i == |s| then
      assert s[i..i] == "";
      ""
    else
      var n := TrailWs(s);
      assert i < |s| - n;
      var r := s[i..|s| - n];
      assert r[0] == s[i] && r[|r| - 1] == s[|s| - n - 1];
      r
  }

  /** ASCII and Latin-1 upper-case letters mapped to lower case. */
  function LowerChar(c: char): (r: char)
    ensures 'A' <= c <= 'Z' ==> r as int == c as int + 32
    ensures !('A' <= c <= 'Z') && !('\U{00C0}' <= c <= '\U{00DE}') ==> r == c
  {
    if 'A' <= c <= 'Z' || ('\U{00C0}' <= c <= '\U{00DE}' && c != '\U{00D7}') then
      (c as int + 32) as char
    else c
  }

  /** `s.toLowerCase()` over the characters `LowerChar` covers. */
  function Lower(s: string): (r: string)
    ensures |r| == |s|
    ensures forall i :: 0 <= i < |s| ==> r[i] == LowerChar(s[i])
  {
    seq(|s|, i requires 0 <= i < |s| => LowerChar(s[i]))
  }

  /** `s.includes(t)`. */
  predicate Contains(s: string, t: string) {
    exists i :: 0 <= i <= |s| - |t| && OccursAt(s, t, i)
  }

  /** `t` occurs in `s` starting at position `i`. */
  predicate OccursAt(s: string, t: string, i: int) {
    0 <= i && i + |t| <= |s| && s[i..i + |t|] == t
  }

  /** `s.lastIndexOf([c])`: the last position of `c`, or -1. */
  function LastIndexOf(s: string, c: char): (r: int)
    ensures -1 <= r < |s|
    ensures r == -1 <==> c !in s
    ensures r >= 0 ==> s[r] == c && forall k :: r < k < |s| ==> s[k] != c
    decreases |s|
  {
    if |s| == 0 then -1
    else if s[|s| - 1] == c then |s| - 1
    else
      var k := LastIndexOf(s[..|s| - 1], c);
      assert c in s ==> c in s[..|s| - 1] by {
        if c in s {
          var j :| 0 <= j < |s| && s[j] == c;
          assert s[..|s| - 1][j] == c;
        }
      }
      k
  }

  /** `t.split(/\s+/)`: the pieces between maximal runs of white space. A
      leading or trailing run yields an empty first or last piece, and the
      empty string yields one empty piece. */
  function Split(t: string): (r: seq<string>)
    ensures |r| >= 1
    ensures forall i :: 0 <= i < |r| ==> NoWs(r[i])
    decreases |t|
  {
    if |t| == 0 then [""]
    else if IsWs(t[0]) then [""] + Split(TrimStart(t[1..]))
    else
      var rest := Split(t[1..]);
      [[t[0]] + rest[0]] + rest[1..]
  }

  /** Number of maximal runs of white space in `t` (counted at each run's last character). */
  function WsRuns(t: string): nat
    decreases |t|
  {
    if |t| == 0 then 0
    else (if IsWs(t[0]) && (|t| == 1 || !IsWs(t[1])) then 1 else 0) + WsRuns(t[1..])
  }

  lemma {:induction false} WsRunsBlankPrefix(w: string, u: string)
    requires |w| > 0 && Blank(w)
    requires |u| == 0 || !IsWs(u[0])
    ensures WsRuns(w + u) == 1 + WsRuns(u)
    decreases |w|
  {
    var s := w + u;
    assert s[1..] == w[1..] + u;
    if |w| > 1 {
      WsRunsBlankPrefix(w[1..], u);
    } else {
      assert s[1..] == u;
    }
  }

  /** `split(/\s+/)` yields one more piece than there are runs of white space. */
  lemma {:induction false} SplitCountsRuns(t: string)
    ensures |Split(t)| == 1 + WsRuns(t)
    decreases |t|
  {
    if |t| > 0 {
      if IsWs(t[0]) {
        var u := TrimStart(t[1..]);
        SplitCountsRuns(u);
        var w := LeadingRun(t);
        WsRunsBlankPrefix(w, u);
      } else {
        SplitCountsRuns(t[1..]);
      }
    }
  }

  /** A string starting with white space is its leading run followed by
      the rest with that run removed. */
  function LeadingRun(t: string): (w: string)
    requires |t| > 0 && IsWs(t[0])
    ensures |w| > 0 && Blank(w) && t == w + TrimStart(t[1..])
  {
    var k := LeadWs(t[1..]);
    var w := t[..k + 1];
    assert forall i :: 0 < i < |w| ==> w[i] == t[1..][i - 1];
    assert t == w + t[1..][k..];
    w
  }

  /** The decimal digit character for `d < 10`. */
  function Digit(d: nat): (c: char)
    requires d < 10
    ensures '0' <= c <= '9'
    ensures c as int - '0' as int == d
  {
    ('0' as int + d) as char
  }

  predicate IsDigits(s: string) {
    forall i :: 0 <= i < |s| ==> '0' <= s[i] <= '9'
  }

  /** The value of a string of decimal digits (0 for the empty string). */
  function ParseNat(s: string): nat
    requires IsDigits(s)
    decreases |s|
  {
    if |s| == 0 then 0
    else 10 * ParseNat(s[..|s| - 1]) + (s[|s| - 1] as int - '0' as int)
  }

  /** Decimal rendering of a non-negative integer, as `String(n)` gives it
      (no sign, no leading zero). */
  function NatToString(n: nat): (r: string)
    ensures |r| >= 1 && IsDigits(r)
    ensures ParseNat(r) == n
    ensures r[0] == '0' ==> n == 0
    decreases n
  {
    if n < 10 then [Digit(n)]
    else
      var r := NatToString(n / 10) + [Digit(n % 10)];
      assert r[..|r| - 1] == NatToString(n / 10);
      r
  }

  /** Decimal rendering of an integer: a minus sign before negative values. */
  function IntToString(i: int): (r: string)
    ensures i >= 0 ==> r == NatToString(i)
    ensures i < 0 ==> |r| >= 2 && r[0] == '-' && r[1..] == NatToString(-i)
  {
    if i < 0 then "-" + NatToString(-i) else NatToString(i)
  }

  /** Reads back a rendering produced by `IntToString`. */
  function ParseInt(s: string): (r: int)
    requires IsDigits(s) || (|s| >= 1 && s[0] == '-' && IsDigits(s[1..]))
  {
    if |s| >= 1 && s[0] == '-' then -(ParseNat(s[1..]) as int) else ParseNat(s)
  }

  lemma IntToStringRoundTrip(i: int)
    ensures var s := IntToString(i);
            (IsDigits(s) || (|s| >= 1 && s[0] == '-' && IsDigits(s[1..]))) && ParseInt(s) == i
  {
  }

  /** `s.indexOf(c)`: the first position of `c`, or -1. */
  function IndexOf(s: string, c: char): (r: int)
    ensures -1 <= r < |s|
    ensures r == -1 <==> c !in s
    ensures r >= 0 ==> s[r] == c && forall k :: 0 <= k < r ==> s[k] != c
    decreases |s|
  {
    if |s| == 0 then -1
    else if s[0] == c then 0
    else
      var k := IndexOf(s[1..], c);
      assert c in s ==> c in s[1..] by {
        if c in s {
          var j :| 0 <= j < |s| && s[j] == c;
          assert s[1..][j - 1] == c;
        }
      }
      if k == -1 then -1 else 1 + k
  }

  /** Reads back "<digits><sep><digits>", the shape of the source's record and
      score strings; `None` for anything else. */
  function ParsePair(s: string, sep: char): (r: Option<(nat, nat)>)
  {
    var i := IndexOf(s, sep);
    if 0 < i < |s| - 1 && IsDigits(s[..i]) && IsDigits(s[i + 1..]) then
      Some((ParseNat(s[..i]), ParseNat(s[i + 1..])))
    else None
  }

  /** Two digit strings joined by a non-digit separator read back as their values. */
  lemma PairOfDigits(x: string, y: string, sep: char)
    requires |x| >= 1 && |y| >= 1 && IsDigits(x) && IsDigits(y)
    requires !('0' <= sep <= '9')
    ensures ParsePair(x + [sep] + y, sep) == Some((ParseNat(x), ParseNat(y)))
  {
    var s := x + [sep] + y;
    assert s[|x|] == sep;
    assert sep in s;
    assert forall k :: 0 <= k < |x| ==> s[k] == x[k];
    assert IndexOf(s, sep) == |x|;
    assert s[..|x|] == x;
    assert s[|x| + 1..] == y;
  }

  /** Joining two renderings with a non-digit separator loses nothing. */
  lemma PairRoundTrip(a: nat, b: nat, sep: char)
    requires !('0' <= sep <= '9')
    ensures ParsePair(NatToString(a) + [sep] + NatToString(b), sep) == Some((a, b))
  {
    PairOfDigits(NatToString(a), NatToString(b), sep);
  }

  /** For `n >= 10` the rendering ends in the tens digit and then the units digit. */
  lemma {:induction false} LastTwoDigits(n: nat)
    requires n >= 10
    ensures var r := NatToString(n);
            |r| >= 2 && r[|r| - 1] == Digit(n % 10) && r[|r| - 2] == Digit((n / 10) % 10)
  {
  }

  /** Code-unit order on strings, as `<` compares them (ECMA-262, 2023
      edition, section 7.2.13): a proper prefix comes first. */
  predicate StrLe(a: string, b: string)
    decreases |a|
  {
    |a| == 0 || (|b| > 0 && (a[0] < b[0] || (a[0] == b[0] && StrLe(a[1..], b[1..]))))
  }

  lemma {:induction false} StrLeRefl(a: string)
    ensures StrLe(a, a)
    decreases |a|
  {
    if |a| > 0 { StrLeRefl(a[1..]); }
  }

  lemma {:induction false} StrLeTotal(a: string, b: string)
    ensures StrLe(a, b) || StrLe(b, a)
    decreases |a|
  {
    if |a| > 0 && |b| > 0 && a[0] == b[0] { StrLeTotal(a[1..], b[1..]); }
  }

  lemma {:induction false} StrLeAntisym(a: string, b: string)
    requires StrLe(a, b) && StrLe(b, a)
    ensures a == b
    decreases |a|
  {
    if |a| > 0 {
      StrLeAntisym(a[1..], b[1..]);
      assert a == [a[0]] + a[1..] && b == [b[0]] + b[1..];
    }
  }

  lemma {:induction false} StrLeTrans(a: string, b: string, c: string)
    requires StrLe(a, b) && StrLe(b, c)
    ensures StrLe(a, c)
    decreases |a|
  {
    if |a| > 0 && a[0] == b[0] && b[0] == c[0] { StrLeTrans(a[1..], b[1..], c[1..]); }
  }
}

=== FILE: Wrappers.dfy ===
/** Option, used for the source's `undefined`, `null` and NaN values. */
module Wrappers {

  datatype Option<+T> = None | Some(value: T) {

    /** The wrapped value, or `default` when there is none. */
    function GetOr(default: T): T {
      match this
      case Some(v) => v
      case None => default
    }
  }
}
